=== FILE: README.md ===
# Swap Lane — a verified model of the game logic

Swap Lane is a lane-driving browser game that exists in several versions side
by side:

- the six-lane canvas game: game.js, playerCar.js and enemyCar.js;
- two three-lane prototypes: swapline.js steers freely, dist/swapline.js snaps
  to lanes;
- a seven-lane React component: src/components/Road.tsx.

This project models the logic under their drawing code in Dafny and proves
what that logic promises:

- the road-segment window that follows the camera;
- the box collision test, the impact direction and the impulse between two cars;
- scoring by cars passed, the latched game-over flag and the high score;
- the traffic cars' lane-change state machine and the drunk-driver variant;
- the traffic manager's spawn rule, off-screen removal and pairwise collisions;
- the pedal and speed rules and the position clamps of every version;
- the three-lane prototypes' obstacle handling and lane requests;
- the React component's per-car step function over immutable records.

Modules and files:

| file | module | source |
|---|---|---|
| wrappers.dfy | `Wrappers` | `Option`, `Direction`, random streams |
| sequences.dfy | `Sequences` | `Array.prototype.filter` on sequences |
| collision.dfy | `Collision` | hitboxes, overlap, impact, force and friction, shared by game.js, playerCar.js and enemyCar.js |
| game_config.dfy | `GameConfig` | the six-lane game's constants |
| road_window.dfy | `RoadWindow` | `generateRoadIfNeeded` (game.js and swapline.js) |
| player_car.dfy | `Player` | playerCar.js |
| enemy_car.dfy | `Traffic` | `EnemyCar` and `DrunkDriver` of enemyCar.js |
| enemy_car_manager.dfy | `TrafficManager` | `EnemyCarManager` of enemyCar.js |
| game.dfy | `SwapLane` | game.js: the steering wheel and `Game` |
| prototype_config.dfy | `PrototypeConfig` | constants and rules shared by the two prototypes |
| free_steer.dfy | `FreeSteer` | swapline.js |
| lane_snap.dfy | `LaneSnap` | dist/swapline.js |
| react_road.dfy | `ReactRoad` | src/components/Road.tsx, with the record of src/types.ts |

Code that updates objects or globals in place is modelled as classes whose
methods have `modifies` clauses and full postconditions. This covers the cars,
the manager, the game, the road window and the prototypes' global state. Each
such method is proved against a specification function or predicate whose
properties are proved as lemmas:

| method | specification |
|---|---|
| `GenerateIfNeeded` | `Grow` and `Trim` |
| `Tally`, `CrashIfHit` | `FirstCollision` |
| `RemoveAndProcess` | `Kept` |
| `UpdateObstacles` (dist/swapline.js) | `Advanced` |

The React component is modelled as functions over a `RoadState` record, as its
`setState` updaters are.

The inputs the model takes as parameters or events:

- Every `Math.random()` value is either a parameter or a stream
  `rand: nat -> real` of values in [0, 1). The stream is read at a cursor that
  advances once per draw, in the order the source draws.
- `Date.now()` and the frame timestamp are parameters.
- Every `setTimeout` or `setInterval` callback becomes an explicit event
  method.
- A sprite's display size is `None` until its image has loaded. Before then
  the size is `undefined` in the source, every comparison with it is false,
  and so the car neither collides nor hits a wall.

Behaviours of the code that the model keeps:

- A wall contact of the player (playerCar.js:105-113) only applies an impulse
  and does not end the run.
- The six-lane drunk driver never completes a lane change. The manager asks
  it with the same 0.5% per-frame chance as other cars whenever none of its
  `isChangingLanes`, `emergencySwerve` and `isColliding` flags is set
  (enemyCar.js:587). Its `startLaneChange`
  (enemyCar.js:365-395) returns at once while that flag is set (line 366).
  Otherwise it sets the target lane and signal and arms a 500 to 1500 ms
  timer (lines 389-394), without any safety check. A request made while a
  timer is still pending overwrites the target and signal and arms one more
  timer. When a timer fires it sets `isChangingLanes`, but the drunk
  driver's `update` (enemyCar.js:397-425) never steers towards the target
  lane, so arriving never clears the flag. From then on the manager stops
  asking, and the car only drifts sideways by its swerve. A collision clears
  `isChangingLanes` but sets `isColliding` (enemyCar.js:185-199), which
  nothing clears, so a car that has collided is never asked again. Only the
  React component's drunk cars jump lanes at once, with a 2% chance.
- game.js keeps moving the player and traffic after game over. Only the
  scoring pass is switched off (game.js:320).
- The scoring pass stops at the first car that hits the player (game.js:393).
  Cars after it in the list are not checked for passing in that frame.
- src/types.ts declares lanes 0 to 4, but Road.tsx uses seven lanes (0 to 6).
  The model uses seven.

## Model

| member | source | states |
|---|---|---|
| Collision.Clamp | playerCar.js:116 | the result lies in [lo, hi] when lo <= hi; a value inside is kept, one below gives lo, one above gives hi |
| Collision.CenteredBox | game.js:329-341 | the box has the sprite's width and height and is centred on the car's position |
| Collision.Hitbox | game.js:323-341 | a hitbox exists exactly when the sprite size is known, and it is then the centred box |
| Collision.OverlapsSymmetric | game.js:344-347 | the overlap test, and the collision of two known boxes, are symmetric in the two boxes |
| Collision.TouchingBoxesDoNotOverlap | game.js:344-347 | the test is strict: boxes that only share an edge do not overlap |
| Collision.CenteredOverlapIffClose | game.js:329-347 | two centred boxes overlap exactly when their centres are closer than half the summed widths and half the summed heights |
| Collision.Impact.Neg | game.js:382 | the negated impact has both components negated |
| Collision.ImpactDirection | game.js:357-373 | the impact is an axis unit vector; each of the four results is returned exactly when its overlap is the minimum and no earlier one in the order left, right, top, bottom equals it |
| Collision.ImpactDirectionSwapped | enemyCar.js:554-579 | with a unique smallest overlap, the direction computed from the other car is the exact opposite |
| Collision.ImpactDirectionTieNotSwapped | enemyCar.js:560-570 | on a tie the direction is not antisymmetric: two coinciding boxes both get (-1, 0), which is why the second car is given the negated vector |
| Collision.Normalize | game.js:376-378 | the normalised vector times the length gives back the original vector |
| Collision.NormalizeKeepsDirection | game.js:376-378 | for an axis unit vector the root of its squared length is 1 and normalising leaves it unchanged |
| Collision.CollisionForce | game.js:350 | the force is at least 1 and at least the speed difference, and equals one of them |
| Collision.CollisionForceSymmetric | enemyCar.js:547 | both cars of a pair get the same force |
| Collision.WallImpactX | playerCar.js:109 | the wall impact is 1 or -1 and always points from the car towards the road centre |
| Collision.Motion.Impulse | playerCar.js:49-55 | the velocity grows by impact times force, and the random spin added is at most force * 0.05 either way |
| Collision.Settle | playerCar.js:65-74 | friction decays the velocity and the spin, and the result is exactly at rest if and only if all three decayed values are negligible |
| Collision.SettleShrinks | playerCar.js:65-74 | friction never increases a speed or the spin and never reverses a direction |
| Collision.SettleAtRest | playerCar.js:70-74 | a car at rest stays at rest |
| GameConfig.RoadLeft | game.js:104-105 | the road is centred on the canvas |
| GameConfig.LaneCenter | enemyCar.js:9 | a lane's centre lies strictly inside that lane, and inside the road for lanes 0 to 5 |
| GameConfig.LaneCentersSpaced | enemyCar.js:231 | neighbouring lane centres are one lane width apart |
| RoadWindow.StartY | game.js:236-237 | the first segment of an empty window is on the segment grid and is the last grid line at or ahead of the camera (smaller y is further ahead) |
| RoadWindow.OnGridStep | game.js:238 | a segment one length further ahead stays on the grid |
| RoadWindow.NextSegment | game.js:236-238 | a non-empty window is extended exactly one segment length ahead of its last segment |
| RoadWindow.Grow | game.js:232-240 | the first loop only appends: the old window is a prefix of the new one |
| RoadWindow.Trim | game.js:241-243 | eviction leaves a suffix of the window; the segments it dropped all lie further back than the limit and the new first one does not |
| RoadWindow.GrowCovers | game.js:232-235 | after the first loop the window is non-empty and its last segment lies at least a canvas height ahead of the camera |
| RoadWindow.GrowKeepsShape | game.js:236-239 | every appended segment lies exactly one segment length ahead of its predecessor and on the grid |
| RoadWindow.GrowStopsAtFirstCover | game.js:232-240 | the first loop appends at least one segment when needed and stops at the first one that reaches far enough |
| RoadWindow.TrimKeepsShape | game.js:241-243 | eviction keeps the spacing and the grid alignment |
| RoadWindow.TrimKeepsLast | game.js:241-243 | eviction never removes the last segment when it is within the limit |
| RoadWindow.GenerateCovers | game.js:231-244 | after a call the window is non-empty; its last segment is the one the first loop produced and reaches a canvas height ahead; its first segment is at most a canvas height behind |
| RoadWindow.GenerateKeepsShape | game.js:231-244 | a call keeps the window evenly spaced and on the grid |
| RoadWindow.GenerateKeepsTight | game.js:231-244 | while the camera moves forward, a window with no surplus segment ahead keeps having none |
| RoadWindow.WindowBounded | game.js:231-244 | such a window holds fewer than 2 * canvasHeight / 80 + 2 segments, so it never grows without bound |
| RoadWindow.RoadSegments.constructor | game.js:26 | the window starts empty and well formed |
| RoadWindow.RoadSegments.Clear | game.js:224 | a restart empties the window |
| RoadWindow.RoadSegments.GenerateIfNeeded | game.js:231-244 | the new window is the first loop followed by eviction on the old one; it keeps its shape, covers one canvas height ahead and starts within one canvas height behind (swapline.js:50-63 is the same routine) |
| RoadWindow.RoadSegments.Extend | game.js:232-240 | the push loop produces the `Grow` result and keeps the window's shape |
| RoadWindow.RoadSegments.Evict | game.js:241-243 | the shift loop produces the `Trim` result and keeps the window's shape |
| Player.NextSpeed | playerCar.js:89-98 | a speed in [0, 8] stays there; brake has priority and takes exactly 0.1 off down to 0; gas alone adds exactly 0.1 up to 8; with no pedal the speed loses exactly 0.02 down to 4, and a slower car is lifted to 4 |
| Player.NextSteeringSpeed | playerCar.js:78-80 | from rest the steering starts to turn towards the wheel's target; a car already at the target loses steering speed |
| Player.NextSteering | playerCar.js:81-86 | the steering speed is added; with the wheel released near centre the result is pulled towards straight without changing sign |
| Player.Sideways | playerCar.js:101 | the sideways move has the steering's sign and is at most 8 times the steering |
| Player.ClampAgainstWall | playerCar.js:105-116 | the clamp uses CAR_WIDTH but the wall test the sprite's width: a sprite no wider than CAR_WIDTH is clear of the walls once clamped, and a wider one clamped at the left edge still hits the wall |
| Player.GasFromRest | playerCar.js:92-94 | after n frames of gas from rest the speed is min(n * 0.1, 8) |
| Player.GasReachesTopSpeed | playerCar.js:94 | top speed is reached from rest exactly from frame 80 on |
| Player.SteeringTarget | playerCar.js:78 | the steering target has the wheel's sign and lies within ±0.5 for any wheel angle within its travel |
| Player.SteeringStaysStraight | playerCar.js:78-86 | a straight car with the wheel at centre keeps steering 0 |
| Player.PlayerCar.constructor | playerCar.js:3-19 | a new car is in its reset state with no sprite size yet |
| Player.PlayerCar.Reset | playerCar.js:21-43 | x at the road centre, y 0, speed 0, no steering, both pedals up, at rest and not colliding; the sprite size is kept |
| Player.PlayerCar.SpriteLoaded | playerCar.js:11-17 | the sprite is 90 tall and as wide as the image's aspect ratio makes it |
| Player.PlayerCar.SetPedal | playerCar.js:45-47 | only the named pedal changes |
| Player.PlayerCar.ApplyCollision | playerCar.js:49-55 | the velocity gets the impulse and the car is colliding |
| Player.PlayerCar.Drift | playerCar.js:58-74 | the car moves by its velocity and spins by its spin, then the motion settles |
| Player.PlayerCar.Drive | playerCar.js:76-103 | the steering spring, the pedal rule, a sideways move of speed times steering, and y decreasing by exactly the new speed |
| Player.PlayerCar.Update | playerCar.js:57-117 | drift when colliding, drive otherwise; a wall contact adds a force-2 impulse towards the centre; x ends clamped within half a car width of the edges; pedals and sprite unchanged; a colliding car stays colliding; one random value (the spin) is used, and the cursor advanced, exactly on a wall contact |
| Traffic.LaneOf | enemyCar.js:69 | x lies within the returned lane's strip of the road |
| Traffic.LaneOfCenter | enemyCar.js:69 | a car at a lane's centre is in that lane |
| Traffic.NearPlayerReach | enemyCar.js:118-125 | with no player the test is false; a player found near is within the avoidance distance on each axis; a player within half of it on both axes is always found |
| Traffic.EnemyCar.OffScreenIsBelowView | enemyCar.js:318-320 | a car is off screen exactly when it is drawn more than half a canvas height below the bottom of the view, and it stays off screen while the camera moves ahead |
| Traffic.AvoidanceDirection | enemyCar.js:129-135 | the swerve goes right exactly when the player is to the left |
| Traffic.LaneChangeTarget | enemyCar.js:150-157 | a target exists exactly when a lane lies on that side; it is lane - 1 or lane + 1 as asked, and within 0 to 5 |
| Traffic.ClearLatest | enemyCar.js:105 | clearing the latest lane-change timer cancels it if it is pending and changes nothing else |
| Traffic.EnemyCar.constructor | enemyCar.js:3-56 | a new car cruises at its lane's centre one car length above the top, at rest, with no signal and no timers; a drunk driver draws its first swerve |
| Traffic.EnemyCar.SpriteLoaded | enemyCar.js:14-20 | the sprite is 90 tall and as wide as the image's aspect ratio makes it |
| Traffic.EnemyCar.CheckNearbyCars | enemyCar.js:59-93 | the result is true exactly when a sober car finds the player, or another car, in the target lane inside its safe square; a drunk driver always gets false |
| Traffic.EnemyCar.StartEmergencySwerve | enemyCar.js:96-115 | idempotent while swerving; otherwise the swerve starts in the given direction, and a lane change under way is abandoned with its signal off and the latest timer cleared |
| Traffic.EnemyCar.StartLaneChange | enemyCar.js:137-183 | no-op while changing lanes or while a sober car swerves; a sober car near the player swerves away; a timer is armed exactly when a target lane exists and, for a sober car, no one blocks it; otherwise a blocked sober car swerves the other way |
| Traffic.EnemyCar.SignalTimerFires | enemyCar.js:178-182 | the lane change starts, the signal goes off and one pending timer is used up |
| Traffic.EnemyCar.SwerveTimerFires | enemyCar.js:111-114 | the swerve ends |
| Traffic.EnemyCar.DrunkSwerveTick | enemyCar.js:353-358 | a new swerve side and an intensity in [0.3, 0.6) |
| Traffic.EnemyCar.ApplyCollision | enemyCar.js:185-199 | the velocity gets the impulse, the car is colliding, and a lane change under way is abandoned as by a swerve |
| Traffic.EnemyCar.Update | enemyCar.js:201-258 | a colliding car drifts; any other car moves up by exactly its speed; a drunk driver steers by its swerve (enemyCar.js:397-425); a sober one swerves, approaches and snaps onto the target lane's centre, or straightens |
| Traffic.EnemyCar.Steer | enemyCar.js:223-256 | the fixed swerve moves sideways twice; the lane change approaches the target and, within 1 px, ends exactly at the lane centre in that lane; otherwise the steering returns towards 0 |
| Traffic.EnemyCar.Drift | enemyCar.js:202-218 | the car moves by its velocity and spins by its spin, then the motion settles |
| Traffic.EnemyCar.SteerToTargetLane | enemyCar.js:230-249 | within 1 px of the target centre the car snaps onto it, takes the lane, stops changing lanes and zeroes its steering; otherwise only the steering spring moves |
| TrafficManager.CarsInView | enemyCar.js:449-451 | the number of cars in view never exceeds the number of cars |
| TrafficManager.CarsInViewAppend | enemyCar.js:449-451 | appending a car adds one to the count exactly when it is within the spawn radius |
| TrafficManager.OffScreenFlags | enemyCar.js:318-320 | one flag per car, set exactly for the cars more than a canvas height behind the camera |
| TrafficManager.Survivors | enemyCar.js:496-503 | only cars of the list survive, and every unflagged car survives |
| TrafficManager.Kept | enemyCar.js:496-503 | removal never adds cars |
| TrafficManager.KeptExactly | enemyCar.js:496-503 | from a list without repetitions, exactly the cars that are not off screen are kept |
| TrafficManager.SurvivorsExactly | enemyCar.js:496-503 | a car survives exactly when it is not flagged, and the survivors have no repetitions |
| TrafficManager.SplitAt | enemyCar.js:496-503 | one step of the backward walk, dropping or keeping car i, extends the filtered tail by one |
| TrafficManager.DistinctRemove | enemyCar.js:501 | `splice` keeps a list without repetitions |
| TrafficManager.SpawnLane | enemyCar.js:459 | the drawn lane is the floor of draw * 6, in 0 to 5 |
| TrafficManager.SpawnDistance | enemyCar.js:466 | a new car spawns between 800 and 1000 ahead of the player |
| TrafficManager.ResolvePair | enemyCar.js:516-580 | the cars collide exactly when their hitboxes overlap; then they get opposite impulses of equal force max(1, speed difference) and both are colliding; otherwise both are unchanged |
| TrafficManager.NewTrafficCar | enemyCar.js:479-491 | a fresh car in its lane at the spawn height and half top speed, drunk exactly when the draw is below 0.2 |
| TrafficManager.EnemyCarManager.constructor | enemyCar.js:430-440 | no cars and no spawn yet |
| TrafficManager.EnemyCarManager.Reset | enemyCar.js:442-445 | no cars and no spawn yet |
| TrafficManager.EnemyCarManager.SpawnCar | enemyCar.js:447-492 | exactly one fresh car is appended, in the drawn lane and at the drawn distance, when fewer than 10 cars are in view and the spacing rule holds; otherwise the list is unchanged |
| TrafficManager.EnemyCarManager.ProcessCar | enemyCar.js:505-590 | processing car i keeps the manager well formed and leaves every car before it untouched |
| TrafficManager.EnemyCarManager.Update | enemyCar.js:494-599 | the remaining cars are exactly the old ones that were not off screen, in order, followed by at most one fresh car; a spawn happens only more than 1000 ms after the last |
| TrafficManager.EnemyCarManager.Visit | enemyCar.js:497-503 | car i is dropped when off screen and kept otherwise, extending the filtered tail |
| TrafficManager.EnemyCarManager.DropCar | enemyCar.js:501 | the car at index i leaves the list and the rest stay in order |
| TrafficManager.EnemyCarManager.RemoveAndProcess | enemyCar.js:496-591 | after the backward loop the list is exactly the old cars that were not off screen, in order |
| SwapLane.WrapDelta | game.js:72-74 | a turn is added or removed at most once, and a difference within one turn ends up within half a turn |
| SwapLane.DragDeltaBounded | game.js:71-75 | for two atan2 angles the wrapped difference is within ±180 and the scaled one within ±216 |
| SwapLane.DragAngle | game.js:72-76 | the wheel angle stays within ±540 and equals the start plus the scaled movement whenever that is within range |
| SwapLane.ReturnedAngle | game.js:85-92 | the wheel keeps 90% of its angle, and snaps to 0 exactly when that is within 0.1 |
| SwapLane.ReturnShrinks | game.js:85-92 | the returning wheel loses at least a tenth of its angle and never crosses the centre |
| SwapLane.FirstCollision | game.js:321-347 | the index of the first car whose hitbox overlaps the player's, or the number of cars when none does |
| SwapLane.BestScore | game.js:385-388 | the high score after a crash is the larger of the old high score and the score |
| SwapLane.SteeringWheel.constructor | game.js:38-42 | the wheel starts centred and released, with no return chain pending |
| SwapLane.SteeringWheel.Start | game.js:57-65 | the drag begins at the pointer's angle from the current wheel angle |
| SwapLane.SteeringWheel.Move | game.js:67-79 | a held wheel follows the drag within ±540; a released one does not move |
| SwapLane.SteeringWheel.ReturnStep | game.js:83-94 | a released wheel returns one frame towards centre and its chain schedules one more frame exactly when the wheel is still off centre; a held wheel is left as it is and its chain ends |
| SwapLane.SteeringWheel.End | game.js:81-96 | the wheel is released, takes the first step of a new return chain, and that chain stays pending exactly when the wheel is still off centre |
| SwapLane.SteeringWheel.AnimationFrame | game.js:83-94 | each of the k pending chains runs one return step: a released wheel ends at k returns of its old angle with as many chains pending as of those steps left it off centre; a held wheel keeps its angle and every chain ends |
| SwapLane.ReturnedTimes | game.js:85-92 | n returns towards centre never move the wheel further from centre and never carry it across centre |
| SwapLane.Rescheduled | game.js:88-91 | of n return steps at most n leave a chain pending |
| SwapLane.ReturnedTimesAdd | game.js:85-92 | m returns followed by n returns are m + n returns, so the chains' steps compose in any grouping |
| SwapLane.CentredStaysCentred | game.js:85-92 | a centred wheel stays centred under any number of returns and no chain is left pending |
| SwapLane.SteeringWheel.KeyLeft | game.js:163 | ten degrees left, stopping at -540 |
| SwapLane.SteeringWheel.KeyRight | game.js:164 | ten degrees right, stopping at 540 |
| SwapLane.SteeringWheel.Center | game.js:173-176 | the wheel is centred at once |
| SwapLane.Game.constructor | game.js:99-132 | score 0, game on, nothing passed, the stored high score, an empty road and no traffic |
| SwapLane.Game.Reset | game.js:206-229 | score 0, game on, nothing passed, the high score kept, the player reset, no traffic, the camera on the player, no road and the wheel centred |
| SwapLane.Game.RestartRequest | game.js:157-161 | a finished run restarts; during a run nothing changes |
| SwapLane.Game.KeyDown | game.js:156-168 | Space restarts only a finished run; arrows turn the wheel by ten degrees within its travel; up/W and down/S press only their pedal; any key but Space leaves the game, road and traffic unchanged and the player where it is; a key that is neither an arrow nor Space leaves the wheel alone, and one that is not a pedal key leaves the player alone |
| SwapLane.Game.KeyUp | game.js:170-177 | up/W and down/S release only their pedal; an arrow centres the wheel; the player does not move; other keys leave the wheel, and non-pedal keys the player, unchanged |
| SwapLane.Game.ScoreIfActive | game.js:320-401 | nothing changes in a finished run: score, passed set, high score, the player, every car and the random cursor stay as they were; in a live one the passed set grows exactly by the cars before the first collision that are behind the player, and the run ends exactly when some car hits |
| SwapLane.Game.CrashIfHit | game.js:349-393 | when the pass stopped at the first colliding car, both cars get opposite impulses and the better high score is kept and the run ends; without a hit nothing changes; the cars' y positions and the first collision stay as they were |
| SwapLane.Game.Tally | game.js:321-400 | the loop stops at the first colliding car; each car it passes behind the player is counted once, so the passed set grows by exactly those cars; the player and the cars are untouched |
| SwapLane.Game.Crash | game.js:349-393 | opposite impulses of force max(1, speed difference) along the smallest overlap, the better high score, and the run is over |
| SwapLane.Game.Bump | game.js:349-382 | the player and the car get exactly opposite impulses, and the car does not move |
| SwapLane.Game.Update | game.js:306-403 | the camera jumps to the player, the road window is regenerated, score and passed set only grow, the high score never drops, and a finished run stays finished with its score frozen; in a live run the game ends exactly when some car hits the player, and the passed set grows exactly by the cars before that one that are behind the player |
| SwapLane.Game.FollowPlayer | game.js:307-311 | the camera is on the player and the road window is regenerated around it |
| SwapLane.Game.Advance | game.js:306-317 | the camera, road, player and traffic move; every car is old or fresh |
| SwapLane.Game.MovePlayer | game.js:314 | the player's frame keeps every part of the game well formed and uses at most one random value |
| PrototypeConfig.RoadLeft | swapline.js:6-7 | the road is centred on the canvas |
| PrototypeConfig.SpawnLane | swapline.js:149 | the drawn lane is the floor of draw * 3, in 0 to 2 |
| PrototypeConfig.SlotX | swapline.js:150 | anything no wider than a lane lies inside its lane with equal margins, and inside the road |
| PrototypeConfig.SpeedStep | swapline.js:257-263 | gas wins and adds 0.2 up to 8; brake takes 0.3 and friction 0.05, down to the floor; a speed in [floor, 8] stays there |
| PrototypeConfig.GasOverridesBrake | swapline.js:257 | with gas held the brake makes no difference |
| PrototypeConfig.DriveAppend | swapline.js:257-263 | whatever the speed floor, driving one more frame is one more speed step |
| PrototypeConfig.ScoreGain | swapline.js:181 | a frame earns the floor of the speed: at least 0 for any speed, at least 1 from speed 1 on |
| FreeSteer.SpawnedObstacle | swapline.js:147-153 | the obstacle lies inside its drawn lane, and between 0 and 200 beyond one canvas height plus its own height ahead of the camera |
| FreeSteer.SpawnedObstacleDroppedAsWritten | swapline.js:155-158 | the filter as written drops an obstacle in the frame that spawns it on any canvas at least 80/3 high, so the list it keeps never grows |
| FreeSteer.SpawnedObstacleKept | swapline.js:155-158 | the corrected filter keeps a freshly spawned obstacle, at the end of the list |
| FreeSteer.UpdateObstaclesKeepsExactly | swapline.js:155-158 | with the corrected filter, exactly the obstacles drawn less than 100 below the view's bottom survive, and the filter keeps their order |
| FreeSteer.CloseIsHit | swapline.js:168-177 | an obstacle whose centre is within 25 of the car's centre on both axes is always hit |
| FreeSteer.OffRoadIsAtEdge | swapline.js:162-166 | the car is off the road exactly when its body reaches or crosses a road edge |
| FreeSteer.HitIsClose | swapline.js:168-177 | a hit obstacle's centre is within 36 of the car's centre on each axis |
| FreeSteer.DragAngle | swapline.js:210-215 | the wheel angle stays within ±540 and equals the start plus 0.6 times the wrapped movement whenever that is within range |
| FreeSteer.Recentred | swapline.js:231-236 | a released wheel keeps 85% of its angle and snaps to 0 exactly when that is below 0.5 |
| FreeSteer.RecentredShrinks | swapline.js:231-236 | auto-centring never turns the wheel further and never crosses the centre |
| FreeSteer.Game.constructor | swapline.js:20-45 | the page-load state: car in the middle at speed 3, nothing on the road, the wheel centred and the pedals up |
| FreeSteer.Game.ResetGame | swapline.js:65-79 | car, obstacles, score, spawn timer, road and camera start over; the wheel and pedals keep their state |
| FreeSteer.Game.SpawnObstacle | swapline.js:147-153 | exactly one spawned obstacle is appended |
| FreeSteer.Game.UpdateObstacles | swapline.js:155-158 | the obstacles become the list filtered by the corrected rule: those drawn less than 100 below the view's bottom |
| FreeSteer.Game.CheckCollision | swapline.js:160-178 | the game is over exactly when it already was, the car touches a road edge, or it hits an obstacle |
| FreeSteer.Game.UpdateScore | swapline.js:180-182 | the score grows by the floor of the speed, so it strictly increases |
| FreeSteer.Game.UpdateCar | swapline.js:229-264 | a released wheel recentres; the car moves by the given displacement and is clamped to its x-range; the speed follows the pedal rule with floor 1.5 |
| FreeSteer.Game.Frame | swapline.js:266-289 | the camera eases 15% towards the car and the road follows; a finished game keeps its score, obstacles, position, speed, wheel and spawn clock; a live frame spawns when due and moves the spawn clock to ts exactly then, keeps the obstacles the corrected filter keeps, scores the floor of the old speed, recentres a released wheel, moves the car by (dx, dy) clamped to the road and applies the pedal rule; it ends the game exactly when the car was off the road or hits a remaining obstacle; the pedals and the drag state are untouched |
| FreeSteer.Game.FollowCar | swapline.js:267-269 | the camera closes 15% of its gap to the car and the road window follows it |
| FreeSteer.Game.Play | swapline.js:279-287 | the live part of a frame: the spawn clock moves to ts exactly when a spawn is due, the obstacle list, the score, the recentred wheel, the clamped move by (dx, dy), the pedal rule, and the game ending exactly on an edge or an obstacle |
| FreeSteer.Game.Advance | swapline.js:278-285 | an obstacle is spawned and the spawn clock set to ts exactly when none has been spawned or more than 900 has passed, the corrected filter runs, and the game is over exactly when it was or the car is off the road or hits one |
| FreeSteer.Game.SetPedal | swapline.js:293-295 | only the named pedal changes |
| FreeSteer.Game.SteeringStart | swapline.js:196-204 | the drag begins at the pointer's angle from the current wheel angle |
| FreeSteer.Game.SteeringMove | swapline.js:205-218 | a held wheel follows the drag within ±540; a released one does not move |
| FreeSteer.Game.SteeringEnd | swapline.js:219-221 | the wheel is released |
| FreeSteer.Game.KeyDown | swapline.js:309-316 | Space restarts only a finished game; the arrows turn the wheel within its travel; up/W and down/S press their pedals; any other key, or Space during a game, leaves the car, the obstacles, the score and the road unchanged |
| FreeSteer.Game.KeyUp | swapline.js:317-324 | pedal keys release their pedal; arrows centre the wheel |
| FreeSteer.Game.Tap | swapline.js:326 | a tap restarts a finished game and does nothing otherwise |
| FreeSteer.SpeedStaysInRange | swapline.js:257-263 | under any pedals the speed stays within [1.5, 8], so every live frame scores at least 1 |
| FreeSteer.ClampedToEdgeIsOffRoad | swapline.js:162-166 | a car clamped to either end of its range counts as off the road at the next check |
| LaneSnap.CarBox | dist/swapline.js:102-105 | the car's box has the car's size |
| LaneSnap.ObstacleBox | dist/swapline.js:102-105 | the obstacle's box has the obstacle's size |
| LaneSnap.CollisionSymmetric | dist/swapline.js:101-106 | the test is symmetric and amounts to the corners being less than 36 apart in x and 60 in y |
| LaneSnap.SteerStep | dist/swapline.js:119-126 | the lane stays in 0 to 2 and moves by at most one; a request is cleared only by the move it asks for |
| LaneSnap.RequestAtEdgeStaysPending | dist/swapline.js:119-126 | a request past the edge changes nothing and stays pending |
| LaneSnap.RequestMovesOneLane | dist/swapline.js:119-126 | a lone request away from the edge moves exactly one lane and is consumed |
| LaneSnap.BothRequests | dist/swapline.js:119-126 | two requests cancel out in the middle lane; in lane 0 the left one waits for the next frame |
| LaneSnap.Lowered | dist/swapline.js:93-95 | every obstacle moves down by d and keeps its x |
| LaneSnap.UpdateObstaclesKeepsExactly | dist/swapline.js:93-96 | exactly the lowered obstacles above the limit survive, and the order is kept |
| LaneSnap.Advanced | dist/swapline.js:92-97 | the update never adds obstacles |
| LaneSnap.AdvancedComesFrom | dist/swapline.js:92-97 | every survivor is an old obstacle moved down by d and lies above the limit |
| LaneSnap.AdvancedIsLoweredThenFiltered | dist/swapline.js:93-96 | the per-obstacle description equals lowering all, then filtering |
| LaneSnap.Game.constructor | dist/swapline.js:20-25 | the page-load state: lane 1, speed 0, nothing on the road, no requests and no pedals |
| LaneSnap.Game.ResetGame | dist/swapline.js:27-33 | lane 1, speed 0, no obstacles, score 0, game on; requests and pedals keep their state |
| LaneSnap.Game.SpawnObstacle | dist/swapline.js:86-90 | one obstacle is appended in the drawn lane just above the view |
| LaneSnap.Game.UpdateObstacles | dist/swapline.js:92-97 | every obstacle moves down by speed + 2 and exactly those above the limit remain, in order |
| LaneSnap.Game.CheckCollision | dist/swapline.js:99-111 | the game is over exactly when it already was or some obstacle's box strictly overlaps the car's |
| LaneSnap.Game.UpdateScore | dist/swapline.js:113-115 | the score grows by the floor of the speed and never decreases |
| LaneSnap.Game.UpdateCar | dist/swapline.js:117-136 | the lane requests are served by the lane rule, x is the lane's slot, and the speed follows the pedal rule with floor 0 |
| LaneSnap.Game.Frame | dist/swapline.js:138-158 | a finished game is frozen; a live frame spawns when due and moves the spawn clock to ts exactly then (due: none spawned yet, or more than 1200 - 80 * speed has passed), advances the obstacles, scores the floor of the old speed, serves the requests and applies the pedal rule; it ends the game exactly when a remaining obstacle overlaps the car; y and the pedals are untouched |
| LaneSnap.Game.Play | dist/swapline.js:148-156 | the live part of a frame: the spawn clock, the obstacle list, the score, the lane requests, the pedal rule, and the game ending exactly on an overlap |
| LaneSnap.Game.SetPedal | dist/swapline.js:161-163 | only the named pedal changes |
| LaneSnap.Game.Request | dist/swapline.js:164-165 | a button click leaves a request on its side only |
| LaneSnap.Game.KeyDown | dist/swapline.js:178-184 | Space restarts only a finished game; the arrows set requests and pedals; any other key, or Space during a game, leaves the lane, the car, the obstacles and the score unchanged |
| LaneSnap.Game.KeyUp | dist/swapline.js:185-188 | up and down release their pedal; requests stay |
| LaneSnap.Game.Tap | dist/swapline.js:190 | a tap restarts a finished game and does nothing otherwise |
| LaneSnap.SpeedStaysInRange | dist/swapline.js:129-135 | under any pedals the speed stays within [0, 8], so no frame lowers the score |
| LaneSnap.GasReachesTopSpeed | dist/swapline.js:130 | n frames of gas from rest give speed n * 0.2, so 40 frames reach top speed |
| ReactRoad.Neighbours | src/components/Road.tsx:141-143 | exactly the neighbouring lanes on the road, at least one for a lane on the road and at most two |
| ReactRoad.Pick | src/components/Road.tsx:146 | the drawn lane is one of the candidates |
| ReactRoad.MovesKeepsWellFormed | src/components/Road.tsx:136-188 | a frame keeps a car on the road, with any switch towards a neighbour and a timer of 1 to 90 |
| ReactRoad.StepCar | src/components/Road.tsx:135-189 | every outcome is a `Moves` step of the car; it uses at most two draws, and none exactly when the car is switching or crashed |
| ReactRoad.StepAll | src/components/Road.tsx:134-189 | the step keeps the number of cars |
| ReactRoad.StepAllMoves | src/components/Road.tsx:134-189 | each stepped car is a `Moves` step of the car at the same place |
| ReactRoad.UpdateEnemyCars | src/components/Road.tsx:132-192 | exactly the stepped cars with top < innerHeight + 100 remain, each a step of an old car |
| ReactRoad.StepAllAppend | src/components/Road.tsx:134-189 | stepping a split list steps the front, then the back with the remaining draws |
| ReactRoad.UpdateKeepsOrder | src/components/Road.tsx:133-191 | the update keeps the list order |
| ReactRoad.UpdateKeepsWellFormed | src/components/Road.tsx:132-192 | well-formed traffic stays well formed |
| ReactRoad.SwitchCompletes | src/components/Road.tsx:158-170 | a signalling car takes its new lane after exactly as many frames as its timer shows, and not before |
| ReactRoad.HitsReduces | src/components/Road.tsx:209-219 | the collision test amounts to the same lane and less than 40 apart vertically |
| ReactRoad.AnyHit | src/components/Road.tsx:209-219 | true exactly when some car hits the player |
| ReactRoad.CheckCollisions | src/components/Road.tsx:194-224 | nothing changes once the game is over; otherwise the game is over exactly when some car hits, and only that flag changes |
| ReactRoad.HandleKeyDown | src/components/Road.tsx:255-267 | the arrows move one lane within 0 to 6, nothing moves once the game is over, and only the lane changes |
| ReactRoad.HandleTouchStart | src/components/Road.tsx:269-272 | the swipe start is recorded unless the game is over |
| ReactRoad.HandleTouchMove | src/components/Road.tsx:274-290 | the lane stays on the road and changes only after a movement of more than 50; a swipe can only end |
| ReactRoad.SwipeDirection | src/components/Road.tsx:277-289 | a swipe to the left moves the car right and one to the right moves it left; a long enough swipe ends |
| ReactRoad.SwipeFromLeftEdgeIgnored | src/components/Road.tsx:275 | a swipe that began at x = 0 never changes anything |
| ReactRoad.ResetGame | src/components/Road.tsx:299-304 | no cars, game on, no miles, lane 3, and the mile clock restarted |
| ReactRoad.NewCar | src/components/Road.tsx:113-128 | a well-formed car at top -100, not switching, not crashed; drunk with draw < 0.2 and a bus with draw < 0.3 |
| ReactRoad.SpawnEnemyCar | src/components/Road.tsx:113-130 | exactly one new car is appended |
| ReactRoad.Tick | src/components/Road.tsx:226-248 | a finished game is frozen; otherwise the traffic steps, the game ends exactly when a car hit the player as rendered, and a tenth of a mile is added, and the mile clock restarted, once 100 ms have passed |
| ReactRoad.HandlersKeepLane | src/components/Road.tsx:255-290 | no sequence of key presses and swipes takes the player off the road |

## Findings

| source | as written | input that shows it | evidently intended | confidence | as-written member | corrected member |
|---|---|---|---|---|---|---|
| swapline.js:155-158 | `updateObstacles` keeps an obstacle when `obs.y > cameraY + canvas.height / 2 - 100`, that is, only obstacles already behind a line 100 above the middle of the view | any spawn on a canvas at least 80/3 high: the obstacle is placed more than a canvas height ahead of the camera, so it is dropped in the frame that spawns it and `checkCollision` never sees an obstacle | "remove obstacles that are far behind": keep an obstacle while `obs.y < cameraY + canvas.height / 2 + 100` | high; not executed | FreeSteer.SpawnedObstacleDroppedAsWritten | FreeSteer.SpawnedObstacleKept (the game's `FreeSteer.Game.UpdateObstacles` uses this corrected filter, `NotFarBehind`) |

## Left out

- Drawing of every kind (canvas, sprites, turn-signal arrows, the React markup and styles) and the DOM event wiring. The handlers are modelled as methods the wiring would call.
- The bicycle model of swapline.js (`Math.sin` and `Math.cos` of the heading). `FreeSteer.Game.UpdateCar` takes the displacement it computes as the parameter `(dx, dy)`.
- `getAngleFromCenter` (atan2). Pointer positions reach the wheels as angles in degrees.
- `Math.sqrt` in the distance tests. The tests compare squared distances, which is equivalent because both sides are non-negative.
- The horizontal camera smoothing of game.js. It only affects drawing, and the model keeps just the vertical camera.
- Floating point. Positions, speeds and angles are exact reals, so rounding is not modelled.
- `toFixed` on the React miles, which are whole tenths of a mile here.
- `localStorage`. The stored high score is a constructor parameter and writing it back is not modelled.
- The blink interval of the turn signal. It is presentation only.
- The turn animation (`turnDirection`) of the React player car. It is presentation only.
- The React component's batching of state updates. A tick is one run of the interval callback followed by a render.
- The React component's two-second spawn interval. `ReactRoad.SpawnEnemyCar` is called on its own.
- The spawn angle that `spawnCar` draws and never uses. Its draw is skipped in the stream.
- `EnemyCarManager.checkCollision` (enemyCar.js:607-614). game.js never calls it.
- The player argument of the traffic manager. game.js never passes it, so the model passes `None`.
- The uuid of a React car. It is a number the caller supplies.
- steeringWheel.js is not part of this model. Its only logic, the wheel-angle clamp, is the one modelled in `SwapLane.DragAngle`.
- src/components/BusEnemyCar.tsx, src/components/DrunkEnemyCar.tsx and src/components/Ad.tsx are not part of this model. They contain only presentation.
- Convergence of the friction decay. Only one frame of decay and the zeroing rule are modelled.
- TrafficManager.EnemyCarManager.ProcessCar: states that the manager stays well formed and that the cars before index i are untouched. It does not restate the wall impulse, the pairwise collisions or the car's own update. Those are stated by `Collision.WallImpactX`, `TrafficManager.ResolvePair` and `Traffic.EnemyCar.Update`.
- TrafficManager.EnemyCarManager.Update: states which cars remain and the spawn timing, but not each car's new position.
- SwapLane.Game.Advance: states the camera, the road and where the cars come from, but not the player's or the traffic's new state. Those are stated by `Player.PlayerCar.Update` and `TrafficManager.EnemyCarManager.Update`.
- SwapLane.Game.MovePlayer: states only that the parts stay well formed and that at most one random value is used. The player's new state is stated by `Player.PlayerCar.Update`.
- ReactRoad.StepAll: states only the length and the cursor. `ReactRoad.StepAllMoves` states what happens to each car.

=== FILE: collision.dfy ===
/**
 * The collision and impulse resolver shared by the player-vs-traffic check
 * (game.js) and the traffic-vs-traffic check (enemyCar.js): centred
 * axis-aligned hitboxes, the strict overlap test, the impact direction chosen
 * by the smallest of the four edge overlaps, and the force of an impact.
 * Positions and speeds are exact reals.
 */
module Collision {
  import opened Wrappers

  /** Math.abs on exact reals. */
  function Abs(x: real): (r: real)
    ensures r >= 0.0 && (r == x || r == -x)
  {
    if x < 0.0 then -x else x
  }

  /** Math.min of two values. */
  function Min(a: real, b: real): (r: real)
    ensures r <= a && r <= b && (r == a || r == b)
  {
    if a <= b then a else b
  }

  /** Math.max of two values. */
  function Max(a: real, b: real): (r: real)
    ensures r >= a && r >= b && (r == a || r == b)
  {
    if a >= b then a else b
  }

  /** `Math.max(lo, Math.min(hi, v))`, the clamp every prototype uses on x. */
  function Clamp(lo: real, hi: real, v: real): (r: real)
    ensures lo <= hi ==> lo <= r <= hi
    ensures lo <= v <= hi ==> r == v
    ensures v < lo ==> r == lo
    ensures lo <= hi < v ==> r == hi
  {
    Max(lo, Min(hi, v))
  }

  /** The display size of a sprite, known once its image has loaded. */
  datatype Size = Size(width: real, height: real)

  /** An axis-aligned box; y grows downwards, so `top` is the smaller y. */
  datatype Box = Box(left: real, right: real, top: real, bottom: real)

  /** The hitbox of a car drawn centred on (x, y). */
  function CenteredBox(x: real, y: real, size: Size): (b: Box)
    ensures b.right - b.left == size.width && b.bottom - b.top == size.height
    ensures b.left + b.right == 2.0 * x && b.top + b.bottom == 2.0 * y
  {
    Box(x - size.width / 2.0, x + size.width / 2.0, y - size.height / 2.0, y + size.height / 2.0)
  }

  /**
   * The hitbox of a car whose sprite may not have loaded yet. Before the load
   * the display size is `undefined`, every edge is NaN and every comparison
   * with it is false, which `None` stands for.
   */
  function Hitbox(x: real, y: real, size: Option<Size>): (b: Option<Box>)
    ensures b.Some? <==> size.Some?
    ensures b.Some? ==> b.value == CenteredBox(x, y, size.value)
  {
    match size
    case None => None
    case Some(s) => Some(CenteredBox(x, y, s))
  }

  /** The intersection test: strict inequalities on all four edges. */
  predicate Overlaps(a: Box, b: Box) {
    a.left < b.right && a.right > b.left && a.top < b.bottom && a.bottom > b.top
  }

  /** Two possibly unknown hitboxes collide only when both are known and overlap. */
  predicate Collide(a: Option<Box>, b: Option<Box>) {
    a.Some? && b.Some? && Overlaps(a.value, b.value)
  }

  lemma OverlapsSymmetric(a: Box, b: Box)
    ensures Overlaps(a, b) <==> Overlaps(b, a)
    ensures Collide(Some(a), Some(b)) <==> Collide(Some(b), Some(a))
  {
  }

  /** Boxes that only touch along an edge do not overlap. */
  lemma TouchingBoxesDoNotOverlap(a: Box, b: Box)
    requires a.right == b.left || a.bottom == b.top
    ensures !Overlaps(a, b)
  {
  }

  /**
   * Reference definition of the test for centred hitboxes: they overlap
   * exactly when the centres are closer than half the summed widths and
   * closer than half the summed heights.
   */
  lemma CenteredOverlapIffClose(x1: real, y1: real, s1: Size, x2: real, y2: real, s2: Size)
    ensures Overlaps(CenteredBox(x1, y1, s1), CenteredBox(x2, y2, s2))
        <==> Abs(x1 - x2) < (s1.width + s2.width) / 2.0 && Abs(y1 - y2) < (s1.height + s2.height) / 2.0
  {
  }

  /** An impact direction applied to the first car; the second gets its negation. */
  datatype Impact = Impact(x: real, y: real) {

    function Neg(): (n: Impact)
      ensures n.x == -x && n.y == -y
    {
      Impact(-x, -y)
    }

    /** One component is 0 and the other is 1 or -1. */
    predicate IsAxisUnit() {
      (x == 0.0 && (y == 1.0 || y == -1.0)) || (y == 0.0 && (x == 1.0 || x == -1.0))
    }
  }

  /** How far the right edge of `a` reaches past the left edge of `b`. */
  function LeftOverlap(a: Box, b: Box): real { a.right - b.left }
  /** How far the right edge of `b` reaches past the left edge of `a`. */
  function RightOverlap(a: Box, b: Box): real { b.right - a.left }
  /** How far the bottom edge of `a` reaches past the top edge of `b`. */
  function TopOverlap(a: Box, b: Box): real { a.bottom - b.top }
  /** How far the bottom edge of `b` reaches past the top edge of `a`. */
  function BottomOverlap(a: Box, b: Box): real { b.bottom - a.top }

  /**
   * The impact direction for the first box: the smallest of the four overlaps
   * (`Math.min` of left, right, top, bottom) picks the axis, and ties go to
   * the first of left, right, top, bottom that equals the minimum.
   */
  function ImpactDirection(a: Box, b: Box): (i: Impact)
    ensures i.IsAxisUnit()
    ensures i == Impact(-1.0, 0.0) <==>
      LeftOverlap(a, b) <= RightOverlap(a, b) && LeftOverlap(a, b) <= TopOverlap(a, b) && LeftOverlap(a, b) <= BottomOverlap(a, b)
    ensures i == Impact(1.0, 0.0) <==>
      RightOverlap(a, b) < LeftOverlap(a, b) && RightOverlap(a, b) <= TopOverlap(a, b) && RightOverlap(a, b) <= BottomOverlap(a, b)
    ensures i == Impact(0.0, -1.0) <==>
      TopOverlap(a, b) < LeftOverlap(a, b) && TopOverlap(a, b) < RightOverlap(a, b) && TopOverlap(a, b) <= BottomOverlap(a, b)
    ensures i == Impact(0.0, 1.0) <==>
      BottomOverlap(a, b) < LeftOverlap(a, b) && BottomOverlap(a, b) < RightOverlap(a, b) && BottomOverlap(a, b) < TopOverlap(a, b)
  {
    var l, r, t, bo := LeftOverlap(a, b), RightOverlap(a, b), TopOverlap(a, b), BottomOverlap(a, b);
    var m := Min(Min(Min(l, r), t), bo);
    if m == l then Impact(-1.0, 0.0)
    else if m == r then Impact(1.0, 0.0)
    else if m == t then Impact(0.0, -1.0)
    else Impact(0.0, 1.0)
  }

  /** True when one of the four overlaps is strictly smaller than the other three. */
  predicate UniqueMinimum(a: Box, b: Box) {
    var l, r, t, bo := LeftOverlap(a, b), RightOverlap(a, b), TopOverlap(a, b), BottomOverlap(a, b);
    (l < r && l < t && l < bo) || (r < l && r < t && r < bo) ||
    (t < l && t < r && t < bo) || (bo < l && bo < r && bo < t)
  }

  /**
   * Seen from the other box, the direction flips, as long as the smallest
   * overlap is unique: swapping the boxes swaps left with right and top with
   * bottom.
   */
  lemma ImpactDirectionSwapped(a: Box, b: Box)
    requires UniqueMinimum(a, b)
    ensures ImpactDirection(b, a) == ImpactDirection(a, b).Neg()
  {
    assert LeftOverlap(b, a) == RightOverlap(a, b) && RightOverlap(b, a) == LeftOverlap(a, b);
    assert TopOverlap(b, a) == BottomOverlap(a, b) && BottomOverlap(b, a) == TopOverlap(a, b);
  }

  /**
   * On a tie the order of the comparisons decides, so recomputing the
   * direction from the other car would not give the opposite vector: two
   * boxes on top of each other both get (-1, 0). This is why the resolvers
   * apply the negated vector to the second car instead.
   */
  lemma ImpactDirectionTieNotSwapped()
    ensures var a := Box(0.0, 10.0, 0.0, 10.0);
            ImpactDirection(a, a) == Impact(-1.0, 0.0) && ImpactDirection(a, a) != ImpactDirection(a, a).Neg()
  {
  }

  /** Dividing a vector by its length `len`, the non-negative root of its squared length. */
  function Normalize(i: Impact, len: real): (n: Impact)
    requires len > 0.0
    ensures n.x * len == i.x && n.y * len == i.y
  {
    Impact(i.x / len, i.y / len)
  }

  /**
   * The normalisation step (`Math.sqrt` of the squared length, then division)
   * leaves an impact direction unchanged: its length is exactly 1.
   */
  lemma NormalizeKeepsDirection(i: Impact, len: real)
    requires i.IsAxisUnit()
    requires len >= 0.0 && len * len == i.x * i.x + i.y * i.y
    ensures len == 1.0 && Normalize(i, len) == i
  {
    assert (len < 1.0 ==> len * len <= len) && (len > 1.0 ==> len * len > len);
  }

  /** `Math.max(1, Math.abs(speedA - speedB))`: at least 1, growing with the speed difference. */
  function CollisionForce(speedA: real, speedB: real): (f: real)
    ensures f >= 1.0 && f >= Abs(speedA - speedB)
    ensures f == 1.0 || f == Abs(speedA - speedB)
  {
    Max(1.0, Abs(speedA - speedB))
  }

  lemma CollisionForceSymmetric(speedA: real, speedB: real)
    ensures CollisionForce(speedA, speedB) == CollisionForce(speedB, speedA)
  {
  }

  /** The fixed force of a collision with a road edge. */
  const WALL_FORCE: real := 2.0

  /** True when a car's known hitbox sticks out past either road edge. */
  predicate HitsWall(x: real, size: Option<Size>, roadLeft: real, roadWidth: real) {
    size.Some? && (x - size.value.width / 2.0 < roadLeft || x + size.value.width / 2.0 > roadLeft + roadWidth)
  }

  /** The x component of a wall impact: always pointing from the wall towards the road centre. */
  function WallImpactX(x: real, roadLeft: real, roadWidth: real): (r: real)
    ensures r == 1.0 || r == -1.0
    ensures r * (roadLeft + roadWidth / 2.0 - x) >= 0.0
    ensures x < roadLeft + roadWidth / 2.0 ==> r == 1.0
  {
    if x < roadLeft + roadWidth / 2.0 then 1.0 else -1.0
  }

  /** The collision physics of a car: velocity and spin. */
  datatype Motion = Motion(vx: real, vy: real, spin: real) {

    /**
     * `applyCollision`: the impact times the force is added to the velocity
     * and a random spin of `(draw - 0.5) * force * 0.1` to the spin, where
     * `draw` is the value of `Math.random()`.
     */
    function Impulse(ix: real, iy: real, force: real, draw: real): (m: Motion)
      ensures m.vx - vx == ix * force && m.vy - vy == iy * force
      ensures 0.0 <= draw < 1.0 && force >= 0.0 ==> Abs(m.spin - spin) <= force * 0.05
    {
      assert 0.0 <= draw < 1.0 && force >= 0.0 ==> (draw - 0.5) * force <= 0.5 * force && (0.5 - draw) * force <= 0.5 * force;
      Motion(vx + ix * force, vy + iy * force, spin + (draw - 0.5) * force * 0.1)
    }
  }

  const AT_REST: Motion := Motion(0.0, 0.0, 0.0)

  /** The friction applied to the velocity and to the spin on each colliding frame. */
  const VELOCITY_FRICTION: real := 0.98
  const SPIN_FRICTION: real := 0.95

  /** Below these magnitudes a decayed motion counts as stopped. */
  predicate Negligible(m: Motion) {
    Abs(m.vx) < 0.1 && Abs(m.vy) < 0.1 && Abs(m.spin) < 0.01
  }

  /**
   * One colliding frame of friction: velocity and spin decay, and once all
   * three are negligible they are set to exactly zero.
   */
  function Settle(m: Motion): (r: Motion)
    ensures var decayed := Motion(m.vx * VELOCITY_FRICTION, m.vy * VELOCITY_FRICTION, m.spin * SPIN_FRICTION);
            (r == AT_REST <==> Negligible(decayed)) && (!Negligible(decayed) ==> r == decayed)
  {
    var decayed := Motion(m.vx * VELOCITY_FRICTION, m.vy * VELOCITY_FRICTION, m.spin * SPIN_FRICTION);
    if Negligible(decayed) then AT_REST else decayed
  }

  /** Friction never speeds a car up or spins it faster, and never flips a direction. */
  lemma SettleShrinks(m: Motion)
    ensures var r := Settle(m);
            Abs(r.vx) <= Abs(m.vx) && Abs(r.vy) <= Abs(m.vy) && Abs(r.spin) <= Abs(m.spin)
            && r.vx * m.vx >= 0.0 && r.vy * m.vy >= 0.0 && r.spin * m.spin >= 0.0
  {
    assert m.vx * VELOCITY_FRICTION * m.vx >= 0.0 && m.vy * VELOCITY_FRICTION * m.vy >= 0.0;
    assert m.spin * SPIN_FRICTION * m.spin >= 0.0;
  }

  /** A car at rest stays at rest. */
  lemma SettleAtRest()
    ensures Settle(AT_REST) == AT_REST
  {
  }
}

=== FILE: enemy_car.dfy ===
/**
 * A traffic car of the six-lane game (enemyCar.js): the lane-change state
 * machine (cruise, signalling, changing lane, emergency swerve, colliding),
 * the target-lane occupancy scan, the exact snap to the lane centre, the
 * collision physics and the drunk-driver variant, which skips every safety
 * check and swerves at random.
 *
 * The timers of the source become events: a lane-change timer firing
 * (`SignalTimerFires`), the emergency-swerve timer firing
 * (`SwerveTimerFires`) and the drunk driver's swerve interval ticking
 * (`DrunkSwerveTick`). Every `Math.random()` value is a parameter.
 */
module Traffic {
  import opened Wrappers
  import opened Collision
  import opened GameConfig

  /** Half the side of the square around a car in which another car blocks a lane change. */
  const SAFE_DISTANCE: real := OBSTACLE_HEIGHT * 2.0
  /** The distance to the player below which a car swerves instead of changing lanes. */
  const PLAYER_AVOIDANCE_DISTANCE: real := OBSTACLE_HEIGHT * 3.0
  const STEERING_MAX: real := 0.5
  const STEERING_ACCEL: real := 0.02
  const STEERING_FRICTION: real := 0.95
  const STEERING_RETURN: real := 0.1
  /** The fixed steering of an emergency swerve. */
  const SWERVE_STEERING: real := 0.3

  /** Where the player's car is, as far as traffic cares. */
  datatype Point = Point(x: real, y: real)

  /** The lane an x-coordinate falls in: `Math.floor((x - ROAD_LEFT) / LANE_WIDTH)`. */
  function LaneOf(roadLeft: real, x: real): (lane: int)
    ensures lane as real * LANE_WIDTH <= x - roadLeft < (lane + 1) as real * LANE_WIDTH
  {
    ((x - roadLeft) / LANE_WIDTH).Floor
  }

  /** A car at the centre of a lane is in that lane. */
  lemma LaneOfCenter(roadLeft: real, lane: int)
    ensures LaneOf(roadLeft, LaneCenter(roadLeft, lane)) == lane
  {
    var c := LaneCenter(roadLeft, lane);
    var l := LaneOf(roadLeft, c);
    assert l as real * LANE_WIDTH < (lane + 1) as real * LANE_WIDTH;
    assert lane as real * LANE_WIDTH < (l + 1) as real * LANE_WIDTH;
  }

  /** A point strictly inside the square of side 2 * SAFE_DISTANCE around (cx, cy). */
  predicate InSafeZone(cx: real, cy: real, px: real, py: real) {
    px > cx - SAFE_DISTANCE && px < cx + SAFE_DISTANCE && py > cy - SAFE_DISTANCE && py < cy + SAFE_DISTANCE
  }

  /** A car or the player at (px, py) blocks a change into `targetLane` by the car at (cx, cy). */
  predicate Blocks(roadLeft: real, targetLane: int, cx: real, cy: real, px: real, py: real) {
    LaneOf(roadLeft, px) == targetLane && InSafeZone(cx, cy, px, py)
  }

  /**
   * `checkPlayerProximity`: the player is closer than PLAYER_AVOIDANCE_DISTANCE,
   * compared on squared distances (the square root of the source is monotone).
   */
  predicate NearPlayer(x: real, y: real, player: Option<Point>) {
    player.Some? &&
    (player.value.x - x) * (player.value.x - x) + (player.value.y - y) * (player.value.y - y)
      < PLAYER_AVOIDANCE_DISTANCE * PLAYER_AVOIDANCE_DISTANCE
  }

  /**
   * The proximity test reaches no further than PLAYER_AVOIDANCE_DISTANCE
   * along either axis, and always fires for a player inside the square of
   * half that size around the car; with no player it never fires.
   */
  lemma NearPlayerReach(x: real, y: real, p: Point)
    ensures !NearPlayer(x, y, None)
    ensures NearPlayer(x, y, Some(p)) ==> Abs(p.x - x) < PLAYER_AVOIDANCE_DISTANCE && Abs(p.y - y) < PLAYER_AVOIDANCE_DISTANCE
    ensures Abs(p.x - x) < PLAYER_AVOIDANCE_DISTANCE / 2.0 && Abs(p.y - y) < PLAYER_AVOIDANCE_DISTANCE / 2.0 ==> NearPlayer(x, y, Some(p))
  {
    var a, b := Abs(p.x - x), Abs(p.y - y);
    assert (p.x - x) * (p.x - x) == a * a && (p.y - y) * (p.y - y) == b * b;
    if a >= PLAYER_AVOIDANCE_DISTANCE {
      SquareGrows(PLAYER_AVOIDANCE_DISTANCE, a);
    }
    if b >= PLAYER_AVOIDANCE_DISTANCE {
      SquareGrows(PLAYER_AVOIDANCE_DISTANCE, b);
    }
    if a < PLAYER_AVOIDANCE_DISTANCE / 2.0 && b < PLAYER_AVOIDANCE_DISTANCE / 2.0 {
      SquareGrows(a, PLAYER_AVOIDANCE_DISTANCE / 2.0);
      SquareGrows(b, PLAYER_AVOIDANCE_DISTANCE / 2.0);
    }
  }

  /** Squaring keeps the order of non-negative numbers. */
  lemma SquareGrows(a: real, b: real)
    requires 0.0 <= a <= b
    ensures a * a <= b * b
  {
    assert a * a <= a * b;
  }

  /** `getAvoidanceDirection`: away from the player's side. */
  function AvoidanceDirection(x: real, player: Point): (d: Direction)
    ensures d == Right <==> player.x < x
  {
    if player.x - x < 0.0 then Right else Left
  }

  /**
   * The lane a request to move in `direction` aims at: the neighbouring lane
   * on that side, or none when the car is already in the outermost lane.
   */
  function LaneChangeTarget(lane: int, direction: Direction): (t: Option<int>)
    ensures t.Some? <==> (direction == Left && lane > 0) || (direction == Right && lane < LANE_COUNT - 1)
    ensures t.Some? && direction == Left ==> t.value == lane - 1
    ensures t.Some? && direction == Right ==> t.value == lane + 1
    ensures t.Some? && 0 <= lane < LANE_COUNT ==> 0 <= t.value < LANE_COUNT
  {
    if direction == Left && lane > 0 then Some(lane - 1)
    else if direction == Right && lane < LANE_COUNT - 1 then Some(lane + 1)
    else None
  }

  /** The sideways move of one frame: speed times steering. */
  function Sideways(speed: real, steering: real): real {
    speed * steering
  }

  /**
   * The steering spring of a lane change: accelerate towards a steering
   * proportional to the distance `dx` to the target lane's centre, limited
   * to STEERING_MAX either way, then damp.
   */
  function LaneSteeringSpeed(steering: real, steeringSpeed: real, dx: real): real {
    (steeringSpeed + (Clamp(-STEERING_MAX, STEERING_MAX, dx * 0.01) - steering) * STEERING_ACCEL) * STEERING_FRICTION
  }

  /**
   * The part of a car's state the lane-change state machine works on,
   * including the pending timers: how many lane-change timeouts are pending,
   * and whether the most recent one (the only one `clearTimeout` can reach)
   * is among them.
   */
  datatype LaneState = LaneState(
    isChangingLanes: bool,
    targetLane: int,
    turnSignal: Option<Direction>,
    signalTimers: nat,
    latestTimerPending: bool,
    emergencySwerve: bool,
    swerveDirection: Option<Direction>)

  /** `clearTimeout` on the most recent lane-change timer: one fewer pending if it had not fired. */
  function ClearLatest(s: LaneState): (r: LaneState)
    requires s.latestTimerPending ==> s.signalTimers > 0
    ensures !r.latestTimerPending
    ensures r.signalTimers == if s.latestTimerPending then s.signalTimers - 1 else s.signalTimers
    ensures r.(signalTimers := s.signalTimers, latestTimerPending := s.latestTimerPending) == s
  {
    if s.latestTimerPending then s.(signalTimers := s.signalTimers - 1, latestTimerPending := false) else s
  }

  class EnemyCar {
    /** A `DrunkDriver` rather than a plain `EnemyCar`. */
    const drunk: bool
    const roadLeft: real
    const speed: real

    var lane: int
    var x: real
    var y: real
    var size: Option<Size>
    var velocityX: real
    var velocityY: real
    var angularVelocity: real
    var rotation: real
    var isColliding: bool
    var steering: real
    var steeringSpeed: real
    var isChangingLanes: bool
    var targetLane: int
    var turnSignal: Option<Direction>
    var signalTimers: nat
    var latestTimerPending: bool
    var emergencySwerve: bool
    var swerveDirection: Option<Direction>
    /** The drunk driver's current swerve, -1 or 1 times an intensity in [0.3, 0.6). */
    var swerveSign: real
    var swerveIntensity: real

    ghost predicate Valid()
      reads this
    {
      && 0 <= lane < LANE_COUNT && 0 <= targetLane < LANE_COUNT
      && -1 <= targetLane - lane <= 1
      && (latestTimerPending ==> signalTimers > 0)
      && (emergencySwerve <==> swerveDirection.Some?)
      && (drunk ==> !emergencySwerve && (swerveSign == 1.0 || swerveSign == -1.0) && 0.3 <= swerveIntensity < 0.6)
    }

    function Lanes(): (s: LaneState)
      reads this
      ensures s.isChangingLanes == isChangingLanes && s.targetLane == targetLane
      ensures s.turnSignal == turnSignal && s.emergencySwerve == emergencySwerve
      ensures s.signalTimers == signalTimers && s.latestTimerPending == latestTimerPending
      ensures s.swerveDirection == swerveDirection
    {
      LaneState(isChangingLanes, targetLane, turnSignal, signalTimers, latestTimerPending, emergencySwerve, swerveDirection)
    }

    function Velocity(): (m: Motion)
      reads this
      ensures m.vx == velocityX && m.vy == velocityY && m.spin == angularVelocity
    {
      Motion(velocityX, velocityY, angularVelocity)
    }

    /** The hitbox around the car's centre, unknown before the sprite has loaded. */
    function Box(): (b: Option<Collision.Box>)
      reads this`x, this`y, this`size
      ensures b.Some? <==> size.Some?
      ensures b.Some? ==> b.value == CenteredBox(x, y, size.value)
    {
      Hitbox(x, y, size)
    }

    /** `isOffScreen`: the car is more than one canvas height behind the camera. */
    predicate IsOffScreen(cameraY: real, canvasHeight: real)
      reads this
    {
      y > cameraY + canvasHeight
    }

    /**
     * A car off screen is drawn more than half a canvas height below the
     * bottom of the view, and stays off screen while the camera moves ahead
     * (to a smaller y) and the car stands still.
     */
    lemma OffScreenIsBelowView(cameraY: real, laterCameraY: real, canvasHeight: real)
      ensures IsOffScreen(cameraY, canvasHeight) <==> canvasHeight / 2.0 - (cameraY - y) > canvasHeight + canvasHeight / 2.0
      ensures laterCameraY <= cameraY && IsOffScreen(cameraY, canvasHeight) ==> IsOffScreen(laterCameraY, canvasHeight)
    {
    }

    /**
     * A new car cruising at the centre of its lane, one car length above the
     * top. A drunk driver draws its first swerve at once.
     */
    constructor (roadLeft: real, lane: int, speed: real, drunk: bool, signDraw: real, intensityDraw: real)
      requires 0 <= lane < LANE_COUNT
      requires 0.0 <= signDraw < 1.0 && 0.0 <= intensityDraw < 1.0
      ensures Valid()
      ensures this.roadLeft == roadLeft && this.lane == lane && this.speed == speed && this.drunk == drunk
      ensures x == LaneCenter(roadLeft, lane) && y == -OBSTACLE_HEIGHT && size == None
      ensures Velocity() == AT_REST && rotation == 0.0 && !isColliding
      ensures steering == 0.0 && steeringSpeed == 0.0
      ensures Lanes() == LaneState(false, lane, None, 0, false, false, None)
      ensures drunk ==> swerveSign == (if signDraw < 0.5 then -1.0 else 1.0) && swerveIntensity == 0.3 + intensityDraw * 0.3
    {
      this.roadLeft := roadLeft;
      this.lane := lane;
      this.speed := speed;
      this.drunk := drunk;
      y := -OBSTACLE_HEIGHT;
      x := LaneCenter(roadLeft, lane);
      size := None;
      velocityX, velocityY, angularVelocity, rotation := 0.0, 0.0, 0.0, 0.0;
      isColliding := false;
      steering, steeringSpeed := 0.0, 0.0;
      isChangingLanes := false;
      targetLane := lane;
      turnSignal := None;
      signalTimers, latestTimerPending := 0, false;
      emergencySwerve, swerveDirection := false, None;
      if drunk {
        swerveSign := if signDraw < 0.5 then -1.0 else 1.0;
        swerveIntensity := 0.3 + intensityDraw * 0.3;
      } else {
        swerveSign, swerveIntensity := 0.0, 0.0;
      }
    }

    /** The sprite has loaded: it is drawn 1.5 car heights tall with the image's aspect ratio. */
    method SpriteLoaded(aspectRatio: real)
      modifies this`size
      ensures size == Some(Size(OBSTACLE_HEIGHT * 1.5 * aspectRatio, OBSTACLE_HEIGHT * 1.5))
    {
      size := Some(Size(OBSTACLE_HEIGHT * 1.5 * aspectRatio, OBSTACLE_HEIGHT * 1.5));
    }

    /**
     * `checkNearbyCars`: is the player, or any other car of `cars`, in
     * `targetLane` and inside this car's safe zone? A drunk driver never looks.
     */
    method CheckNearbyCars(cars: seq<EnemyCar>, targetLane: int, player: Option<Point>) returns (occupied: bool)
      ensures occupied <==>
        !drunk &&
        ((player.Some? && Blocks(roadLeft, targetLane, x, y, player.value.x, player.value.y)) ||
         (exists k :: 0 <= k < |cars| && cars[k] != this && Blocks(roadLeft, targetLane, x, y, cars[k].x, cars[k].y)))
    {
      if drunk {
        return false;
      }
      if player.Some? && Blocks(roadLeft, targetLane, x, y, player.value.x, player.value.y) {
        return true;
      }
      var i := 0;
      while i < |cars|
        invariant 0 <= i <= |cars|
        invariant forall k :: 0 <= k < i ==> cars[k] == this || !Blocks(roadLeft, targetLane, x, y, cars[k].x, cars[k].y)
      {
        var car := cars[i];
        if car != this && LaneOf(roadLeft, car.x) == targetLane && InSafeZone(x, y, car.x, car.y) {
          return true;
        }
        i := i + 1;
      }
      return false;
    }

    /**
     * Start swerving in `direction` unless already swerving. An ongoing lane
     * change is abandoned: its turn signal goes off and the most recent
     * lane-change timer is cleared. A car that is only signalling keeps its
     * signal and its timers.
     */
    method StartEmergencySwerve(direction: Direction)
      requires Valid() && !drunk
      modifies this`emergencySwerve, this`swerveDirection, this`isChangingLanes, this`turnSignal,
        this`signalTimers, this`latestTimerPending
      ensures Valid()
      ensures old(emergencySwerve) ==> Lanes() == old(Lanes())
      ensures !old(emergencySwerve) && old(isChangingLanes) ==>
        Lanes() == ClearLatest(old(Lanes())).(isChangingLanes := false, turnSignal := None,
                                               emergencySwerve := true, swerveDirection := Some(direction))
      ensures !old(emergencySwerve) && !old(isChangingLanes) ==>
        Lanes() == old(Lanes()).(emergencySwerve := true, swerveDirection := Some(direction))
    {
      if emergencySwerve {
        return;
      }
      emergencySwerve := true;
      swerveDirection := Some(direction);
      if isChangingLanes {
        isChangingLanes := false;
        if latestTimerPending {
          signalTimers := signalTimers - 1;
          latestTimerPending := false;
        }
        turnSignal := None;
      }
    }

    /**
     * `startLaneChange`. Nothing happens while a lane change is under way
     * (or, for a sober driver, while swerving). A sober driver then swerves
     * away from a nearby player, stays put when there is no lane on that
     * side, and swerves the other way when the target lane is occupied;
     * otherwise, and always for a drunk driver, it sets the target lane and
     * the turn signal and arms a lane-change timer. `armed` tells whether a
     * timer was armed (its delay is one more `Math.random()` value).
     */
    method StartLaneChange(direction: Direction, cars: seq<EnemyCar>, player: Option<Point>) returns (armed: bool)
      requires Valid()
      modifies this`emergencySwerve, this`swerveDirection, this`isChangingLanes, this`turnSignal,
        this`signalTimers, this`latestTimerPending, this`targetLane
      ensures Valid()
      ensures old(isChangingLanes) || (!drunk && old(emergencySwerve)) ==> !armed && Lanes() == old(Lanes())
      ensures var t := LaneChangeTarget(lane, direction);
              armed <==>
                && !old(isChangingLanes) && t.Some?
                && (drunk || (!old(emergencySwerve) && !NearPlayer(x, y, player)
                              && !(player.Some? && Blocks(roadLeft, t.value, x, y, player.value.x, player.value.y))
                              && forall k :: 0 <= k < |cars| && cars[k] != this ==> !Blocks(roadLeft, t.value, x, y, cars[k].x, cars[k].y)))
      ensures armed ==>
        Lanes() == old(Lanes()).(targetLane := LaneChangeTarget(lane, direction).value, turnSignal := Some(direction),
                                 signalTimers := old(signalTimers) + 1, latestTimerPending := true)
      ensures !drunk && !old(isChangingLanes) && !old(emergencySwerve) && NearPlayer(x, y, player) ==>
        emergencySwerve && swerveDirection == Some(AvoidanceDirection(x, player.value))
        && targetLane == old(targetLane) && isChangingLanes == old(isChangingLanes)
      ensures !armed && !emergencySwerve ==> Lanes() == old(Lanes())
      ensures !armed && emergencySwerve && !old(emergencySwerve) ==>
        targetLane == old(targetLane) && !isChangingLanes && turnSignal == old(turnSignal)
        && signalTimers == old(signalTimers) && latestTimerPending == old(latestTimerPending)
        && swerveDirection == Some(if NearPlayer(x, y, player) then AvoidanceDirection(x, player.value) else direction.Opposite())
    {
      if isChangingLanes || (!drunk && emergencySwerve) {
        return false;
      }
      if !drunk && NearPlayer(x, y, player) {
        StartEmergencySwerve(AvoidanceDirection(x, player.value));
        return false;
      }
      var t := LaneChangeTarget(lane, direction);
      if t.None? {
        return false;
      }
      var occupied := CheckNearbyCars(cars, t.value, player);
      if occupied {
        StartEmergencySwerve(direction.Opposite());
        return false;
      }
      targetLane := t.value;
      turnSignal := Some(direction);
      signalTimers := signalTimers + 1;
      latestTimerPending := true;
      return true;
    }

    /**
     * A lane-change timer fires (`latest` when it is the most recent one):
     * the car starts changing lanes and the turn signal goes off.
     */
    method SignalTimerFires(latest: bool)
      requires Valid()
      requires signalTimers > 0
      requires latest ==> latestTimerPending
      requires !latest ==> signalTimers > (if latestTimerPending then 1 else 0)
      modifies this`isChangingLanes, this`turnSignal, this`signalTimers, this`latestTimerPending
      ensures Valid()
      ensures isChangingLanes && turnSignal == None
      ensures signalTimers == old(signalTimers) - 1
      ensures latestTimerPending == (old(latestTimerPending) && !latest)
    {
      isChangingLanes := true;
      turnSignal := None;
      signalTimers := signalTimers - 1;
      if latest {
        latestTimerPending := false;
      }
    }

    /** The emergency-swerve timer fires one second after the swerve began. */
    method SwerveTimerFires()
      requires Valid() && emergencySwerve
      modifies this`emergencySwerve, this`swerveDirection
      ensures Valid()
      ensures !emergencySwerve && swerveDirection == None
    {
      emergencySwerve := false;
      swerveDirection := None;
    }

    /** The drunk driver's swerve interval ticks: a new random side and intensity. */
    method DrunkSwerveTick(signDraw: real, intensityDraw: real)
      requires Valid() && drunk
      requires 0.0 <= signDraw < 1.0 && 0.0 <= intensityDraw < 1.0
      modifies this`swerveSign, this`swerveIntensity
      ensures Valid()
      ensures swerveSign == (if signDraw < 0.5 then -1.0 else 1.0)
      ensures swerveIntensity == 0.3 + intensityDraw * 0.3
    {
      swerveSign := if signDraw < 0.5 then -1.0 else 1.0;
      swerveIntensity := 0.3 + intensityDraw * 0.3;
    }

    /**
     * An impact: velocity and spin get the impulse of `impact * force` with
     * the random spin `spinDraw`, the car is colliding from now on, and a
     * lane change under way is abandoned as by an emergency swerve.
     */
    method ApplyCollision(impactX: real, impactY: real, force: real, spinDraw: real)
      requires Valid()
      modifies this`velocityX, this`velocityY, this`angularVelocity, this`isColliding,
        this`isChangingLanes, this`turnSignal, this`signalTimers, this`latestTimerPending
      ensures Valid()
      ensures Velocity() == old(Velocity()).Impulse(impactX, impactY, force, spinDraw)
      ensures isColliding
      ensures old(isChangingLanes) ==> Lanes() == ClearLatest(old(Lanes())).(isChangingLanes := false, turnSignal := None)
      ensures !old(isChangingLanes) ==> Lanes() == old(Lanes())
    {
      velocityX := velocityX + impactX * force;
      velocityY := velocityY + impactY * force;
      angularVelocity := angularVelocity + (spinDraw - 0.5) * force * 0.1;
      isColliding := true;
      if isChangingLanes {
        isChangingLanes := false;
        if latestTimerPending {
          signalTimers := signalTimers - 1;
          latestTimerPending := false;
        }
        turnSignal := None;
      }
    }
  
    /**
     * One frame. A colliding car drifts with its velocity under friction.
     * Any other car moves up by its speed and steers: a drunk driver by its
     * random swerve; a sober one by the fixed swerve steering while swerving
     * (moving sideways twice, once in the swerve and once with the steering
     * it has just set), towards the target lane's centre while changing
     * lanes, snapping exactly onto it within 1 px, and back towards straight
     * otherwise.
     */
    method Update()
      requires Valid()
      modifies this
      ensures Valid()
      ensures size == old(size) && targetLane == old(targetLane) && turnSignal == old(turnSignal)
      ensures signalTimers == old(signalTimers) && latestTimerPending == old(latestTimerPending)
      ensures emergencySwerve == old(emergencySwerve) && swerveDirection == old(swerveDirection)
      ensures swerveSign == old(swerveSign) && swerveIntensity == old(swerveIntensity)
      ensures isColliding == old(isColliding)
      ensures old(isColliding) ==>
        && x == old(x) + old(velocityX) && y == old(y) + old(velocityY)
        && rotation == old(rotation) + old(angularVelocity) && Velocity() == Settle(old(Velocity()))
        && lane == old(lane) && isChangingLanes == old(isChangingLanes)
        && steering == old(steering) && steeringSpeed == old(steeringSpeed)
      ensures !old(isColliding) ==> y == old(y) - speed && Velocity() == old(Velocity()) && rotation == old(rotation)
      ensures !old(isColliding) && drunk ==>
        && steering == swerveSign * swerveIntensity && x == old(x) + Sideways(speed, steering)
        && lane == old(lane) && isChangingLanes == old(isChangingLanes) && steeringSpeed == old(steeringSpeed)
      ensures !old(isColliding) && !drunk && old(emergencySwerve) ==>
        && steering == (if swerveDirection == Some(Left) then -SWERVE_STEERING else SWERVE_STEERING)
        && x == old(x) + Sideways(speed, steering) + Sideways(speed, steering)
        && lane == old(lane) && isChangingLanes == old(isChangingLanes) && steeringSpeed == old(steeringSpeed)
      ensures !old(isColliding) && !drunk && !old(emergencySwerve) && old(isChangingLanes) ==>
        var dx := LaneCenter(roadLeft, targetLane) - old(x);
        if Abs(dx) < 1.0 then
          && x == LaneCenter(roadLeft, targetLane) && lane == targetLane && !isChangingLanes
          && steering == 0.0 && steeringSpeed == 0.0
        else
          && steeringSpeed == LaneSteeringSpeed(old(steering), old(steeringSpeed), dx)
          && steering == old(steering) + steeringSpeed
          && x == old(x) + Sideways(speed, steering)
          && lane == old(lane) && isChangingLanes
      ensures !old(isColliding) && !drunk && !old(emergencySwerve) && !old(isChangingLanes) ==>
        && steering == old(steering) * (1.0 - STEERING_RETURN) && x == old(x) + Sideways(speed, steering)
        && lane == old(lane) && !isChangingLanes && steeringSpeed == old(steeringSpeed)
    {
      if isColliding {
        Drift();
      } else if drunk {
        y := y - speed;
        steering := swerveSign * swerveIntensity;
        x := x + Sideways(speed, steering);
      } else {
        y := y - speed;
        Steer();
      }
    }

    /**
     * The sober driver's steering for one frame, after it has moved up:
     * the fixed swerve, the approach to the target lane, or the return
     * towards straight, each followed by the sideways move.
     */
    method Steer()
      requires Valid() && !drunk
      modifies this`steering, this`steeringSpeed, this`x, this`lane, this`isChangingLanes
      ensures Valid()
      ensures old(emergencySwerve) ==>
        && steering == (if swerveDirection == Some(Left) then -SWERVE_STEERING else SWERVE_STEERING)
        && x == old(x) + Sideways(speed, steering) + Sideways(speed, steering)
        && lane == old(lane) && isChangingLanes == old(isChangingLanes) && steeringSpeed == old(steeringSpeed)
      ensures !old(emergencySwerve) && old(isChangingLanes) ==>
        var dx := LaneCenter(roadLeft, targetLane) - old(x);
        if Abs(dx) < 1.0 then
          && x == LaneCenter(roadLeft, targetLane) && lane == targetLane && !isChangingLanes
          && steering == 0.0 && steeringSpeed == 0.0
        else
          && steeringSpeed == LaneSteeringSpeed(old(steering), old(steeringSpeed), dx)
          && steering == old(steering) + steeringSpeed
          && x == old(x) + Sideways(speed, steering)
          && lane == old(lane) && isChangingLanes
      ensures !old(emergencySwerve) && !old(isChangingLanes) ==>
        && steering == old(steering) * (1.0 - STEERING_RETURN) && x == old(x) + Sideways(speed, steering)
        && lane == old(lane) && !isChangingLanes && steeringSpeed == old(steeringSpeed)
    {
      if emergencySwerve {
        var swerveAmount := if swerveDirection == Some(Left) then -SWERVE_STEERING else SWERVE_STEERING;
        steering := swerveAmount;
        x := x + Sideways(speed, swerveAmount);
      } else if isChangingLanes {
        SteerToTargetLane();
      } else {
        steering := steering * (1.0 - STEERING_RETURN);
      }
      x := x + Sideways(speed, steering);
    }

    /** The colliding frame: move with the velocity, then apply friction. */
    method Drift()
      modifies this`x, this`y, this`rotation, this`velocityX, this`velocityY, this`angularVelocity
      ensures x == old(x) + old(velocityX) && y == old(y) + old(velocityY)
      ensures rotation == old(rotation) + old(angularVelocity)
      ensures Velocity() == Settle(old(Velocity()))
    {
      x := x + velocityX;
      y := y + velocityY;
      rotation := rotation + angularVelocity;
      velocityX := velocityX * VELOCITY_FRICTION;
      velocityY := velocityY * VELOCITY_FRICTION;
      angularVelocity := angularVelocity * SPIN_FRICTION;
      if Abs(velocityX) < 0.1 && Abs(velocityY) < 0.1 && Abs(angularVelocity) < 0.01 {
        velocityX, velocityY, angularVelocity := 0.0, 0.0, 0.0;
      }
    }

    /** The steering of a lane change, and the snap onto the target lane's centre within 1 px. */
    method SteerToTargetLane()
      requires Valid()
      modifies this`steering, this`steeringSpeed, this`x, this`lane, this`isChangingLanes
      ensures Valid()
      ensures var dx := LaneCenter(roadLeft, targetLane) - old(x);
        if Abs(dx) < 1.0 then
          && x == LaneCenter(roadLeft, targetLane) && lane == targetLane && !isChangingLanes
          && steering == 0.0 && steeringSpeed == 0.0
        else
          && steeringSpeed == LaneSteeringSpeed(old(steering), old(steeringSpeed), dx)
          && steering == old(steering) + steeringSpeed
          && x == old(x) && lane == old(lane) && isChangingLanes == old(isChangingLanes)
    {
      var targetX := LaneCenter(roadLeft, targetLane);
      var dx := targetX - x;
      var targetSteering := Clamp(-STEERING_MAX, STEERING_MAX, dx * 0.01);
      steeringSpeed := steeringSpeed + (targetSteering - steering) * STEERING_ACCEL;
      steeringSpeed := steeringSpeed * STEERING_FRICTION;
      steering := steering + steeringSpeed;
      if Abs(dx) < 1.0 {
        x := targetX;
        lane := targetLane;
        isChangingLanes := false;
        steering := 0.0;
        steeringSpeed := 0.0;
      }
    }
  }
}

=== FILE: enemy_car_manager.dfy ===
/**
 * The traffic fleet of the six-lane game (`EnemyCarManager` in enemyCar.js):
 * the spawn cap and spacing rule, the per-frame pass that removes cars left
 * behind the camera, pushes cars off the road edges, resolves collisions
 * between pairs of cars and now and then starts a lane change, and the
 * spawn interval.
 *
 * `Math.random()` is a stream `rand` of values in [0, 1) with a cursor that
 * every draw advances, in the order the source draws them; `Date.now()` is
 * the parameter `now`.
 */
module TrafficManager {
  import opened Wrappers
  import opened Collision
  import opened GameConfig
  import opened Traffic

  const SPAWN_INTERVAL: int := 1000
  const SPAWN_RADIUS: real := 1000.0
  const MIN_SPAWN_DISTANCE: real := 800.0
  const MAX_CARS_IN_VIEW: nat := 10
  const MIN_CAR_SPACING: real := OBSTACLE_HEIGHT * 1.5
  const DRUNK_DRIVER_CHANCE: real := 0.2
  /** The chance per frame that a cruising car tries to change lanes. */
  const LANE_CHANGE_CHANCE: real := 0.005

  /** No car appears twice in the list. */
  ghost predicate Distinct(cars: seq<EnemyCar>) {
    forall a, b :: 0 <= a < b < |cars| ==> cars[a] != cars[b]
  }

  /** The cars within SPAWN_RADIUS of `playerY`, vertically. */
  function CarsInView(cars: seq<EnemyCar>, playerY: real): (n: nat)
    reads set c | c in cars
    ensures n <= |cars|
  {
    if cars == [] then 0
    else (if Abs(cars[0].y - playerY) < SPAWN_RADIUS then 1 else 0) + CarsInView(cars[1..], playerY)
  }

  /** Appending a car adds one to the count exactly when it is within SPAWN_RADIUS. */
  lemma {:induction false} CarsInViewAppend(cars: seq<EnemyCar>, car: EnemyCar, playerY: real)
    ensures CarsInView(cars + [car], playerY)
         == CarsInView(cars, playerY) + (if Abs(car.y - playerY) < SPAWN_RADIUS then 1 else 0)
  {
    if cars != [] {
      assert (cars + [car])[1..] == cars[1..] + [car];
      CarsInViewAppend(cars[1..], car, playerY);
    }
  }

  /** The spacing rule: every car is far enough away vertically or at least a lane away sideways. */
  predicate HasSpace(cars: seq<EnemyCar>, spawnX: real, spawnY: real)
    reads set c | c in cars
  {
    forall k :: 0 <= k < |cars| ==> Abs(cars[k].y - spawnY) > MIN_CAR_SPACING || Abs(cars[k].x - spawnX) > LANE_WIDTH
  }

  /** Which cars of the list are off screen, one flag per car. */
  function OffScreenFlags(cars: seq<EnemyCar>, cameraY: real, canvasHeight: real): (off: seq<bool>)
    reads set c | c in cars
    ensures |off| == |cars|
    ensures forall k :: 0 <= k < |cars| ==> off[k] == cars[k].IsOffScreen(cameraY, canvasHeight)
  {
    if cars == [] then []
    else [cars[0].IsOffScreen(cameraY, canvasHeight)] + OffScreenFlags(cars[1..], cameraY, canvasHeight)
  }

  /** The cars whose flag is not set, in their order. */
  function Survivors(cars: seq<EnemyCar>, off: seq<bool>): (r: seq<EnemyCar>)
    requires |off| == |cars|
    ensures |r| <= |cars|
    ensures forall c :: c in r ==> c in cars
    ensures forall k :: 0 <= k < |cars| ==> (cars[k] in r <== !off[k])
  {
    if cars == [] then []
    else (if off[0] then [] else [cars[0]]) + Survivors(cars[1..], off[1..])
  }

  /** The cars that are not off screen, in their order. */
  function Kept(cars: seq<EnemyCar>, cameraY: real, canvasHeight: real): (r: seq<EnemyCar>)
    reads set c | c in cars
    ensures |r| <= |cars|
  {
    Survivors(cars, OffScreenFlags(cars, cameraY, canvasHeight))
  }

  /** Of a list without repetitions, exactly the cars that are not off screen are kept. */
  lemma KeptExactly(cars: seq<EnemyCar>, cameraY: real, canvasHeight: real)
    requires Distinct(cars)
    ensures forall c :: c in Kept(cars, cameraY, canvasHeight) <==> c in cars && !c.IsOffScreen(cameraY, canvasHeight)
  {
    SurvivorsExactly(cars, OffScreenFlags(cars, cameraY, canvasHeight));
  }

  lemma {:induction false} SurvivorsExactly(cars: seq<EnemyCar>, off: seq<bool>)
    requires |off| == |cars| && Distinct(cars)
    ensures forall k :: 0 <= k < |cars| ==> (cars[k] in Survivors(cars, off) <==> !off[k])
    ensures Distinct(Survivors(cars, off))
  {
    if cars != [] {
      SurvivorsExactly(cars[1..], off[1..]);
      var rest := Survivors(cars[1..], off[1..]);
      assert cars[0] !in cars[1..];
      forall k | 1 <= k < |cars|
        ensures cars[k] in Survivors(cars, off) <==> !off[k]
      {
        assert cars[1..][k - 1] == cars[k];
        assert cars[k] != cars[0];
      }
    }
  }

  /** The first step of the filter, one car from the front. */
  lemma SurvivorsStep(cars: seq<EnemyCar>, off: seq<bool>, i: nat)
    requires |off| == |cars| && i < |cars|
    ensures Survivors(cars[i..], off[i..]) == (if off[i] then [] else [cars[i]]) + Survivors(cars[i + 1..], off[i + 1..])
  {
    assert cars[i..][1..] == cars[i + 1..];
    assert off[i..][1..] == off[i + 1..];
  }

  /**
   * One step of `update`'s backward walk: with the first i + 1 cars still in
   * place and the filtered rest behind them, dropping or keeping car i gives
   * the first i cars followed by the filtered rest from i.
   */
  lemma SplitAt(cars: seq<EnemyCar>, orig: seq<EnemyCar>, off: seq<bool>, i: nat)
    requires |off| == |orig| && i < |orig|
    requires cars == orig[..i + 1] + Survivors(orig[i + 1..], off[i + 1..])
    ensures cars[..i] == orig[..i] && cars[i] == orig[i]
    ensures off[i] ==> cars[..i] + cars[i + 1..] == orig[..i] + Survivors(orig[i..], off[i..])
    ensures !off[i] ==> cars == orig[..i] + Survivors(orig[i..], off[i..])
  {
    SurvivorsStep(orig, off, i);
    assert cars[i + 1..] == Survivors(orig[i + 1..], off[i + 1..]);
    assert orig[..i + 1] == orig[..i] + [orig[i]];
  }

  /** Removing one car keeps a list without repetitions. */
  lemma DistinctRemove(cars: seq<EnemyCar>, i: nat)
    requires Distinct(cars) && i < |cars|
    ensures Distinct(cars[..i] + cars[i + 1..])
  {
    var r := cars[..i] + cars[i + 1..];
    forall a, b | 0 <= a < b < |r|
      ensures r[a] != r[b]
    {
      var a' := if a < i then a else a + 1;
      var b' := if b < i then b else b + 1;
      assert r[a] == cars[a'] && r[b] == cars[b'];
    }
  }

  /** The lane a spawn draw picks: `Math.floor(draw * LANE_COUNT)`. */
  function SpawnLane(draw: real): (lane: int)
    requires 0.0 <= draw < 1.0
    ensures 0 <= lane < LANE_COUNT
    ensures lane as real <= draw * LANE_COUNT as real < lane as real + 1.0
  {
    (draw * LANE_COUNT as real).Floor
  }

  /** How far ahead of the player a spawn draw places a car: between 800 and 1000. */
  function SpawnDistance(draw: real): (d: real)
    requires 0.0 <= draw < 1.0
    ensures MIN_SPAWN_DISTANCE <= d < SPAWN_RADIUS
  {
    MIN_SPAWN_DISTANCE + draw * (SPAWN_RADIUS - MIN_SPAWN_DISTANCE)
  }

  /**
   * The collision test and impulse between two traffic cars: when their
   * hitboxes overlap, the first car gets the impact direction of the smallest
   * overlap and the second its exact opposite, both with force
   * `max(1, |speed difference|)` and their own random spin.
   */
  method ResolvePair(a: EnemyCar, b: EnemyCar, spinA: real, spinB: real) returns (collided: bool)
    requires a != b && a.Valid() && b.Valid()
    modifies a, b
    ensures a.Valid() && b.Valid()
    ensures collided <==> old(Collide(a.Box(), b.Box()))
    ensures collided ==>
      var i := ImpactDirection(old(a.Box()).value, old(b.Box()).value);
      var f := CollisionForce(a.speed, b.speed);
      && a.Velocity() == old(a.Velocity()).Impulse(i.x, i.y, f, spinA)
      && b.Velocity() == old(b.Velocity()).Impulse(-i.x, -i.y, f, spinB)
      && a.isColliding && b.isColliding
    ensures !collided ==> unchanged(a) && unchanged(b)
  {
    var boxA, boxB := a.Box(), b.Box();
    if !Collide(boxA, boxB) {
      return false;
    }
    var force := CollisionForce(a.speed, b.speed);
    var impact := ImpactDirection(boxA.value, boxB.value);
    // The length of an axis-aligned unit vector is 1, so normalising keeps it.
    var length := 1.0;
    NormalizeKeepsDirection(impact, length);
    var n := Normalize(impact, length);
    a.ApplyCollision(n.x, n.y, force, spinA);
    b.ApplyCollision(-n.x, -n.y, force, spinB);
    return true;
  }

  /** A car as `spawnCar` leaves it: fresh, in its lane at `spawnY`, drunk when the draw says so. */
  ghost predicate Spawned(car: EnemyCar, roadLeft: real, lane: int, spawnY: real, drunkDraw: real)
    reads car
  {
    && car.Valid() && car.roadLeft == roadLeft
    && car.lane == lane && car.x == LaneCenter(roadLeft, lane) && car.y == spawnY
    && car.speed == MAX_SPEED * 0.5 && !car.isColliding
    && car.drunk == (drunkDraw < DRUNK_DRIVER_CHANCE)
  }

  /**
   * The new car of `spawnCar`: one in five is a drunk driver; a sober one
   * tries a lane change in a random direction half of the time, looking at
   * the cars already on the road (the manager knows no player car).
   */
  method NewTrafficCar(roadLeft: real, lane: int, spawnY: real, cars: seq<EnemyCar>, rand: nat -> real, cursor: nat)
    returns (car: EnemyCar, next: nat)
    requires 0 <= lane < LANE_COUNT && RandomStream(rand)
    ensures fresh(car) && next > cursor
    ensures Spawned(car, roadLeft, lane, spawnY, rand(cursor))
  {
    next := cursor;
    var drunk := rand(next) < DRUNK_DRIVER_CHANCE;
    next := next + 1;
    if drunk {
      car := new EnemyCar(roadLeft, lane, MAX_SPEED * 0.5, true, rand(next), rand(next + 1));
      next := next + 2;
    } else {
      car := new EnemyCar(roadLeft, lane, MAX_SPEED * 0.5, false, 0.0, 0.0);
    }
    car.y := spawnY;
    if !drunk {
      var tryChange := rand(next) < 0.5;
      next := next + 1;
      if tryChange {
        var direction := if rand(next) < 0.5 then Left else Right;
        next := next + 1;
        var armed := car.StartLaneChange(direction, cars + [car], None);
        if armed {
          // The timer's delay is drawn as well.
          next := next + 1;
        }
      }
    }
  }

  class EnemyCarManager {
    /** `ROAD_LEFT`, where new cars are placed relative to. */
    const roadLeft: real
    /** The canvas height, which decides when a car is off screen. */
    const canvasHeight: real

    var enemyCars: seq<EnemyCar>
    var lastSpawnTime: int

    ghost predicate Valid()
      reads this, set c | c in enemyCars
    {
      Distinct(enemyCars) && forall c :: c in enemyCars ==> c.Valid() && c.roadLeft == roadLeft
    }

    constructor (roadLeft: real, canvasHeight: real)
      ensures this.roadLeft == roadLeft && this.canvasHeight == canvasHeight
      ensures enemyCars == [] && lastSpawnTime == 0 && Valid()
    {
      this.roadLeft := roadLeft;
      this.canvasHeight := canvasHeight;
      enemyCars := [];
      lastSpawnTime := 0;
    }

    method Reset()
      modifies this
      ensures enemyCars == [] && lastSpawnTime == 0 && Valid()
    {
      enemyCars := [];
      lastSpawnTime := 0;
    }

    /**
     * `spawnCar`: unless MAX_CARS_IN_VIEW cars are already within
     * SPAWN_RADIUS of the player, or the spacing rule fails for the drawn
     * lane and distance, append one new car at the centre of the drawn lane,
     * 800 to 1000 ahead of the player, at half MAX_SPEED.
     */
    method SpawnCar(playerY: real, rand: nat -> real, cursor: nat) returns (next: nat)
      requires Valid() && RandomStream(rand)
      modifies this`enemyCars
      ensures Valid() && next >= cursor
      ensures var lane := SpawnLane(rand(cursor));
              var spawnY := playerY - SpawnDistance(rand(cursor + 2));
              var room := old(CarsInView(enemyCars, playerY)) < MAX_CARS_IN_VIEW
                          && old(HasSpace(enemyCars, LaneCenter(roadLeft, lane), spawnY));
              && (room ==> |enemyCars| == |old(enemyCars)| + 1 && enemyCars[..|old(enemyCars)|] == old(enemyCars)
                           && fresh(enemyCars[|old(enemyCars)|])
                           && CarsInView(enemyCars, playerY) == old(CarsInView(enemyCars, playerY)) + 1
                           && Spawned(enemyCars[|old(enemyCars)|], roadLeft, lane, spawnY, rand(cursor + 3)))
              && (!room ==> enemyCars == old(enemyCars))
    {
      next := cursor;
      if CarsInView(enemyCars, playerY) >= MAX_CARS_IN_VIEW {
        return;
      }
      var lane := SpawnLane(rand(next));
      // The source also draws a spawn angle that it never uses.
      var distance := SpawnDistance(rand(next + 2));
      next := next + 3;
      var spawnY := playerY - distance;
      if !HasSpace(enemyCars, LaneCenter(roadLeft, lane), spawnY) {
        return;
      }
      var car;
      car, next := NewTrafficCar(roadLeft, lane, spawnY, enemyCars, rand, next);
      CarsInViewAppend(enemyCars, car, playerY);
      enemyCars := enemyCars + [car];
    }

    /**
     * The work on one car that stays: a wall impulse towards the road centre
     * when its hitbox sticks out, collisions with every car after it in the
     * list, its own update, and with chance LANE_CHANGE_CHANCE a lane change
     * in a random direction when it is cruising.
     */
    method ProcessCar(i: nat, roadLeft: real, roadWidth: real, player: Option<Point>, rand: nat -> real, cursor: nat)
      returns (next: nat)
      requires Valid() && RandomStream(rand) && i < |enemyCars|
      modifies set c | c in enemyCars
      ensures Valid() && next >= cursor
      ensures forall k :: 0 <= k < i ==> unchanged(enemyCars[k])
    {
      next := cursor;
      var car := enemyCars[i];
      if HitsWall(car.x, car.size, roadLeft, roadWidth) {
        car.ApplyCollision(WallImpactX(car.x, roadLeft, roadWidth), 0.0, WALL_FORCE, rand(next));
        next := next + 1;
      }
      var j := i + 1;
      while j < |enemyCars|
        invariant i + 1 <= j <= |enemyCars| && next >= cursor
        invariant Valid()
        invariant forall k :: 0 <= k < i ==> unchanged(enemyCars[k])
      {
        var collided := ResolvePair(car, enemyCars[j], rand(next), rand(next + 1));
        if collided {
          next := next + 2;
        }
        j := j + 1;
      }
      car.Update();
      if !car.isChangingLanes && !car.emergencySwerve && !car.isColliding {
        var roll := rand(next);
        next := next + 1;
        if roll < LANE_CHANGE_CHANCE {
          var direction := if rand(next) < 0.5 then Left else Right;
          next := next + 1;
          var armed := car.StartLaneChange(direction, enemyCars, player);
          if armed {
            next := next + 1;
          }
        }
      }
    }

    /**
     * `update`: walk the list from the back, removing every car that is off
     * screen and processing every other one; then spawn a car ahead of the
     * camera when more than SPAWN_INTERVAL ms have passed since the last spawn.
     * The cars that remain are exactly those that were not off screen when the
     * frame began, in their order, followed by at most one new car.
     */
    method Update(cameraY: real, roadLeft: real, roadWidth: real, player: Option<Point>,
                  rand: nat -> real, cursor: nat, now: int) returns (next: nat)
      requires Valid() && RandomStream(rand)
      modifies this, set c | c in enemyCars
      ensures Valid() && next >= cursor
      ensures forall c :: c in enemyCars ==> c in old(enemyCars) || fresh(c)
      ensures var kept := old(Kept(enemyCars, cameraY, canvasHeight));
              enemyCars == kept || (|enemyCars| == |kept| + 1 && enemyCars[..|kept|] == kept && fresh(enemyCars[|kept|]))
      ensures now - old(lastSpawnTime) > SPAWN_INTERVAL ==> lastSpawnTime == now
      ensures now - old(lastSpawnTime) <= SPAWN_INTERVAL ==>
        lastSpawnTime == old(lastSpawnTime) && enemyCars == old(Kept(enemyCars, cameraY, canvasHeight))
    {
      next := RemoveAndProcess(cameraY, roadLeft, roadWidth, player, rand, cursor);
      if now - lastSpawnTime > SPAWN_INTERVAL {
        next := SpawnCar(cameraY, rand, next);
        lastSpawnTime := now;
      }
    }

    /**
     * One step of the backward walk: car i, which the walk has not reached
     * yet, is removed when off screen and processed otherwise.
     */
    method Visit(i: nat, ghost orig: seq<EnemyCar>, ghost off: seq<bool>, cameraY: real, roadLeft: real, roadWidth: real,
                 player: Option<Point>, rand: nat -> real, cursor: nat) returns (next: nat)
      requires Valid() && RandomStream(rand) && |off| == |orig| && i < |orig|
      requires enemyCars == orig[..i + 1] + Survivors(orig[i + 1..], off[i + 1..])
      requires forall k :: 0 <= k <= i ==> orig[k].IsOffScreen(cameraY, canvasHeight) == off[k]
      modifies this`enemyCars, set c | c in enemyCars
      ensures Valid() && next >= cursor
      ensures enemyCars == orig[..i] + Survivors(orig[i..], off[i..])
      ensures forall c :: c in enemyCars ==> c in old(enemyCars)
      ensures forall k :: 0 <= k < i ==> orig[k].IsOffScreen(cameraY, canvasHeight) == off[k]
    {
      next := cursor;
      var car := enemyCars[i];
      SplitAt(enemyCars, orig, off, i);
      ghost var cars := enemyCars;
      if car.IsOffScreen(cameraY, canvasHeight) {
        DropCar(i);
      } else {
        next := ProcessCar(i, roadLeft, roadWidth, player, rand, next);
      }
      forall k | 0 <= k < i
        ensures orig[k].IsOffScreen(cameraY, canvasHeight) == off[k]
      {
        assert orig[k] == cars[k] && unchanged(cars[k]);
      }
    }

    /** `splice(i, 1)`: the car at index i leaves the list. */
    method DropCar(i: nat)
      requires Valid() && i < |enemyCars|
      modifies this`enemyCars
      ensures Valid() && enemyCars == old(enemyCars[..i] + enemyCars[i + 1..])
    {
      DistinctRemove(enemyCars, i);
      enemyCars := enemyCars[..i] + enemyCars[i + 1..];
    }

    /** The loop of `update`, from the last car to the first. */
    method RemoveAndProcess(cameraY: real, roadLeft: real, roadWidth: real, player: Option<Point>,
                            rand: nat -> real, cursor: nat) returns (next: nat)
      requires Valid() && RandomStream(rand)
      modifies this`enemyCars, set c | c in enemyCars
      ensures Valid() && next >= cursor
      ensures enemyCars == old(Kept(enemyCars, cameraY, canvasHeight))
      ensures forall c :: c in enemyCars ==> c in old(enemyCars)
    {
      next := cursor;
      ghost var orig := enemyCars;
      ghost var off := OffScreenFlags(enemyCars, cameraY, canvasHeight);
      var i := |enemyCars| - 1;
      while i >= 0
        invariant -1 <= i < |orig| && next >= cursor
        invariant enemyCars == orig[..i + 1] + Survivors(orig[i + 1..], off[i + 1..])
        invariant forall c :: c in enemyCars ==> c in orig
        invariant forall k :: 0 <= k <= i ==> orig[k].IsOffScreen(cameraY, canvasHeight) == off[k]
        invariant Valid()
      {
        next := Visit(i, orig, off, cameraY, roadLeft, roadWidth, player, rand, next);
        i := i - 1;
      }
      assert orig[0..] == orig && off[0..] == off;
    }
  }
}

=== FILE: free_steer.dfy ===
/**
 * The free-steering three-lane prototype (swapline.js): a car that always
 * moves, steered by a wheel, on a generated road full of obstacles. The
 * module globals (`car`, `obstacles`, `score`, `gameOver`, `keys`, the
 * steering wheel and the camera) are the fields of one `Game` object; the
 * road reuses the segment window of the six-lane game.
 *
 * The bicycle model (heading, tyre angle, sin and cos) is outside the model:
 * the displacement it computes for a frame is the parameter `(dx, dy)`.
 * Pointer positions reach the wheel as angles around its centre, the frame
 * timestamp is `ts`, and the two `Math.random()` draws of a spawn are
 * parameters.
 */
module FreeSteer {
  import opened Collision
  import opened PrototypeConfig
  import opened RoadWindow
  import opened Sequences
  import Player
  import SwapLane

  /** Frames at least this many milliseconds apart spawn an obstacle. */
  const SPAWN_GAP: real := 900.0
  /** The wheel's travel either way, in degrees. */
  const MAX_STEERING_ANGLE: real := 540.0
  /** Wheel degrees per degree of pointer movement. */
  const DRAG_GAIN: real := 0.6
  /** The share of its angle a released wheel keeps each frame. */
  const CENTRE_FACTOR: real := 0.85
  /** Below this many degrees a released wheel snaps to centre. */
  const CENTRE_SNAP: real := 0.5
  /** The speed the car starts with and never drops below. */
  const START_SPEED: real := 3.0
  const MIN_SPEED: real := 1.5

  /** An obstacle: its top-left corner in world coordinates. */
  datatype Obstacle = Obstacle(x: real, y: real)

  /** The car's x-range on the road; `checkCollision` ends the game at either end of it. */
  function MinX(roadLeft: real): real { roadLeft + CAR_WIDTH / 2.0 }
  function MaxX(roadLeft: real): real { roadLeft + ROAD_WIDTH - CAR_WIDTH / 2.0 }

  /**
   * `spawnObstacle`: an obstacle centred in a random lane, at least one
   * canvas height plus its own height ahead of the camera and at most 200
   * further.
   */
  function SpawnedObstacle(roadLeft: real, cameraY: real, canvasHeight: real, laneDraw: real, offsetDraw: real): (o: Obstacle)
    requires 0.0 <= laneDraw < 1.0 && 0.0 <= offsetDraw < 1.0
    ensures var lane := SpawnLane(laneDraw);
            && roadLeft + lane as real * LANE_WIDTH <= o.x
            && o.x + OBSTACLE_WIDTH <= roadLeft + (lane + 1) as real * LANE_WIDTH
            && roadLeft <= o.x && o.x + OBSTACLE_WIDTH <= roadLeft + ROAD_WIDTH
    ensures cameraY - canvasHeight - OBSTACLE_HEIGHT - 200.0 < o.y <= cameraY - canvasHeight - OBSTACLE_HEIGHT
  {
    Obstacle(SlotX(roadLeft, SpawnLane(laneDraw), OBSTACLE_WIDTH),
             cameraY - canvasHeight - OBSTACLE_HEIGHT - offsetDraw * 200.0)
  }

  /**
   * Where an obstacle is drawn: its world y relative to the camera, with the
   * camera at the middle of the view. The view spans 0 to `canvasHeight`;
   * a larger world y is further behind the car and lower on the screen.
   */
  function ScreenY(o: Obstacle, cameraY: real, canvasHeight: real): real {
    canvasHeight / 2.0 - (cameraY - o.y)
  }

  /**
   * The `updateObstacles` filter as swapline.js writes it: an obstacle
   * survives while it lies further down than the line 100 above the middle
   * of the view, that is, while it is BEHIND that line.
   */
  function BelowLine(cameraY: real, canvasHeight: real): Obstacle -> bool {
    (o: Obstacle) => o.y > cameraY + canvasHeight / 2.0 - 100.0
  }

  /**
   * The filter as written drops every obstacle in the frame that spawns it:
   * a spawn lies more than a canvas height ahead of the camera, never behind
   * the line, as soon as the canvas is at least 80 / 3 high. So on any real
   * canvas the obstacle list is empty at every collision check.
   */
  lemma SpawnedObstacleDroppedAsWritten(obstacles: seq<Obstacle>, roadLeft: real, cameraY: real, canvasHeight: real,
                                        laneDraw: real, offsetDraw: real)
    requires 0.0 <= laneDraw < 1.0 && 0.0 <= offsetDraw < 1.0
    requires canvasHeight * 3.0 >= 80.0
    ensures var o := SpawnedObstacle(roadLeft, cameraY, canvasHeight, laneDraw, offsetDraw);
            var keep := BelowLine(cameraY, canvasHeight);
            o !in Filter([o], keep) && Filter(obstacles + [o], keep) == Filter(obstacles, keep)
  {
    var o := SpawnedObstacle(roadLeft, cameraY, canvasHeight, laneDraw, offsetDraw);
    var keep := BelowLine(cameraY, canvasHeight);
    assert !keep(o);
    FilterAppend(obstacles, [o], keep);
    assert Filter([o], keep) == [];
    assert Filter(obstacles, keep) + [] == Filter(obstacles, keep);
  }

  /**
   * The filter `updateObstacles` evidently means, and the one the game below
   * uses: "remove obstacles that are far behind", that is, drop an obstacle
   * once it is drawn more than 100 below the bottom of the view.
   */
  function NotFarBehind(cameraY: real, canvasHeight: real): Obstacle -> bool {
    (o: Obstacle) => o.y < cameraY + canvasHeight / 2.0 + 100.0
  }

  /**
   * The survivors of the corrected `updateObstacles` are exactly the
   * obstacles drawn less than 100 below the bottom of the view, in their old
   * order.
   */
  lemma UpdateObstaclesKeepsExactly(obstacles: seq<Obstacle>, front: seq<Obstacle>, cameraY: real, canvasHeight: real)
    ensures forall o :: o in Filter(obstacles, NotFarBehind(cameraY, canvasHeight)) <==>
                          o in obstacles && ScreenY(o, cameraY, canvasHeight) < canvasHeight + 100.0
    ensures var keep := NotFarBehind(cameraY, canvasHeight);
            Filter(front + obstacles, keep) == Filter(front, keep) + Filter(obstacles, keep)
  {
    FilterAppend(front, obstacles, NotFarBehind(cameraY, canvasHeight));
  }

  /** With the corrected filter a new obstacle survives the frame that spawns it, behind the ones already there. */
  lemma SpawnedObstacleKept(obstacles: seq<Obstacle>, roadLeft: real, cameraY: real, canvasHeight: real,
                            laneDraw: real, offsetDraw: real)
    requires 0.0 <= laneDraw < 1.0 && 0.0 <= offsetDraw < 1.0
    requires canvasHeight >= 0.0
    ensures var o := SpawnedObstacle(roadLeft, cameraY, canvasHeight, laneDraw, offsetDraw);
            var keep := NotFarBehind(cameraY, canvasHeight);
            Filter(obstacles + [o], keep) == Filter(obstacles, keep) + [o]
  {
    var o := SpawnedObstacle(roadLeft, cameraY, canvasHeight, laneDraw, offsetDraw);
    var keep := NotFarBehind(cameraY, canvasHeight);
    assert keep(o);
    FilterAppend(obstacles, [o], keep);
    assert Filter([o], keep) == [o];
  }

  /**
   * The collision test against one obstacle: the distance between the car's
   * centre and the obstacle's centre is below (CAR_WIDTH + OBSTACLE_WIDTH) / 2,
   * compared squared (both sides are non-negative, so `Math.sqrt` can go).
   */
  predicate HitsObstacle(carX: real, carY: real, o: Obstacle) {
    var dx := o.x + OBSTACLE_WIDTH / 2.0 - carX;
    var dy := o.y + OBSTACLE_HEIGHT / 2.0 - carY;
    dx * dx + dy * dy < ((CAR_WIDTH + OBSTACLE_WIDTH) / 2.0) * ((CAR_WIDTH + OBSTACLE_WIDTH) / 2.0)
  }

  /** A car whose centre is within 25 of the obstacle's centre on both axes always hits it. */
  lemma CloseIsHit(carX: real, carY: real, o: Obstacle)
    requires Abs(o.x + OBSTACLE_WIDTH / 2.0 - carX) < 25.0 && Abs(o.y + OBSTACLE_HEIGHT / 2.0 - carY) < 25.0
    ensures HitsObstacle(carX, carY, o)
  {
    var a := Abs(o.x + OBSTACLE_WIDTH / 2.0 - carX);
    var b := Abs(o.y + OBSTACLE_HEIGHT / 2.0 - carY);
    assert a * a <= 25.0 * 25.0 by { assert a * a <= a * 25.0; }
    assert b * b <= 25.0 * 25.0 by { assert b * b <= b * 25.0; }
  }

  /** The road-edge test of `checkCollision`: touching either end of the allowed range counts. */
  predicate OffRoad(roadLeft: real, carX: real) {
    carX <= MinX(roadLeft) || carX >= MaxX(roadLeft)
  }

  /** Off the road means the car's body reaches or crosses a road edge. */
  lemma OffRoadIsAtEdge(roadLeft: real, carX: real)
    ensures OffRoad(roadLeft, carX) <==> carX - CAR_WIDTH / 2.0 <= roadLeft || carX + CAR_WIDTH / 2.0 >= roadLeft + ROAD_WIDTH
  {
  }

  /** The car touches some obstacle. */
  predicate Crashes(carX: real, carY: real, obstacles: seq<Obstacle>) {
    exists o :: o in obstacles && HitsObstacle(carX, carY, o)
  }

  /**
   * An obstacle that is hit is within the summed half-widths on each axis:
   * the round test never reaches further than the square around it.
   */
  lemma HitIsClose(carX: real, carY: real, o: Obstacle)
    requires HitsObstacle(carX, carY, o)
    ensures Abs(o.x + OBSTACLE_WIDTH / 2.0 - carX) < 36.0
    ensures Abs(o.y + OBSTACLE_HEIGHT / 2.0 - carY) < 36.0
  {
    var dx := o.x + OBSTACLE_WIDTH / 2.0 - carX;
    var dy := o.y + OBSTACLE_HEIGHT / 2.0 - carY;
    assert dx * dx + dy * dy < 1296.0;
    assert dx * dx >= 0.0 && dy * dy >= 0.0;
    assert dx * dx < 1296.0 && dy * dy < 1296.0;
  }

  /** The angle of a drag: its start plus 0.6 times the pointer's short-way movement, clamped to the wheel's travel. */
  function DragAngle(startAngle: real, startPointerAngle: real, pointerAngle: real): (a: real)
    ensures -MAX_STEERING_ANGLE <= a <= MAX_STEERING_ANGLE
    ensures var moved := startAngle + DRAG_GAIN * SwapLane.WrapDelta(pointerAngle - startPointerAngle);
            -MAX_STEERING_ANGLE <= moved <= MAX_STEERING_ANGLE ==> a == moved
  {
    Clamp(-MAX_STEERING_ANGLE, MAX_STEERING_ANGLE, startAngle + DRAG_GAIN * SwapLane.WrapDelta(pointerAngle - startPointerAngle))
  }

  /** One frame of auto-centring a released wheel: it keeps 85% of its angle, and snaps to 0 below half a degree. */
  function Recentred(a: real): (r: real)
    ensures r == 0.0 <==> Abs(CENTRE_FACTOR * a) < CENTRE_SNAP
    ensures r != 0.0 ==> r == CENTRE_FACTOR * a
  {
    var shrunk := a + (0.0 - a) * 0.15;
    if Abs(shrunk) < CENTRE_SNAP then 0.0 else shrunk
  }

  /** Auto-centring never turns the wheel further and never carries it across the centre. */
  lemma RecentredShrinks(a: real)
    ensures Abs(Recentred(a)) <= Abs(a)
    ensures a >= 0.0 ==> Recentred(a) >= 0.0
    ensures a <= 0.0 ==> Recentred(a) <= 0.0
  {
  }

  /** The global state of swapline.js. */
  class Game {
    const canvasWidth: nat
    const canvasHeight: nat
    /** `ROAD_LEFT`. */
    const roadLeft: real
    /** `roadSegments`. */
    const road: RoadSegments

    var x: real
    var y: real
    var speed: real
    var obstacles: seq<Obstacle>
    var score: int
    var gameOver: bool
    var gas: bool
    var brake: bool
    /** The timestamp of the last spawn; 0 means none yet. */
    var lastObstacleTime: real
    var steeringAngle: real
    var steeringActive: bool
    var steeringStartAngle: real
    var steeringStartPointerAngle: real
    var cameraY: real

    /**
     * What holds between events: speed within [1.5, 8], the car within its
     * x-range, the wheel within its travel, and a well-formed road.
     */
    ghost predicate Valid()
      reads this`speed, this`x, this`steeringAngle, road
    {
      && roadLeft == RoadLeft(canvasWidth as real)
      && MIN_SPEED <= speed <= MAX_SPEED
      && MinX(roadLeft) <= x <= MaxX(roadLeft)
      && -MAX_STEERING_ANGLE <= steeringAngle <= MAX_STEERING_ANGLE
      && road.Valid()
    }

    /** The state a restart produces. */
    ghost predicate AtStart()
      reads this, road
    {
      && x == canvasWidth as real / 2.0 && y == canvasHeight as real - 100.0
      && speed == START_SPEED && obstacles == [] && score == 0 && !gameOver
      && lastObstacleTime == 0.0 && road.ys == [] && cameraY == y
    }

    /** The page load: the globals' initial values, then `resetGame`. */
    constructor (canvasWidth: nat, canvasHeight: nat)
      ensures this.canvasWidth == canvasWidth && this.canvasHeight == canvasHeight
      ensures Valid() && AtStart() && fresh(road)
      ensures steeringAngle == 0.0 && !steeringActive && !gas && !brake
    {
      this.canvasWidth := canvasWidth;
      this.canvasHeight := canvasHeight;
      roadLeft := RoadLeft(canvasWidth as real);
      road := new RoadSegments();
      x := canvasWidth as real / 2.0;
      y := canvasHeight as real - 100.0;
      speed := START_SPEED;
      obstacles, score, gameOver := [], 0, false;
      gas, brake := false, false;
      lastObstacleTime := 0.0;
      steeringAngle, steeringActive := 0.0, false;
      steeringStartAngle, steeringStartPointerAngle := 0.0, 0.0;
      cameraY := y;
    }

    /** `resetGame`: the car, obstacles, score, spawn timer, road and camera start over; the wheel and pedals do not. */
    method ResetGame()
      requires Valid()
      modifies this`x, this`y, this`speed, this`obstacles, this`score, this`gameOver,
               this`lastObstacleTime, this`cameraY, road
      ensures Valid() && AtStart()
    {
      x := canvasWidth as real / 2.0;
      y := canvasHeight as real - 100.0;
      speed := START_SPEED;
      obstacles := [];
      score := 0;
      gameOver := false;
      lastObstacleTime := 0.0;
      road.Clear();
      cameraY := y;
    }

    /** `spawnObstacle`: one obstacle is appended ahead of the camera. */
    method SpawnObstacle(laneDraw: real, offsetDraw: real)
      requires 0.0 <= laneDraw < 1.0 && 0.0 <= offsetDraw < 1.0
      modifies this`obstacles
      ensures obstacles == old(obstacles) + [SpawnedObstacle(roadLeft, cameraY, canvasHeight as real, laneDraw, offsetDraw)]
    {
      var lane := (laneDraw * 3.0).Floor;
      var ox := roadLeft + lane as real * LANE_WIDTH + (LANE_WIDTH - OBSTACLE_WIDTH) / 2.0;
      var oy := cameraY - canvasHeight as real - OBSTACLE_HEIGHT - offsetDraw * 200.0;
      obstacles := obstacles + [Obstacle(ox, oy)];
    }

    /**
     * `updateObstacles` with its filter corrected to `NotFarBehind`: drop
     * the obstacles drawn more than 100 below the view. As written it is
     * `BelowLine`, which drops each obstacle in the frame that spawns it.
     */
    method UpdateObstacles()
      modifies this`obstacles
      ensures obstacles == Filter(old(obstacles), NotFarBehind(cameraY, canvasHeight as real))
    {
      obstacles := Filter(obstacles, NotFarBehind(cameraY, canvasHeight as real));
    }

    /** `checkCollision`: the game ends when the car is at a road edge or touches an obstacle. */
    method CheckCollision()
      modifies this`gameOver
      ensures gameOver == (old(gameOver) || OffRoad(roadLeft, x) || Crashes(x, y, obstacles))
    {
      if x <= roadLeft + CAR_WIDTH / 2.0 || x >= roadLeft + ROAD_WIDTH - CAR_WIDTH / 2.0 {
        gameOver := true;
        return;
      }
      var i := 0;
      while i < |obstacles|
        invariant 0 <= i <= |obstacles|
        invariant gameOver == old(gameOver)
        invariant forall k :: 0 <= k < i ==> !HitsObstacle(x, y, obstacles[k])
      {
        var o := obstacles[i];
        var dx := o.x + OBSTACLE_WIDTH / 2.0 - x;
        var dy := o.y + OBSTACLE_HEIGHT / 2.0 - y;
        if dx * dx + dy * dy < ((CAR_WIDTH + OBSTACLE_WIDTH) / 2.0) * ((CAR_WIDTH + OBSTACLE_WIDTH) / 2.0) {
          gameOver := true;
          assert o in obstacles && HitsObstacle(x, y, o);
          return;
        }
        i := i + 1;
      }
    }

    /** `updateScore`: every live frame earns the whole part of the speed, at least 1. */
    method UpdateScore()
      requires Valid()
      modifies this`score
      ensures score == old(score) + ScoreGain(speed) && score > old(score)
    {
      score := score + speed.Floor;
    }

    /**
     * `updateCar` without the bicycle model: a released wheel recentres, the
     * car moves by the displacement `(dx, dy)` and is clamped to the road,
     * and the pedals set the speed.
     */
    method UpdateCar(dx: real, dy: real)
      requires Valid()
      modifies this`steeringAngle, this`x, this`y, this`speed
      ensures Valid()
      ensures steeringAngle == if steeringActive then old(steeringAngle) else Recentred(old(steeringAngle))
      ensures x == Clamp(MinX(roadLeft), MaxX(roadLeft), old(x) + dx) && y == old(y) + dy
      ensures speed == SpeedStep(old(speed), gas, brake, MIN_SPEED)
    {
      if !steeringActive {
        RecentredShrinks(steeringAngle);
        steeringAngle := steeringAngle + (0.0 - steeringAngle) * 0.15;
        if Abs(steeringAngle) < 0.5 {
          steeringAngle := 0.0;
        }
      }
      x := x + dx;
      y := y + dy;
      x := Max(roadLeft + CAR_WIDTH / 2.0, Min(roadLeft + ROAD_WIDTH - CAR_WIDTH / 2.0, x));
      if gas {
        speed := Min(speed + ACCEL, MAX_SPEED);
      } else if brake {
        speed := Max(speed - BRAKE, 1.5);
      } else {
        speed := Max(speed - FRICTION, 1.5);
      }
    }

    /**
     * The obstacles a live frame at `ts` starts from: `obs` with one more
     * when none has been spawned yet (`lastTime` is 0) or more than SPAWN_GAP
     * has passed since `lastTime`.
     */
    function SpawnedList(obs: seq<Obstacle>, lastTime: real, ts: real, laneDraw: real, offsetDraw: real): seq<Obstacle>
      requires 0.0 <= laneDraw < 1.0 && 0.0 <= offsetDraw < 1.0
      reads this`cameraY
    {
      if lastTime == 0.0 || ts - lastTime > SPAWN_GAP
      then obs + [SpawnedObstacle(roadLeft, cameraY, canvasHeight as real, laneDraw, offsetDraw)]
      else obs
    }

    /**
     * `gameLoop` for one frame at timestamp `ts`: the camera eases towards
     * the car and the road follows it; a finished game stops there. Otherwise
     * an obstacle is spawned when none has been or more than SPAWN_GAP has
     * passed, and the obstacles, collision, score and car are updated in
     * that order, so the frame that ends the game still scores and moves.
     */
    method Frame(ts: real, laneDraw: real, offsetDraw: real, dx: real, dy: real)
      requires Valid() && 0.0 <= laneDraw < 1.0 && 0.0 <= offsetDraw < 1.0
      modifies this`cameraY, this`obstacles, this`lastObstacleTime, this`gameOver, this`score,
               this`steeringAngle, this`x, this`y, this`speed, road
      ensures Valid()
      ensures cameraY == old(cameraY + (y - cameraY) * 0.15)
      ensures road.ys == Generate(old(road.ys), cameraY, canvasHeight as real)
      ensures old(gameOver) ==> gameOver && score == old(score) && obstacles == old(obstacles)
                                && x == old(x) && y == old(y) && speed == old(speed)
                                && steeringAngle == old(steeringAngle) && lastObstacleTime == old(lastObstacleTime)
      ensures !old(gameOver) ==>
                lastObstacleTime == if old(lastObstacleTime) == 0.0 || ts - old(lastObstacleTime) > SPAWN_GAP
                                    then ts else old(lastObstacleTime)
      ensures !old(gameOver) ==>
                && steeringAngle == (if steeringActive then old(steeringAngle) else Recentred(old(steeringAngle)))
                && x == Clamp(MinX(roadLeft), MaxX(roadLeft), old(x) + dx) && y == old(y) + dy
      ensures !old(gameOver) ==> score == old(score) + ScoreGain(old(speed)) && score > old(score)
      ensures !old(gameOver) ==> speed == SpeedStep(old(speed), gas, brake, MIN_SPEED)
      ensures !old(gameOver) ==>
                obstacles == Filter(SpawnedList(old(obstacles), old(lastObstacleTime), ts, laneDraw, offsetDraw),
                                    NotFarBehind(cameraY, canvasHeight as real))
      ensures !old(gameOver) ==> (gameOver <==> OffRoad(roadLeft, old(x)) || Crashes(old(x), old(y), obstacles))
    {
      if gameOver {
        FollowCar();
      } else {
        FollowCar();
        Play(ts, laneDraw, offsetDraw, dx, dy);
      }
    }

    /** The start of every frame: the camera closes 15% of its gap to the car and the road follows it. */
    method FollowCar()
      requires Valid()
      modifies this`cameraY, road
      ensures Valid()
      ensures cameraY == old(cameraY + (y - cameraY) * 0.15)
      ensures road.ys == Generate(old(road.ys), cameraY, canvasHeight as real)
    {
      cameraY := cameraY + (y - cameraY) * 0.15;
      road.GenerateIfNeeded(cameraY, canvasHeight);
    }

    /** The part of a frame that runs only while the game is on. */
    method Play(ts: real, laneDraw: real, offsetDraw: real, dx: real, dy: real)
      requires Valid() && !gameOver && 0.0 <= laneDraw < 1.0 && 0.0 <= offsetDraw < 1.0
      modifies this`obstacles, this`lastObstacleTime, this`gameOver, this`score,
               this`steeringAngle, this`x, this`y, this`speed
      ensures Valid()
      ensures score == old(score) + ScoreGain(old(speed)) && score > old(score)
      ensures speed == SpeedStep(old(speed), gas, brake, MIN_SPEED)
      ensures steeringAngle == if steeringActive then old(steeringAngle) else Recentred(old(steeringAngle))
      ensures x == Clamp(MinX(roadLeft), MaxX(roadLeft), old(x) + dx) && y == old(y) + dy
      ensures lastObstacleTime == if old(lastObstacleTime) == 0.0 || ts - old(lastObstacleTime) > SPAWN_GAP
                                  then ts else old(lastObstacleTime)
      ensures obstacles == Filter(SpawnedList(old(obstacles), old(lastObstacleTime), ts, laneDraw, offsetDraw),
                                  NotFarBehind(cameraY, canvasHeight as real))
      ensures gameOver <==> OffRoad(roadLeft, old(x)) || Crashes(old(x), old(y), obstacles)
    {
      Advance(ts, laneDraw, offsetDraw);
      UpdateScore();
      UpdateCar(dx, dy);
    }

    /**
     * The obstacle half of a live frame: spawn when due, drop the obstacles
     * left behind, then check for a crash.
     */
    method Advance(ts: real, laneDraw: real, offsetDraw: real)
      requires 0.0 <= laneDraw < 1.0 && 0.0 <= offsetDraw < 1.0
      modifies this`obstacles, this`lastObstacleTime, this`gameOver
      ensures lastObstacleTime == if old(lastObstacleTime) == 0.0 || ts - old(lastObstacleTime) > SPAWN_GAP
                                  then ts else old(lastObstacleTime)
      ensures obstacles == Filter(SpawnedList(old(obstacles), old(lastObstacleTime), ts, laneDraw, offsetDraw),
                                  NotFarBehind(cameraY, canvasHeight as real))
      ensures gameOver == (old(gameOver) || OffRoad(roadLeft, x) || Crashes(x, y, obstacles))
    {
      if lastObstacleTime == 0.0 || ts - lastObstacleTime > SPAWN_GAP {
        SpawnObstacle(laneDraw, offsetDraw);
        lastObstacleTime := ts;
      }
      UpdateObstacles();
      CheckCollision();
    }

    /** Gas and brake buttons: `setPedal` changes only the named pedal. */
    method SetPedal(pedal: Player.Pedal, down: bool)
      modifies this`gas, this`brake
      ensures pedal == Player.Gas ==> gas == down && brake == old(brake)
      ensures pedal == Player.Brake ==> brake == down && gas == old(gas)
    {
      if pedal == Player.Gas {
        gas := down;
      } else {
        brake := down;
      }
    }

    /** `onSteeringStart`: the drag begins where the pointer is, from the current angle. */
    method SteeringStart(pointerAngle: real)
      modifies this`steeringActive, this`steeringStartAngle, this`steeringStartPointerAngle
      ensures steeringActive && steeringStartPointerAngle == pointerAngle && steeringStartAngle == steeringAngle
    {
      steeringActive := true;
      steeringStartPointerAngle := pointerAngle;
      steeringStartAngle := steeringAngle;
    }

    /** `onSteeringMove`: while held, the wheel follows the pointer within its travel. */
    method SteeringMove(pointerAngle: real)
      requires Valid()
      modifies this`steeringAngle
      ensures Valid()
      ensures steeringActive ==> steeringAngle == DragAngle(steeringStartAngle, steeringStartPointerAngle, pointerAngle)
      ensures !steeringActive ==> steeringAngle == old(steeringAngle)
    {
      if !steeringActive {
        return;
      }
      var delta := pointerAngle - steeringStartPointerAngle;
      if delta > 180.0 {
        delta := delta - 360.0;
      }
      if delta < -180.0 {
        delta := delta + 360.0;
      }
      delta := delta * DRAG_GAIN;
      steeringAngle := Max(-MAX_STEERING_ANGLE, Min(MAX_STEERING_ANGLE, steeringStartAngle + delta));
    }

    /** `onSteeringEnd`: the wheel is released; auto-centring takes over from the next frame. */
    method SteeringEnd()
      modifies this`steeringActive
      ensures !steeringActive
    {
      steeringActive := false;
    }

    /**
     * The keydown handler: Space restarts a finished game, the arrows turn
     * the wheel ten degrees within its travel, ArrowUp/W and ArrowDown/S
     * press the pedals.
     */
    method KeyDown(key: SwapLane.Key)
      requires Valid()
      modifies this, road
      ensures Valid()
      ensures old(gameOver) && key == SwapLane.Space ==> AtStart()
      ensures !old(gameOver) || key != SwapLane.Space ==>
                && unchanged(road) && score == old(score) && gameOver == old(gameOver)
                && x == old(x) && y == old(y) && speed == old(speed) && obstacles == old(obstacles)
                && cameraY == old(cameraY) && lastObstacleTime == old(lastObstacleTime)
      ensures key == SwapLane.ArrowLeft ==> steeringAngle == Max(old(steeringAngle) - 10.0, -MAX_STEERING_ANGLE)
      ensures key == SwapLane.ArrowRight ==> steeringAngle == Min(old(steeringAngle) + 10.0, MAX_STEERING_ANGLE)
      ensures key != SwapLane.ArrowLeft && key != SwapLane.ArrowRight ==> steeringAngle == old(steeringAngle)
      ensures gas == (old(gas) || key in {SwapLane.ArrowUp, SwapLane.KeyW})
      ensures brake == (old(brake) || key in {SwapLane.ArrowDown, SwapLane.KeyS})
    {
      if gameOver && key == SwapLane.Space {
        ResetGame();
      }
      if key == SwapLane.ArrowLeft {
        steeringAngle := Max(steeringAngle - 10.0, -MAX_STEERING_ANGLE);
      }
      if key == SwapLane.ArrowRight {
        steeringAngle := Min(steeringAngle + 10.0, MAX_STEERING_ANGLE);
      }
      if key == SwapLane.ArrowUp || key == SwapLane.KeyW {
        gas := true;
      }
      if key == SwapLane.ArrowDown || key == SwapLane.KeyS {
        brake := true;
      }
    }

    /** The keyup handler: releasing a pedal key lifts that pedal, releasing an arrow centres the wheel at once. */
    method KeyUp(key: SwapLane.Key)
      requires Valid()
      modifies this`gas, this`brake, this`steeringAngle
      ensures Valid()
      ensures gas == (old(gas) && key !in {SwapLane.ArrowUp, SwapLane.KeyW})
      ensures brake == (old(brake) && key !in {SwapLane.ArrowDown, SwapLane.KeyS})
      ensures steeringAngle == if key in {SwapLane.ArrowLeft, SwapLane.ArrowRight} then 0.0 else old(steeringAngle)
    {
      if key == SwapLane.ArrowUp || key == SwapLane.KeyW {
        gas := false;
      }
      if key == SwapLane.ArrowDown || key == SwapLane.KeyS {
        brake := false;
      }
      if key == SwapLane.ArrowLeft || key == SwapLane.ArrowRight {
        steeringAngle := 0.0;
      }
    }

    /** A tap on the canvas restarts a finished game and does nothing otherwise. */
    method Tap()
      requires Valid()
      modifies this, road
      ensures Valid()
      ensures old(gameOver) ==> AtStart()
      ensures !old(gameOver) ==> unchanged(this) && unchanged(road)
    {
      if gameOver {
        ResetGame();
      }
    }
  }

  /**
   * Speed stays within [1.5, 8] under any pedals, and since it is at least
   * 1.5 every live frame adds at least 1 to the score.
   */
  lemma {:induction false} SpeedStaysInRange(speed: real, pedals: seq<(bool, bool)>)
    requires MIN_SPEED <= speed <= MAX_SPEED
    ensures var s := Drive(speed, pedals, MIN_SPEED);
            MIN_SPEED <= s <= MAX_SPEED && ScoreGain(s) >= 1
    decreases |pedals|
  {
    if pedals != [] {
      SpeedStaysInRange(SpeedStep(speed, pedals[0].0, pedals[0].1, MIN_SPEED), pedals[1..]);
    }
  }

  /** At either end of its x-range the car is off the road: a clamped car ends the game at the next check. */
  lemma ClampedToEdgeIsOffRoad(roadLeft: real, v: real)
    requires v <= MinX(roadLeft) || v >= MaxX(roadLeft)
    ensures OffRoad(roadLeft, Clamp(MinX(roadLeft), MaxX(roadLeft), v))
  {
  }
}

=== FILE: game.dfy ===
/**
 * The six-lane game of game.js: the steering wheel kept in window globals,
 * and the `Game` object that ties the road, the player car and the traffic
 * together every frame, detects the crash that ends a run, scores one point
 * per car passed and keeps the high score.
 *
 * Pointer positions reach the wheel as angles in degrees around its centre
 * (what `getAngleFromCenter` computes with atan2); the chains of animation
 * frames that return the wheel to centre are a count of pending callbacks
 * plus an `AnimationFrame` event; `Math.random()` is a stream with a cursor and
 * `Date.now()` a parameter, as in the traffic manager.
 */
module SwapLane {
  import opened Wrappers
  import opened Collision
  import opened GameConfig
  import opened RoadWindow
  import opened Player
  import opened Traffic
  import opened TrafficManager

  /** How far one press of an arrow key turns the wheel, in degrees. */
  const KEY_STEP: real := 10.0
  /** Wheel degrees per degree of pointer movement. */
  const DRAG_GAIN: real := 1.2
  /** The factor the wheel keeps per animation frame on its way back to centre. */
  const RETURN_FACTOR: real := 0.9
  /** Below this many degrees the returning wheel snaps to centre. */
  const RETURN_SNAP: real := 0.1

  /**
   * The pointer's movement since the drag began, taken the short way round:
   * one turn is added or removed when the raw difference is more than half
   * a turn.
   */
  function WrapDelta(raw: real): (d: real)
    ensures d == raw || d == raw - 360.0 || d == raw + 360.0
    ensures -360.0 <= raw <= 360.0 ==> -180.0 <= d <= 180.0
  {
    if raw > 180.0 then raw - 360.0
    else if raw < -180.0 then raw + 360.0
    else raw
  }

  /** Two pointer angles as atan2 reports them differ, the short way round, by at most half a turn. */
  lemma DragDeltaBounded(pointerAngle: real, startPointerAngle: real)
    requires -180.0 <= pointerAngle <= 180.0 && -180.0 <= startPointerAngle <= 180.0
    ensures -180.0 <= WrapDelta(pointerAngle - startPointerAngle) <= 180.0
    ensures -216.0 <= DRAG_GAIN * WrapDelta(pointerAngle - startPointerAngle) <= 216.0
  {
  }

  /** The wheel angle of a drag: the angle at its start plus the scaled movement, clamped to the wheel's travel. */
  function DragAngle(startAngle: real, startPointerAngle: real, pointerAngle: real): (a: real)
    ensures -MAX_STEERING_ANGLE <= a <= MAX_STEERING_ANGLE
    ensures -MAX_STEERING_ANGLE <= startAngle + DRAG_GAIN * WrapDelta(pointerAngle - startPointerAngle) <= MAX_STEERING_ANGLE
            ==> a == startAngle + DRAG_GAIN * WrapDelta(pointerAngle - startPointerAngle)
  {
    Clamp(-MAX_STEERING_ANGLE, MAX_STEERING_ANGLE, startAngle + DRAG_GAIN * WrapDelta(pointerAngle - startPointerAngle))
  }

  /** One frame of the return to centre: the wheel keeps 90% of its angle, or snaps to 0 once that is within 0.1 degrees. */
  function ReturnedAngle(a: real): (r: real)
    ensures r == 0.0 <==> -RETURN_SNAP <= a * RETURN_FACTOR <= RETURN_SNAP
    ensures r != 0.0 ==> r == a * RETURN_FACTOR
  {
    if Abs(a * RETURN_FACTOR) > RETURN_SNAP then a * RETURN_FACTOR else 0.0
  }

  /** The returning wheel never turns further and never crosses the centre; it shrinks by a tenth at least. */
  lemma ReturnShrinks(a: real)
    ensures Abs(ReturnedAngle(a)) <= RETURN_FACTOR * Abs(a)
    ensures a >= 0.0 ==> ReturnedAngle(a) >= 0.0
    ensures a <= 0.0 ==> ReturnedAngle(a) <= 0.0
  {
  }

  /** `n` frames of the return to centre, one after the other. */
  function ReturnedTimes(a: real, n: nat): (r: real)
    ensures Abs(r) <= Abs(a)
    ensures a >= 0.0 ==> r >= 0.0
    ensures a <= 0.0 ==> r <= 0.0
  {
    if n == 0 then a
    else
      var previous := ReturnedTimes(a, n - 1);
      ReturnShrinks(previous);
      ReturnedAngle(previous)
  }

  /**
   * How many of `n` return frames in a row schedule another one: those that
   * leave the wheel off centre.
   */
  function Rescheduled(a: real, n: nat): (k: nat)
    ensures k <= n
  {
    if n == 0 then 0
    else Rescheduled(a, n - 1) + if ReturnedTimes(a, n) != 0.0 then 1 else 0
  }

  /** m frames and then n more are m + n frames. */
  lemma {:induction false} ReturnedTimesAdd(a: real, m: nat, n: nat)
    ensures ReturnedTimes(ReturnedTimes(a, m), n) == ReturnedTimes(a, m + n)
  {
    if n > 0 {
      ReturnedTimesAdd(a, m, n - 1);
    }
  }

  /**
   * A wheel at centre stays there and schedules nothing, so once one of
   * several chains has snapped the wheel, the others end too.
   */
  lemma {:induction false} CentredStaysCentred(n: nat)
    ensures ReturnedTimes(0.0, n) == 0.0 && Rescheduled(0.0, n) == 0
  {
    if n > 0 {
      CentredStaysCentred(n - 1);
    }
  }

  /** The wheel: its angle in degrees, whether it is held, and the drag's starting point. */
  class SteeringWheel {
    var angle: real
    var active: bool
    var startAngle: real
    var startPointerAngle: real
    /**
     * The `returnToCenter` callbacks waiting for the next animation frame.
     * Every release starts a chain of its own, so several can be pending.
     */
    var chains: nat

    ghost predicate Valid()
      reads this
    {
      -MAX_STEERING_ANGLE <= angle <= MAX_STEERING_ANGLE
    }

    constructor ()
      ensures Valid() && angle == 0.0 && !active && chains == 0
      ensures startAngle == 0.0 && startPointerAngle == 0.0
    {
      angle, active, chains := 0.0, false, 0;
      startAngle, startPointerAngle := 0.0, 0.0;
    }

    /** `onSteeringStart`: the drag begins where the pointer is, from the current angle. */
    method Start(pointerAngle: real)
      modifies this`active, this`startAngle, this`startPointerAngle
      ensures active && startPointerAngle == pointerAngle && startAngle == angle
    {
      active := true;
      startPointerAngle := pointerAngle;
      startAngle := angle;
    }

    /** `onSteeringMove`: while held, the wheel follows the pointer; otherwise nothing happens. */
    method Move(pointerAngle: real)
      requires Valid()
      modifies this`angle
      ensures Valid()
      ensures active ==> angle == DragAngle(startAngle, startPointerAngle, pointerAngle)
      ensures !active ==> angle == old(angle)
    {
      if !active {
        return;
      }
      var delta := pointerAngle - startPointerAngle;
      if delta > 180.0 {
        delta := delta - 360.0;
      }
      if delta < -180.0 {
        delta := delta + 360.0;
      }
      delta := delta * DRAG_GAIN;
      angle := Max(-MAX_STEERING_ANGLE, Min(MAX_STEERING_ANGLE, startAngle + delta));
    }

    /**
     * One run of a `returnToCenter` callback: a released wheel keeps 90% of
     * its angle and schedules the next frame of its chain until it has
     * snapped; a held wheel ends the chain.
     */
    method ReturnStep()
      requires Valid()
      modifies this`angle, this`chains
      ensures Valid()
      ensures !active ==> angle == ReturnedAngle(old(angle)) && chains == old(chains) + if angle != 0.0 then 1 else 0
      ensures active ==> angle == old(angle) && chains == old(chains)
    {
      if !active {
        ReturnShrinks(angle);
        angle := angle * RETURN_FACTOR;
        if Abs(angle) > RETURN_SNAP {
          chains := chains + 1;
        } else {
          angle := 0.0;
        }
      }
    }

    /** `onSteeringEnd`: release the wheel and take the first step of a new chain back to centre. */
    method End()
      requires Valid()
      modifies this`active, this`angle, this`chains
      ensures Valid() && !active
      ensures angle == ReturnedAngle(old(angle)) && chains == old(chains) + if angle != 0.0 then 1 else 0
    {
      active := false;
      ReturnStep();
    }

    /**
     * The next animation frame: every pending callback runs once, in turn.
     * With k chains pending a released wheel takes k return steps, and each
     * step that leaves it off centre schedules a callback for the frame
     * after; a held wheel ends every chain.
     */
    method AnimationFrame()
      requires Valid()
      modifies this`angle, this`chains
      ensures Valid()
      ensures !active ==> angle == ReturnedTimes(old(angle), old(chains)) && chains == Rescheduled(old(angle), old(chains))
      ensures active ==> angle == old(angle) && chains == 0
    {
      var pending := chains;
      chains := 0;
      var i := 0;
      while i < pending
        invariant Valid() && i <= pending
        invariant !active ==> angle == ReturnedTimes(old(angle), i) && chains == Rescheduled(old(angle), i)
        invariant active ==> angle == old(angle) && chains == 0
      {
        ReturnStep();
        i := i + 1;
      }
    }

    /** ArrowLeft: ten degrees to the left, stopping at the end of the wheel's travel. */
    method KeyLeft()
      requires Valid()
      modifies this`angle
      ensures Valid()
      ensures angle == Max(old(angle) - KEY_STEP, -MAX_STEERING_ANGLE)
      ensures old(angle) - KEY_STEP >= -MAX_STEERING_ANGLE ==> angle == old(angle) - KEY_STEP
    {
      angle := Max(angle - KEY_STEP, -MAX_STEERING_ANGLE);
    }

    /** ArrowRight: ten degrees to the right, stopping at the end of the wheel's travel. */
    method KeyRight()
      requires Valid()
      modifies this`angle
      ensures Valid()
      ensures angle == Min(old(angle) + KEY_STEP, MAX_STEERING_ANGLE)
      ensures old(angle) + KEY_STEP <= MAX_STEERING_ANGLE ==> angle == old(angle) + KEY_STEP
    {
      angle := Min(angle + KEY_STEP, MAX_STEERING_ANGLE);
    }

    /** Releasing an arrow key, or a restart, centres the wheel at once. */
    method Center()
      modifies this`angle
      ensures Valid() && angle == 0.0
    {
      angle := 0.0;
    }
  }

  /** The keys the game reacts to; `KeyW` and `KeyS` stand for both cases of the letter. */
  datatype Key = Space | ArrowLeft | ArrowRight | ArrowUp | ArrowDown | KeyW | KeyS | OtherKey

  /** The index of the first car whose hitbox overlaps the player's, or the number of cars when none does. */
  function FirstCollision(playerBox: Option<Box>, cars: seq<EnemyCar>): (k: nat)
    reads (set c | c in cars)`x, (set c | c in cars)`y, (set c | c in cars)`size
    ensures k <= |cars|
    ensures forall j :: 0 <= j < k ==> !Collide(playerBox, cars[j].Box())
    ensures k < |cars| ==> Collide(playerBox, cars[k].Box())
  {
    if cars == [] then 0
    else if Collide(playerBox, cars[0].Box()) then 0
    else 1 + FirstCollision(playerBox, cars[1..])
  }

  /** The high score after a crash with the given score: the better of the two. */
  function BestScore(highScore: nat, score: nat): (best: nat)
    ensures best >= highScore && best >= score
    ensures best == highScore || best == score
  {
    if score > highScore then score else highScore
  }

  class Game {
    const canvasHeight: nat
    /** `ROAD_LEFT`, from the canvas width. */
    const roadLeft: real
    const road: RoadSegments
    const player: PlayerCar
    const manager: EnemyCarManager
    const wheel: SteeringWheel

    var cameraY: real
    var score: nat
    var gameOver: bool
    var scoreActive: bool
    var highScore: nat
    var passedCars: set<EnemyCar>

    /**
     * Every passed car counts exactly once, a run is over exactly when scoring
     * has stopped, and the parts agree on the road's position.
     */
    ghost predicate Valid()
      reads this, road, player, manager, wheel, set c | c in manager.enemyCars
    {
      && score == |passedCars|
      && gameOver == !scoreActive
      && PartsValid()
    }

    /** The parts are well formed and agree on the road's position; this reads none of the game's own variables. */
    ghost predicate PartsValid()
      reads road, player, manager, wheel, set c | c in manager.enemyCars
    {
      && road.Valid() && player.Valid() && manager.Valid() && wheel.Valid()
      && player.roadLeft == roadLeft && manager.roadLeft == roadLeft
      && manager.canvasHeight == canvasHeight as real
    }

    /** A new game on a canvas of the given size, with the high score stored by an earlier session. */
    constructor (canvasWidth: real, canvasHeight: nat, storedHighScore: nat)
      ensures Valid() && fresh(road) && fresh(player) && fresh(manager) && fresh(wheel)
      ensures roadLeft == RoadLeft(canvasWidth) && this.canvasHeight == canvasHeight
      ensures score == 0 && !gameOver && scoreActive && highScore == storedHighScore && passedCars == {}
      ensures cameraY == 0.0 && road.ys == [] && manager.enemyCars == [] && player.AtStart()
    {
      this.canvasHeight := canvasHeight;
      roadLeft := RoadLeft(canvasWidth);
      road := new RoadSegments();
      player := new PlayerCar(RoadLeft(canvasWidth));
      manager := new EnemyCarManager(RoadLeft(canvasWidth), canvasHeight as real);
      wheel := new SteeringWheel();
      cameraY := 0.0;
      score, gameOver, scoreActive := 0, false, true;
      highScore := storedHighScore;
      passedCars := {};
    }

    /** `reset`: a new run; the high score is kept. */
    method Reset()
      requires Valid()
      modifies this, road, player, manager, wheel
      ensures Valid()
      ensures score == 0 && !gameOver && scoreActive && passedCars == {} && highScore == old(highScore)
      ensures player.AtStart() && manager.enemyCars == [] && manager.lastSpawnTime == 0
      ensures cameraY == player.y && road.ys == [] && wheel.angle == 0.0
    {
      score, gameOver, scoreActive := 0, false, true;
      passedCars := {};
      player.Reset();
      manager.Reset();
      cameraY := player.y;
      road.Clear();
      wheel.Center();
    }

    /** Space, or a tap on the canvas, restarts a finished run and does nothing during one. */
    method RestartRequest()
      requires Valid()
      modifies this, road, player, manager, wheel
      ensures Valid()
      ensures old(gameOver) ==> score == 0 && !gameOver && passedCars == {} && highScore == old(highScore)
      ensures !old(gameOver) ==> unchanged(this) && unchanged(road) && unchanged(player) && unchanged(manager) && unchanged(wheel)
    {
      if gameOver {
        Reset();
      }
    }

    /** The keydown handler. */
    method KeyDown(key: Key)
      requires Valid()
      modifies this, road, player, manager, wheel
      ensures Valid()
      ensures key == Space ==> (old(gameOver) ==> score == 0 && !gameOver) && (!old(gameOver) ==> unchanged(this))
      ensures key == ArrowLeft ==> wheel.angle == Max(old(wheel.angle) - KEY_STEP, -MAX_STEERING_ANGLE)
      ensures key == ArrowRight ==> wheel.angle == Min(old(wheel.angle) + KEY_STEP, MAX_STEERING_ANGLE)
      ensures key in {ArrowUp, KeyW} ==> player.gas && player.brake == old(player.brake)
      ensures key in {ArrowDown, KeyS} ==> player.brake && player.gas == old(player.gas)
      ensures key != Space ==> unchanged(this) && unchanged(road) && unchanged(manager)
      ensures key != Space ==> player.x == old(player.x) && player.y == old(player.y) && player.speed == old(player.speed)
      ensures key !in {Space, ArrowUp, KeyW, ArrowDown, KeyS} ==> unchanged(player)
      ensures key !in {Space, ArrowLeft, ArrowRight} ==> unchanged(wheel)
    {
      if key == Space {
        RestartRequest();
        return;
      }
      if key == ArrowLeft {
        wheel.KeyLeft();
      }
      if key == ArrowRight {
        wheel.KeyRight();
      }
      if key == ArrowUp || key == KeyW {
        player.SetPedal(Gas, true);
      }
      if key == ArrowDown || key == KeyS {
        player.SetPedal(Brake, true);
      }
    }

    /** The keyup handler: pedals are released, and an arrow key centres the wheel. */
    method KeyUp(key: Key)
      requires Valid()
      modifies player, wheel
      ensures Valid()
      ensures key in {ArrowUp, KeyW} ==> !player.gas && player.brake == old(player.brake)
      ensures key in {ArrowDown, KeyS} ==> !player.brake && player.gas == old(player.gas)
      ensures key in {ArrowLeft, ArrowRight} ==> wheel.angle == 0.0
      ensures key !in {ArrowLeft, ArrowRight} ==> unchanged(wheel)
      ensures player.x == old(player.x) && player.y == old(player.y) && player.speed == old(player.speed)
      ensures key !in {ArrowUp, KeyW, ArrowDown, KeyS} ==> unchanged(player)
    {
      if key == ArrowUp || key == KeyW {
        player.SetPedal(Gas, false);
      }
      if key == ArrowDown || key == KeyS {
        player.SetPedal(Brake, false);
      }
      if key == ArrowLeft || key == ArrowRight {
        wheel.Center();
      }
    }

    /**
     * The crash half of the scoring pass: when the pass stopped at a car (the
     * first whose hitbox overlaps the player's), both get opposite impulses of
     * force max(1, |speed difference|), the high score takes the score if it
     * is better, and the run is over; otherwise nothing changes.
     */
    method CrashIfHit(stop: nat, rand: nat -> real, cursor: nat) returns (next: nat)
      requires Valid() && RandomStream(rand) && stop == FirstCollision(player.Box(), manager.enemyCars)
      modifies this`highScore, this`gameOver, this`scoreActive,
        player`velocityX, player`velocityY, player`angularVelocity, player`isColliding,
        set c | c in manager.enemyCars
      ensures Valid() && next >= cursor && old(highScore) <= highScore
      ensures FirstCollision(player.Box(), manager.enemyCars) == stop
      ensures forall c :: c in manager.enemyCars ==> c.y == old(c.y)
      ensures var cars := manager.enemyCars;
              && (gameOver <==> stop < |cars| || old(gameOver))
              && (stop < |cars| ==> highScore == BestScore(old(highScore), score))
              && (stop == |cars| ==> highScore == old(highScore) && unchanged(player) && forall c :: c in cars ==> unchanged(c))
      ensures var cars := manager.enemyCars;
              stop < |cars| ==>
                var impact := ImpactDirection(player.Box().value, cars[stop].Box().value);
                var force := CollisionForce(player.speed, cars[stop].speed);
                && player.Velocity() == old(player.Velocity()).Impulse(impact.x, impact.y, force, rand(cursor))
                && cars[stop].Velocity() == old(cars[stop].Velocity()).Impulse(-impact.x, -impact.y, force, rand(cursor + 1))
                && player.isColliding && cars[stop].isColliding
    {
      next := cursor;
      var cars := manager.enemyCars;
      if stop < |cars| {
        Crash(cars[stop], rand(next), rand(next + 1));
        next := next + 2;
      }
    }

    /**
     * The loop of the scoring pass: it walks the cars up to the first one
     * that collides with the player and returns that car's index (the number
     * of cars when none does), adding the cars behind the player to the
     * passed set.
     */
    method Tally() returns (stop: nat)
      requires Valid()
      modifies this`score, this`passedCars
      ensures Valid() && stop == FirstCollision(player.Box(), manager.enemyCars)
      ensures old(passedCars) <= passedCars && old(score) <= score
      ensures forall c :: c in passedCars <==> c in old(passedCars) || (c in manager.enemyCars[..stop] && c.y > player.y)
      ensures unchanged(player) && forall c :: c in manager.enemyCars ==> unchanged(c)
    {
      var cars := manager.enemyCars;
      ghost var first := FirstCollision(player.Box(), cars);
      // The loop adds to the passed set and the score; they are written back once it ends.
      var passed, points := passedCars, score;
      var k := 0;
      var crashed := false;
      while k < |cars|
        invariant k <= first && !crashed
        invariant forall c :: c in passed <==> c in passedCars || (c in cars[..k] && c.y > player.y)
        invariant points == |passed| && score <= points
      {
        var car := cars[k];
        if Collide(player.Box(), car.Box()) {
          // The crash itself is handled by the caller; the loop ends here.
          crashed := true;
          break;
        }
        assert k < first;
        if car !in passed && car.y > player.y {
          passed := passed + {car};
          points := points + 1;
        }
        assert cars[..k + 1] == cars[..k] + [car];
        k := k + 1;
      }
      passedCars, score := passed, points;
      stop := k;
    }

    /**
     * The player has hit `car`: both get opposite impulses of force
     * max(1, |speed difference|) along the side of smallest overlap, the
     * high score takes the score if it is better, and the run is over.
     */
    method Crash(car: EnemyCar, spinPlayer: real, spinCar: real)
      requires Valid() && car in manager.enemyCars && Collide(player.Box(), car.Box())
      modifies this`highScore, this`gameOver, this`scoreActive,
        player`velocityX, player`velocityY, player`angularVelocity, player`isColliding, car
      ensures Valid() && gameOver && !scoreActive && highScore == BestScore(old(highScore), score)
      ensures var impact := old(ImpactDirection(player.Box().value, car.Box().value));
              var force := old(CollisionForce(player.speed, car.speed));
              && player.Velocity() == old(player.Velocity()).Impulse(impact.x, impact.y, force, spinPlayer)
              && car.Velocity() == old(car.Velocity()).Impulse(-impact.x, -impact.y, force, spinCar)
              && player.isColliding && car.isColliding
      ensures car.x == old(car.x) && car.y == old(car.y) && car.size == old(car.size)
    {
      Bump(car, spinPlayer, spinCar);
      if score > highScore {
        highScore := score;
      }
      gameOver, scoreActive := true, false;
    }

    /** The physical half of a crash: the player and `car` get opposite impulses; the parts stay well formed. */
    method Bump(car: EnemyCar, spinPlayer: real, spinCar: real)
      requires PartsValid() && car in manager.enemyCars && Collide(player.Box(), car.Box())
      modifies player`velocityX, player`velocityY, player`angularVelocity, player`isColliding, car
      ensures PartsValid()
      ensures var impact := old(ImpactDirection(player.Box().value, car.Box().value));
              var force := old(CollisionForce(player.speed, car.speed));
              && player.Velocity() == old(player.Velocity()).Impulse(impact.x, impact.y, force, spinPlayer)
              && car.Velocity() == old(car.Velocity()).Impulse(-impact.x, -impact.y, force, spinCar)
              && player.isColliding && car.isColliding
      ensures car.x == old(car.x) && car.y == old(car.y) && car.size == old(car.size)
    {
      var playerBox, carBox := player.Box(), car.Box();
      var force := CollisionForce(player.speed, car.speed);
      var impact := ImpactDirection(playerBox.value, carBox.value);
      var length := 1.0;
      NormalizeKeepsDirection(impact, length);
      var n := Normalize(impact, length);
      player.ApplyCollision(n.x, n.y, force, spinPlayer);
      car.ApplyCollision(-n.x, -n.y, force, spinCar);
    }

    /**
     * `update`, one frame: the camera jumps to the player, the road grows
     * and evicts around it, the player and the traffic move, and while the
     * run is on, the collision and scoring pass runs. Scoring only ever
     * adds, a finished run stays finished and frozen until a restart, and
     * the high score never goes down.
     */
    method Update(rand: nat -> real, cursor: nat, now: int) returns (next: nat)
      requires Valid() && RandomStream(rand)
      modifies this, road, player, manager, set c | c in manager.enemyCars
      ensures Valid() && next >= cursor
      ensures cameraY == old(player.y)
      ensures road.ys == Generate(old(road.ys), cameraY, canvasHeight as real)
      ensures old(passedCars) <= passedCars && old(score) <= score && old(highScore) <= highScore
      ensures old(gameOver) ==> gameOver && score == old(score) && passedCars == old(passedCars) && highScore == old(highScore)
      ensures !gameOver ==> highScore == old(highScore)
      ensures !old(gameOver) ==>
                var cars := manager.enemyCars;
                var stop := FirstCollision(player.Box(), cars);
                && (gameOver <==> stop < |cars|)
                && (forall c :: c in passedCars <==> c in old(passedCars) || (c in cars[..stop] && c.y > player.y))
    {
      next := Advance(rand, cursor, now);
      next := ScoreIfActive(rand, next);
    }

    /**
     * The gated half of `update`: while the run is on, the collision and
     * scoring pass runs. Cars are looked at in list order: the first one
     * whose hitbox overlaps the player's ends the run (`CrashIfHit`); every
     * car looked at before it that is behind the player joins the passed
     * cars, scoring a point if it was not there yet (`Tally`).
     */
    method ScoreIfActive(rand: nat -> real, cursor: nat) returns (next: nat)
      requires Valid() && RandomStream(rand)
      modifies this`score, this`passedCars, this`highScore, this`gameOver, this`scoreActive,
        player`velocityX, player`velocityY, player`angularVelocity, player`isColliding,
        set c | c in manager.enemyCars
      ensures Valid() && next >= cursor
      ensures old(passedCars) <= passedCars && old(score) <= score && old(highScore) <= highScore
      ensures old(gameOver) ==> gameOver && score == old(score) && passedCars == old(passedCars) && highScore == old(highScore)
      ensures old(gameOver) ==> next == cursor && unchanged(player) && forall c :: c in manager.enemyCars ==> unchanged(c)
      ensures !gameOver ==> highScore == old(highScore)
      ensures !old(gameOver) ==>
                var cars := manager.enemyCars;
                var stop := FirstCollision(player.Box(), cars);
                && (gameOver <==> stop < |cars|)
                && (forall c :: c in passedCars <==> c in old(passedCars) || (c in cars[..stop] && c.y > player.y))
    {
      next := cursor;
      if scoreActive {
        var stop := Tally();
        next := CrashIfHit(stop, rand, next);
      }
    }

    /** The moving part of `update`: camera, road, player and traffic; the score is not touched. */
    method Advance(rand: nat -> real, cursor: nat, now: int) returns (next: nat)
      requires Valid() && RandomStream(rand)
      modifies this`cameraY, road, player, manager, set c | c in manager.enemyCars
      ensures Valid() && next >= cursor
      ensures forall c :: c in manager.enemyCars ==> c in old(manager.enemyCars) || fresh(c)
      ensures cameraY == old(player.y)
      ensures road.ys == Generate(old(road.ys), cameraY, canvasHeight as real)
    {
      FollowPlayer();
      ghost var ys := road.ys;
      next := MovePlayer(rand, cursor);
      next := manager.Update(cameraY, roadLeft, ROAD_WIDTH, None, rand, next, now);
      assert road.ys == ys;
    }

    /** The camera jumps to the player and the road window follows it. */
    method FollowPlayer()
      requires Valid()
      modifies this`cameraY, road
      ensures Valid()
      ensures cameraY == player.y
      ensures road.ys == Generate(old(road.ys), cameraY, canvasHeight as real)
    {
      cameraY := player.y;
      road.GenerateIfNeeded(cameraY, canvasHeight);
    }

    /** `player.update`, steered by the wheel; the other parts stay as they are. */
    method MovePlayer(rand: nat -> real, cursor: nat) returns (next: nat)
      requires PartsValid()
      modifies player
      ensures PartsValid()
      ensures next == cursor || next == cursor + 1
    {
      next := player.Update(roadLeft, ROAD_WIDTH, wheel.angle, wheel.active, rand, cursor);
    }
  }
}

=== FILE: game_config.dfy ===
/**
 * The constants of the six-lane game (game.js and the globals it publishes
 * for playerCar.js and enemyCar.js). The road's left edge depends on the
 * canvas width, so it is carried by each object instead of being a constant.
 */
module GameConfig {

  const CAR_WIDTH: real := 36.0
  const CAR_HEIGHT: real := 60.0
  const OBSTACLE_HEIGHT: real := 60.0
  const MAX_SPEED: real := 8.0
  const ACCEL: real := 0.1
  const BRAKE: real := 0.1
  const FRICTION: real := 0.02

  /** The wheel turns 1.5 full turns either way. */
  const MAX_STEERING_ANGLE: real := 540.0

  const ROAD_WIDTH: real := 480.0
  const LANE_COUNT: int := 6
  const LANE_WIDTH: real := 80.0

  /** `(canvas.width - ROAD_WIDTH) / 2`: the road is centred on the canvas. */
  function RoadLeft(canvasWidth: real): (left: real)
    ensures left + ROAD_WIDTH / 2.0 == canvasWidth / 2.0
  {
    (canvasWidth - ROAD_WIDTH) / 2.0
  }

  /** The x of the centre of a lane: `ROAD_LEFT + (lane + 0.5) * LANE_WIDTH`. */
  function LaneCenter(roadLeft: real, lane: int): (x: real)
    ensures 0 <= lane < LANE_COUNT ==> roadLeft < x < roadLeft + ROAD_WIDTH
    ensures roadLeft + lane as real * LANE_WIDTH < x < roadLeft + (lane + 1) as real * LANE_WIDTH
  {
    roadLeft + (lane as real + 0.5) * LANE_WIDTH
  }

  /** Neighbouring lanes have centres exactly one lane width apart. */
  lemma LaneCentersSpaced(roadLeft: real, lane: int)
    ensures LaneCenter(roadLeft, lane + 1) - LaneCenter(roadLeft, lane) == LANE_WIDTH
  {
  }
}

=== FILE: lane_snap.dfy ===
/**
 * The lane-snapping three-lane prototype (dist/swapline.js): the car sits
 * in one of three lanes near the bottom of a fixed view and jumps a lane
 * per left/right request; obstacles fall towards it faster the faster it
 * drives. The module globals (`car`, `keys`, `obstacles`, `score`,
 * `gameOver`) are the fields of one `Game` object. The frame timestamp is
 * `ts` and the one `Math.random()` draw of a spawn is a parameter.
 */
module LaneSnap {
  import opened Collision
  import opened PrototypeConfig
  import opened Sequences
  import Player
  import SwapLane
  import Wrappers

  /** An obstacle: its top-left corner in view coordinates. */
  datatype Obstacle = Obstacle(x: real, y: real)

  /** The car's lane and the two pending lane requests. */
  datatype Steering = Steering(lane: int, left: bool, right: bool)

  /** The car's hitbox: its top-left corner and size. */
  function CarBox(x: real, y: real): (b: Box)
    ensures b.right - b.left == CAR_WIDTH && b.bottom - b.top == CAR_HEIGHT
  {
    Box(x, x + CAR_WIDTH, y, y + CAR_HEIGHT)
  }

  /** An obstacle's hitbox. */
  function ObstacleBox(o: Obstacle): (b: Box)
    ensures b.right - b.left == OBSTACLE_WIDTH && b.bottom - b.top == OBSTACLE_HEIGHT
  {
    Box(o.x, o.x + OBSTACLE_WIDTH, o.y, o.y + OBSTACLE_HEIGHT)
  }

  /** Some obstacle's box strictly overlaps the car's. */
  predicate Crashes(x: real, y: real, obstacles: seq<Obstacle>) {
    exists o :: o in obstacles && Overlaps(CarBox(x, y), ObstacleBox(o))
  }

  /** The collision test of `checkCollision` is the strict box overlap, whichever box comes first. */
  lemma CollisionSymmetric(x: real, y: real, o: Obstacle)
    ensures Overlaps(CarBox(x, y), ObstacleBox(o)) <==> Overlaps(ObstacleBox(o), CarBox(x, y))
    ensures Overlaps(CarBox(x, y), ObstacleBox(o)) <==> Abs(o.x - x) < 36.0 && Abs(o.y - y) < 60.0
  {
    OverlapsSymmetric(CarBox(x, y), ObstacleBox(o));
  }

  /**
   * The lane part of `updateCar`: a pending left request moves one lane left
   * unless the car is in lane 0, then a pending right request moves one lane
   * right unless it is in the last lane. A request is consumed only by the
   * move it asks for; at the edge it stays pending.
   */
  function SteerStep(s: Steering): (r: Steering)
    ensures 0 <= s.lane < LANE_COUNT ==> 0 <= r.lane < LANE_COUNT
    ensures s.left && s.lane > 0 ==> !r.left
    ensures !(s.left && s.lane > 0) ==> r.left == s.left
    ensures r.right != s.right ==> s.right && !r.right
    ensures -1 <= r.lane - s.lane <= 1
  {
    var afterLeft := if s.left && s.lane > 0 then Steering(s.lane - 1, false, s.right) else s;
    if afterLeft.right && afterLeft.lane < LANE_COUNT - 1 then afterLeft.(lane := afterLeft.lane + 1, right := false)
    else afterLeft
  }

  /** A lone request at the edge it points past changes nothing and stays pending for later frames. */
  lemma RequestAtEdgeStaysPending()
    ensures SteerStep(Steering(0, true, false)) == Steering(0, true, false)
    ensures SteerStep(Steering(LANE_COUNT - 1, false, true)) == Steering(LANE_COUNT - 1, false, true)
  {
  }

  /** A lone request away from the edge moves exactly one lane and is consumed. */
  lemma RequestMovesOneLane(lane: int)
    requires 0 <= lane < LANE_COUNT
    ensures lane > 0 ==> SteerStep(Steering(lane, true, false)) == Steering(lane - 1, false, false)
    ensures lane < LANE_COUNT - 1 ==> SteerStep(Steering(lane, false, true)) == Steering(lane + 1, false, false)
  {
  }

  /**
   * Both requests pending in the middle lane cancel out: the car goes left
   * and back right within the frame and both are consumed. In lane 0 the
   * left request survives the right move and is served next frame.
   */
  lemma BothRequests()
    ensures SteerStep(Steering(1, true, true)) == Steering(1, false, false)
    ensures SteerStep(Steering(0, true, true)) == Steering(1, true, false)
    ensures SteerStep(SteerStep(Steering(0, true, true))) == Steering(0, false, false)
  {
  }

  /** `updateObstacles`' first loop: every obstacle moves down by `d`. */
  function Lowered(obstacles: seq<Obstacle>, d: real): (r: seq<Obstacle>)
    ensures |r| == |obstacles|
    ensures forall i :: 0 <= i < |r| ==> r[i].x == obstacles[i].x && r[i].y == obstacles[i].y + d
  {
    seq(|obstacles|, i requires 0 <= i < |obstacles| => Obstacle(obstacles[i].x, obstacles[i].y + d))
  }

  /** `updateObstacles`' filter: an obstacle survives while its top is above the canvas bottom plus its height. */
  function OnCanvas(canvasHeight: real): Obstacle -> bool {
    (o: Obstacle) => o.y < canvasHeight + OBSTACLE_HEIGHT
  }

  /**
   * After `updateObstacles` exactly the moved obstacles still above the
   * limit remain, in their old order: lowering and filtering a list split in
   * two gives the two parts' results one after the other.
   */
  lemma UpdateObstaclesKeepsExactly(front: seq<Obstacle>, back: seq<Obstacle>, d: real, canvasHeight: real)
    ensures forall o :: o in Filter(Lowered(back, d), OnCanvas(canvasHeight)) <==>
              o in Lowered(back, d) && o.y < canvasHeight + OBSTACLE_HEIGHT
    ensures Filter(Lowered(front + back, d), OnCanvas(canvasHeight))
         == Filter(Lowered(front, d), OnCanvas(canvasHeight)) + Filter(Lowered(back, d), OnCanvas(canvasHeight))
  {
    assert Lowered(front + back, d) == Lowered(front, d) + Lowered(back, d);
    FilterAppend(Lowered(front, d), Lowered(back, d), OnCanvas(canvasHeight));
  }

  /**
   * `updateObstacles` on a list: each obstacle moved down by `d`, keeping
   * those still above the canvas bottom plus an obstacle's height.
   */
  function Advanced(obstacles: seq<Obstacle>, d: real, canvasHeight: real): (r: seq<Obstacle>)
    ensures |r| <= |obstacles|
  {
    if obstacles == [] then []
    else
      var o := Obstacle(obstacles[0].x, obstacles[0].y + d);
      (if o.y < canvasHeight + OBSTACLE_HEIGHT then [o] else []) + Advanced(obstacles[1..], d, canvasHeight)
  }

  /** Every survivor is an old obstacle moved down by d, and lies above the limit. */
  lemma {:induction false} AdvancedComesFrom(obstacles: seq<Obstacle>, d: real, canvasHeight: real)
    ensures forall o :: o in Advanced(obstacles, d, canvasHeight) ==>
              o.y < canvasHeight + OBSTACLE_HEIGHT && Obstacle(o.x, o.y - d) in obstacles
  {
    if obstacles != [] {
      AdvancedComesFrom(obstacles[1..], d, canvasHeight);
    }
  }

  /** The same list is what the two loops of `updateObstacles` produce: all lowered first, then filtered. */
  lemma {:induction false} AdvancedIsLoweredThenFiltered(obstacles: seq<Obstacle>, d: real, canvasHeight: real)
    ensures Advanced(obstacles, d, canvasHeight) == Filter(Lowered(obstacles, d), OnCanvas(canvasHeight))
  {
    if obstacles != [] {
      var l := Lowered(obstacles, d);
      var keep := OnCanvas(canvasHeight);
      var o := Obstacle(obstacles[0].x, obstacles[0].y + d);
      assert l[0] == o && (keep(o) <==> o.y < canvasHeight + OBSTACLE_HEIGHT);
      assert l[1..] == Lowered(obstacles[1..], d);
      assert Filter(l, keep) == (if keep(o) then [o] else []) + Filter(l[1..], keep);
      AdvancedIsLoweredThenFiltered(obstacles[1..], d, canvasHeight);
    }
  }

  /** The global state of dist/swapline.js. */
  class Game {
    const canvasWidth: nat
    const canvasHeight: nat
    /** `ROAD_LEFT`. */
    const roadLeft: real

    var lane: int
    var x: real
    var y: real
    var speed: real
    var obstacles: seq<Obstacle>
    var score: int
    var gameOver: bool
    var left: bool
    var right: bool
    var gas: bool
    var brake: bool
    /** The timestamp of the last spawn; 0 means none yet. */
    var lastObstacleTime: real

    /** What holds between events: the car centred in a lane of the road, with a speed in [0, 8]. */
    ghost predicate Valid()
      reads this`lane, this`x, this`speed
    {
      && roadLeft == RoadLeft(canvasWidth as real)
      && 0 <= lane < LANE_COUNT
      && x == SlotX(roadLeft, lane, CAR_WIDTH)
      && 0.0 <= speed <= MAX_SPEED
    }

    /** The state `resetGame` produces. */
    ghost predicate AtStart()
      reads this
    {
      && lane == 1 && x == SlotX(roadLeft, 1, CAR_WIDTH) && y == canvasHeight as real - CAR_HEIGHT - 20.0
      && speed == 0.0 && obstacles == [] && score == 0 && !gameOver && lastObstacleTime == 0.0
    }

    /** The page load: the globals' initial values, then `resetGame`. */
    constructor (canvasWidth: nat, canvasHeight: nat)
      ensures this.canvasWidth == canvasWidth && this.canvasHeight == canvasHeight
      ensures Valid() && AtStart()
      ensures !left && !right && !gas && !brake
    {
      this.canvasWidth := canvasWidth;
      this.canvasHeight := canvasHeight;
      var roadLeft := RoadLeft(canvasWidth as real);
      this.roadLeft := roadLeft;
      lane := 1;
      x := roadLeft + LANE_WIDTH * 1.0 + (LANE_WIDTH - CAR_WIDTH) / 2.0;
      y := canvasHeight as real - CAR_HEIGHT - 20.0;
      speed := 0.0;
      obstacles, score, gameOver := [], 0, false;
      left, right, gas, brake := false, false, false, false;
      lastObstacleTime := 0.0;
    }

    /** `resetGame`: the car, obstacles, score and spawn timer start over; pending requests and pedals do not. */
    method ResetGame()
      requires Valid()
      modifies this`lane, this`x, this`y, this`speed, this`obstacles, this`score, this`gameOver, this`lastObstacleTime
      ensures Valid() && AtStart()
    {
      lane := 1;
      x := roadLeft + LANE_WIDTH * 1.0 + (LANE_WIDTH - CAR_WIDTH) / 2.0;
      y := canvasHeight as real - CAR_HEIGHT - 20.0;
      speed := 0.0;
      obstacles := [];
      score := 0;
      gameOver := false;
      lastObstacleTime := 0.0;
    }

    /** `spawnObstacle`: one obstacle centred in a random lane, just above the view. */
    method SpawnObstacle(laneDraw: real)
      requires 0.0 <= laneDraw < 1.0
      modifies this`obstacles
      ensures obstacles == old(obstacles) + [Obstacle(SlotX(roadLeft, SpawnLane(laneDraw), OBSTACLE_WIDTH), -OBSTACLE_HEIGHT)]
    {
      var spawnLane := (laneDraw * 3.0).Floor;
      var ox := roadLeft + spawnLane as real * LANE_WIDTH + (LANE_WIDTH - OBSTACLE_WIDTH) / 2.0;
      obstacles := obstacles + [Obstacle(ox, -OBSTACLE_HEIGHT)];
    }

    /** `updateObstacles`: move every obstacle down by speed + 2 in place, then drop those below the view. */
    method UpdateObstacles()
      modifies this`obstacles
      ensures obstacles == Advanced(old(obstacles), speed + 2.0, canvasHeight as real)
    {
      var i := 0;
      while i < |obstacles|
        invariant 0 <= i <= |obstacles| == |old(obstacles)|
        invariant obstacles[..i] == Lowered(old(obstacles), speed + 2.0)[..i]
        invariant obstacles[i..] == old(obstacles)[i..]
      {
        var o := obstacles[i];
        obstacles := obstacles[i := Obstacle(o.x, o.y + speed + 2.0)];
        i := i + 1;
      }
      assert obstacles == obstacles[..i];
      assert Lowered(old(obstacles), speed + 2.0)[..i] == Lowered(old(obstacles), speed + 2.0);
      AdvancedIsLoweredThenFiltered(old(obstacles), speed + 2.0, canvasHeight as real);
      obstacles := Filter(obstacles, OnCanvas(canvasHeight as real));
    }

    /** `checkCollision`: the game ends when the car's box strictly overlaps an obstacle's. */
    method CheckCollision()
      modifies this`gameOver
      ensures gameOver == (old(gameOver) || Crashes(x, y, obstacles))
    {
      var i := 0;
      while i < |obstacles|
        invariant 0 <= i <= |obstacles|
        invariant gameOver == old(gameOver)
        invariant forall k :: 0 <= k < i ==> !Overlaps(CarBox(x, y), ObstacleBox(obstacles[k]))
      {
        var o := obstacles[i];
        if x < o.x + OBSTACLE_WIDTH && x + CAR_WIDTH > o.x && y < o.y + OBSTACLE_HEIGHT && y + CAR_HEIGHT > o.y {
          gameOver := true;
          assert o in obstacles && Overlaps(CarBox(x, y), ObstacleBox(o));
          return;
        }
        i := i + 1;
      }
    }

    /** `updateScore`: every live frame earns the whole part of the speed, never less than 0. */
    method UpdateScore()
      requires Valid()
      modifies this`score
      ensures score == old(score) + ScoreGain(speed) && score >= old(score)
    {
      score := score + speed.Floor;
    }

    /** `updateCar`: serve the pending lane requests, snap x to the lane, and apply the pedals. */
    method UpdateCar()
      requires Valid()
      modifies this`lane, this`left, this`right, this`x, this`speed
      ensures Valid()
      ensures Steering(lane, left, right) == SteerStep(old(Steering(lane, left, right)))
      ensures speed == SpeedStep(old(speed), gas, brake, 0.0)
    {
      if left && lane > 0 {
        lane := lane - 1;
        left := false;
      }
      if right && lane < LANE_COUNT - 1 {
        lane := lane + 1;
        right := false;
      }
      x := roadLeft + lane as real * LANE_WIDTH + (LANE_WIDTH - CAR_WIDTH) / 2.0;
      if gas {
        speed := Min(speed + ACCEL, MAX_SPEED);
      } else if brake {
        speed := Max(speed - BRAKE, 0.0);
      } else {
        speed := Max(speed - FRICTION, 0.0);
      }
    }

    /**
     * The obstacle list a live frame at `ts` starts from: with one more
     * obstacle when none has been spawned yet or more than 1200 - 80 * speed
     * milliseconds have passed since the last spawn.
     */
    function SpawnedList(ts: real, laneDraw: real): seq<Obstacle>
      requires 0.0 <= laneDraw < 1.0
      reads this`obstacles, this`lastObstacleTime, this`speed
    {
      if lastObstacleTime == 0.0 || ts - lastObstacleTime > 1200.0 - speed * 80.0
      then obstacles + [Obstacle(SlotX(roadLeft, SpawnLane(laneDraw), OBSTACLE_WIDTH), -OBSTACLE_HEIGHT)]
      else obstacles
    }

    /**
     * `gameLoop` for one frame at timestamp `ts`: nothing happens once the
     * game is over. Otherwise an obstacle is spawned when none has been or
     * more than 1200 - 80 * speed milliseconds have passed (sooner the
     * faster the car), and the obstacles, collision, score and car are
     * updated in that order.
     */
    method Frame(ts: real, laneDraw: real)
      requires Valid() && 0.0 <= laneDraw < 1.0
      modifies this`obstacles, this`lastObstacleTime, this`gameOver, this`score,
               this`lane, this`left, this`right, this`x, this`speed
      ensures Valid()
      ensures old(gameOver) ==> unchanged(this)
      ensures !old(gameOver) ==>
                lastObstacleTime == if old(lastObstacleTime) == 0.0 || ts - old(lastObstacleTime) > 1200.0 - old(speed) * 80.0
                                    then ts else old(lastObstacleTime)
      ensures !old(gameOver) ==> score == old(score) + ScoreGain(old(speed)) && score >= old(score)
      ensures !old(gameOver) ==> Steering(lane, left, right) == SteerStep(old(Steering(lane, left, right)))
      ensures !old(gameOver) ==> speed == SpeedStep(old(speed), gas, brake, 0.0)
      ensures !old(gameOver) ==> obstacles == Advanced(old(SpawnedList(ts, laneDraw)), old(speed) + 2.0, canvasHeight as real)
      ensures !old(gameOver) ==> (gameOver <==> Crashes(old(x), y, obstacles))
    {
      if !gameOver {
        Play(ts, laneDraw);
      }
    }

    /** The frame of a game that is still on. */
    method Play(ts: real, laneDraw: real)
      requires Valid() && !gameOver && 0.0 <= laneDraw < 1.0
      modifies this`obstacles, this`lastObstacleTime, this`gameOver, this`score,
               this`lane, this`left, this`right, this`x, this`speed
      ensures Valid()
      ensures score == old(score) + ScoreGain(old(speed)) && score >= old(score)
      ensures Steering(lane, left, right) == SteerStep(old(Steering(lane, left, right)))
      ensures speed == SpeedStep(old(speed), gas, brake, 0.0)
      ensures lastObstacleTime == if old(lastObstacleTime) == 0.0 || ts - old(lastObstacleTime) > 1200.0 - old(speed) * 80.0
                                  then ts else old(lastObstacleTime)
      ensures obstacles == Advanced(old(SpawnedList(ts, laneDraw)), old(speed) + 2.0, canvasHeight as real)
      ensures gameOver <==> Crashes(old(x), y, obstacles)
    {
      if lastObstacleTime == 0.0 || ts - lastObstacleTime > 1200.0 - speed * 80.0 {
        SpawnObstacle(laneDraw);
        lastObstacleTime := ts;
      }
      UpdateObstacles();
      CheckCollision();
      ghost var crashed, x0, passing := gameOver, x, obstacles;
      assert crashed <==> Crashes(x0, y, passing);
      UpdateScore();
      UpdateCar();
      assert gameOver == crashed && obstacles == passing;
    }

    /** Gas and brake buttons: `setPedal` changes only the named pedal. */
    method SetPedal(pedal: Player.Pedal, down: bool)
      modifies this`gas, this`brake
      ensures pedal == Player.Gas ==> gas == down && brake == old(brake)
      ensures pedal == Player.Brake ==> brake == down && gas == old(gas)
    {
      if pedal == Player.Gas {
        gas := down;
      } else {
        brake := down;
      }
    }

    /** The left and right buttons: a click leaves a request for the next frame. */
    method Request(direction: Wrappers.Direction)
      modifies this`left, this`right
      ensures direction == Wrappers.Left ==> left && right == old(right)
      ensures direction == Wrappers.Right ==> right && left == old(left)
    {
      if direction == Wrappers.Left {
        left := true;
      } else {
        right := true;
      }
    }

    /**
     * The keydown handler: Space restarts a finished game, the arrows leave
     * lane requests and press the pedals. Letters do nothing here.
     */
    method KeyDown(key: SwapLane.Key)
      requires Valid()
      modifies this
      ensures Valid()
      ensures old(gameOver) && key == SwapLane.Space ==> AtStart()
      ensures !old(gameOver) || key != SwapLane.Space ==>
                && score == old(score) && gameOver == old(gameOver) && lane == old(lane) && obstacles == old(obstacles)
                && x == old(x) && y == old(y) && speed == old(speed) && lastObstacleTime == old(lastObstacleTime)
      ensures left == (old(left) || key == SwapLane.ArrowLeft)
      ensures right == (old(right) || key == SwapLane.ArrowRight)
      ensures gas == (old(gas) || key == SwapLane.ArrowUp)
      ensures brake == (old(brake) || key == SwapLane.ArrowDown)
    {
      if gameOver && key == SwapLane.Space {
        ResetGame();
      }
      if key == SwapLane.ArrowLeft {
        left := true;
      }
      if key == SwapLane.ArrowRight {
        right := true;
      }
      if key == SwapLane.ArrowUp {
        gas := true;
      }
      if key == SwapLane.ArrowDown {
        brake := true;
      }
    }

    /** The keyup handler: only the pedals are released; lane requests stay until served. */
    method KeyUp(key: SwapLane.Key)
      modifies this`gas, this`brake
      ensures gas == (old(gas) && key != SwapLane.ArrowUp)
      ensures brake == (old(brake) && key != SwapLane.ArrowDown)
    {
      if key == SwapLane.ArrowUp {
        gas := false;
      }
      if key == SwapLane.ArrowDown {
        brake := false;
      }
    }

    /** A tap on the canvas restarts a finished game and does nothing otherwise. */
    method Tap()
      requires Valid()
      modifies this
      ensures old(gameOver) ==> Valid() && AtStart()
      ensures !old(gameOver) ==> unchanged(this)
    {
      if gameOver {
        ResetGame();
      }
    }
  }

  /** Speed stays within [0, 8] under any pedals, so no frame lowers the score. */
  lemma {:induction false} SpeedStaysInRange(speed: real, pedals: seq<(bool, bool)>)
    requires 0.0 <= speed <= MAX_SPEED
    ensures var s := Drive(speed, pedals, 0.0);
            0.0 <= s <= MAX_SPEED && ScoreGain(s) >= 0
    decreases |pedals|
  {
    if pedals != [] {
      SpeedStaysInRange(SpeedStep(speed, pedals[0].0, pedals[0].1, 0.0), pedals[1..]);
    }
  }

  /** From a standstill, 40 frames of gas reach top speed. */
  lemma {:induction false} GasReachesTopSpeed(n: nat)
    requires n <= 40
    ensures Drive(0.0, seq(n, _ => (true, false)), 0.0) == n as real * ACCEL
  {
    if n > 0 {
      GasReachesTopSpeed(n - 1);
      assert seq(n, _ => (true, false)) == seq(n - 1, _ => (true, false)) + [(true, false)];
      DriveAppend(0.0, seq(n - 1, _ => (true, false)), (true, false), 0.0);
    }
  }
}

=== FILE: player_car.dfy ===
/**
 * The player's car of the six-lane game (playerCar.js): pedals, a steering
 * spring driven by the wheel angle, the pedal speed rule, the wall impulse,
 * the x clamp and the collision physics that takes over after an impact.
 */
module Player {
  import opened Wrappers
  import opened Collision
  import opened GameConfig

  datatype Pedal = Gas | Brake

  /** The largest steering value the wheel can ask for. */
  const STEERING_MAX: real := 0.5
  const STEERING_ACCEL: real := 0.05
  const STEERING_FRICTION: real := 0.95
  const STEERING_RETURN: real := 0.1

  /**
   * The pedal rule: brake has priority and slows by BRAKE down to 0 (no
   * reverse), gas alone accelerates by ACCEL up to MAX_SPEED, and with no
   * pedal the car coasts down by FRICTION to half MAX_SPEED.
   */
  function NextSpeed(speed: real, gas: bool, brake: bool): (s: real)
    ensures 0.0 <= speed <= MAX_SPEED ==> 0.0 <= s <= MAX_SPEED
    ensures brake ==> s >= 0.0 && (s < speed || s == 0.0)
    ensures !brake && gas ==> s <= MAX_SPEED && (s > speed || s == MAX_SPEED)
    ensures !brake && !gas ==> s >= MAX_SPEED * 0.5 && (s < speed || s == MAX_SPEED * 0.5)
    ensures brake && speed >= BRAKE ==> s == speed - BRAKE
    ensures !brake && gas && speed + ACCEL <= MAX_SPEED ==> s == speed + ACCEL
    ensures !brake && !gas && speed - FRICTION >= MAX_SPEED * 0.5 ==> s == speed - FRICTION
  {
    if brake then Max(speed - BRAKE, 0.0)
    else if gas then Min(speed + ACCEL, MAX_SPEED)
    else Max(speed - FRICTION, MAX_SPEED * 0.5)
  }

  /** The speed after holding only the gas pedal for `n` frames from a standstill. */
  function GasSpeedAfter(n: nat): (s: real)
  {
    if n == 0 then 0.0 else NextSpeed(GasSpeedAfter(n - 1), true, false)
  }

  /** Holding the gas from rest adds exactly ACCEL per frame until MAX_SPEED. */
  lemma {:induction false} GasFromRest(n: nat)
    ensures GasSpeedAfter(n) == Min(n as real * ACCEL, MAX_SPEED)
  {
    if n > 0 {
      GasFromRest(n - 1);
    }
  }

  /** Top speed is first reached on frame 80 and then held. */
  lemma GasReachesTopSpeed(n: nat)
    ensures GasSpeedAfter(n) == MAX_SPEED <==> n >= 80
  {
    GasFromRest(n);
  }

  /** The steering the wheel asks for: a fraction of STEERING_MAX with the wheel's sign. */
  function SteeringTarget(wheelAngle: real): (t: real)
    ensures -MAX_STEERING_ANGLE <= wheelAngle <= MAX_STEERING_ANGLE ==> -STEERING_MAX <= t <= STEERING_MAX
    ensures (t > 0.0 <==> wheelAngle > 0.0) && (t < 0.0 <==> wheelAngle < 0.0)
  {
    wheelAngle / MAX_STEERING_ANGLE * STEERING_MAX
  }

  /** The steering spring: accelerate towards the target, then damp. */
  function NextSteeringSpeed(steering: real, steeringSpeed: real, wheelAngle: real): (v: real)
    ensures steeringSpeed == 0.0 ==> (v > 0.0 <==> SteeringTarget(wheelAngle) > steering) && (v < 0.0 <==> SteeringTarget(wheelAngle) < steering)
    ensures steering == SteeringTarget(wheelAngle) ==> Abs(v) < Abs(steeringSpeed) || v == 0.0 == steeringSpeed
  {
    (steeringSpeed + (SteeringTarget(wheelAngle) - steering) * STEERING_ACCEL) * STEERING_FRICTION
  }

  /** The new steering, pulled back towards straight when the wheel is released near centre. */
  function NextSteering(steering: real, newSteeringSpeed: real, wheelAngle: real, wheelActive: bool): (s: real)
    ensures wheelActive || Abs(wheelAngle) >= 1.0 ==> s == steering + newSteeringSpeed
    ensures !wheelActive && Abs(wheelAngle) < 1.0 ==>
              Abs(s) <= Abs(steering + newSteeringSpeed)
              && (s > 0.0 <==> steering + newSteeringSpeed > 0.0) && (s < 0.0 <==> steering + newSteeringSpeed < 0.0)
  {
    var s := steering + newSteeringSpeed;
    if !wheelActive && Abs(wheelAngle) < 1.0 then s * (1.0 - STEERING_RETURN) else s
  }

  /** The sideways move of one frame: speed times steering. */
  function Sideways(speed: real, steering: real): (dx: real)
    ensures 0.0 <= speed ==> (dx > 0.0 <==> speed > 0.0 && steering > 0.0) && (dx < 0.0 <==> speed > 0.0 && steering < 0.0)
    ensures 0.0 <= speed <= MAX_SPEED ==> Abs(dx) <= MAX_SPEED * Abs(steering)
  {
    speed * steering
  }

  /**
   * The clamp that ends `update` uses CAR_WIDTH while the wall test uses the
   * sprite's width: a sprite no wider than CAR_WIDTH is clear of the walls
   * once clamped, and a wider one clamped to an edge still touches the wall.
   */
  lemma ClampAgainstWall(x: real, size: Size, roadLeft: real, roadWidth: real)
    requires CAR_WIDTH <= roadWidth
    ensures size.width <= CAR_WIDTH ==>
              !HitsWall(Clamp(roadLeft + CAR_WIDTH / 2.0, roadLeft + roadWidth - CAR_WIDTH / 2.0, x), Some(size), roadLeft, roadWidth)
    ensures size.width > CAR_WIDTH && x <= roadLeft + CAR_WIDTH / 2.0 ==>
              HitsWall(Clamp(roadLeft + CAR_WIDTH / 2.0, roadLeft + roadWidth - CAR_WIDTH / 2.0, x), Some(size), roadLeft, roadWidth)
  {
  }

  /** A car going straight with the wheel released at centre keeps going straight. */
  lemma SteeringStaysStraight(wheelActive: bool)
    ensures NextSteeringSpeed(0.0, 0.0, 0.0) == 0.0
    ensures NextSteering(0.0, 0.0, 0.0, wheelActive) == 0.0
  {
  }

  class PlayerCar {
    /** `ROAD_LEFT`, where `reset` puts the car relative to. */
    const roadLeft: real

    var x: real
    var y: real
    var speed: real
    var steering: real
    var steeringSpeed: real
    var gas: bool
    var brake: bool
    var velocityX: real
    var velocityY: real
    var angularVelocity: real
    var rotation: real
    var isColliding: bool
    /** The sprite's display size, unknown until its image has loaded. */
    var size: Option<Size>

    ghost predicate Valid()
      reads this
    {
      0.0 <= speed <= MAX_SPEED
    }

    function Velocity(): (m: Motion)
      reads this
      ensures m.vx == velocityX && m.vy == velocityY && m.spin == angularVelocity
    {
      Motion(velocityX, velocityY, angularVelocity)
    }

    /** The hitbox around the car's centre, unknown before the sprite has loaded. */
    function Box(): (b: Option<Collision.Box>)
      reads this`x, this`y, this`size
      ensures b.Some? <==> size.Some?
      ensures b.Some? ==> b.value == CenteredBox(x, y, size.value)
    {
      Hitbox(x, y, size)
    }

    /** The state `reset` leaves, whatever came before; the sprite size is kept. */
    ghost predicate AtStart()
      reads this
    {
      && x == roadLeft + ROAD_WIDTH / 2.0 && y == 0.0 && speed == 0.0
      && steering == 0.0 && steeringSpeed == 0.0 && !gas && !brake
      && Velocity() == AT_REST && rotation == 0.0 && !isColliding
    }

    constructor (roadLeft: real)
      ensures this.roadLeft == roadLeft
      ensures AtStart() && size == None && Valid()
    {
      this.roadLeft := roadLeft;
      x, y, speed := roadLeft + ROAD_WIDTH / 2.0, 0.0, 0.0;
      steering, steeringSpeed := 0.0, 0.0;
      gas, brake := false, false;
      velocityX, velocityY, angularVelocity, rotation := 0.0, 0.0, 0.0, 0.0;
      isColliding := false;
      size := None;
    }

    method Reset()
      modifies this
      ensures AtStart() && size == old(size) && Valid()
    {
      x, y, speed := roadLeft + ROAD_WIDTH / 2.0, 0.0, 0.0;
      steering, steeringSpeed := 0.0, 0.0;
      gas, brake := false, false;
      velocityX, velocityY, angularVelocity, rotation := 0.0, 0.0, 0.0, 0.0;
      isColliding := false;
    }

    /** The sprite has loaded: it is drawn 1.5 car heights tall with the image's aspect ratio. */
    method SpriteLoaded(aspectRatio: real)
      modifies this`size
      ensures size == Some(Size(CAR_HEIGHT * 1.5 * aspectRatio, CAR_HEIGHT * 1.5))
    {
      size := Some(Size(CAR_HEIGHT * 1.5 * aspectRatio, CAR_HEIGHT * 1.5));
    }

    /** Press or release one pedal; the other one is left as it was. */
    method SetPedal(pedal: Pedal, pressed: bool)
      modifies this`gas, this`brake
      ensures pedal == Gas ==> gas == pressed && brake == old(brake)
      ensures pedal == Brake ==> brake == pressed && gas == old(gas)
    {
      if pedal == Gas {
        gas := pressed;
      } else {
        brake := pressed;
      }
    }

    /**
     * An impact: velocity and spin get the impulse of `impact * force` with
     * the random spin `spinDraw`, and the car is colliding from now on.
     */
    method ApplyCollision(impactX: real, impactY: real, force: real, spinDraw: real)
      modifies this`velocityX, this`velocityY, this`angularVelocity, this`isColliding
      ensures Velocity() == old(Velocity()).Impulse(impactX, impactY, force, spinDraw)
      ensures isColliding
    {
      velocityX := velocityX + impactX * force;
      velocityY := velocityY + impactY * force;
      angularVelocity := angularVelocity + (spinDraw - 0.5) * force * 0.1;
      isColliding := true;
    }

    /** The colliding half of a frame: move with the velocity, then apply friction. */
    method Drift()
      modifies this`x, this`y, this`rotation, this`velocityX, this`velocityY, this`angularVelocity
      ensures x == old(x) + old(velocityX) && y == old(y) + old(velocityY)
      ensures rotation == old(rotation) + old(angularVelocity)
      ensures Velocity() == Settle(old(Velocity()))
    {
      x := x + velocityX;
      y := y + velocityY;
      rotation := rotation + angularVelocity;
      velocityX := velocityX * VELOCITY_FRICTION;
      velocityY := velocityY * VELOCITY_FRICTION;
      angularVelocity := angularVelocity * SPIN_FRICTION;
      if Abs(velocityX) < 0.1 && Abs(velocityY) < 0.1 && Abs(angularVelocity) < 0.01 {
        velocityX, velocityY, angularVelocity := 0.0, 0.0, 0.0;
      }
    }

    /** The driving half of a frame: steer, apply the pedal rule, move. */
    method Drive(wheelAngle: real, wheelActive: bool)
      requires Valid()
      modifies this`steeringSpeed, this`steering, this`speed, this`x, this`y
      ensures Valid()
      ensures steeringSpeed == NextSteeringSpeed(old(steering), old(steeringSpeed), wheelAngle)
      ensures steering == NextSteering(old(steering), steeringSpeed, wheelAngle, wheelActive)
      ensures speed == NextSpeed(old(speed), gas, brake)
      ensures x == old(x) + Sideways(speed, steering) && y == old(y) - speed
    {
      var target := SteeringTarget(wheelAngle);
      steeringSpeed := steeringSpeed + (target - steering) * STEERING_ACCEL;
      steeringSpeed := steeringSpeed * STEERING_FRICTION;
      steering := steering + steeringSpeed;
      if !wheelActive && Abs(wheelAngle) < 1.0 {
        steering := steering * (1.0 - STEERING_RETURN);
      }
      if brake {
        speed := Max(speed - BRAKE, 0.0);
      } else if gas {
        speed := Min(speed + ACCEL, MAX_SPEED);
      } else {
        speed := Max(speed - FRICTION, MAX_SPEED * 0.5);
      }
      x := x + Sideways(speed, steering);
      y := y - speed;
    }

    /**
     * One frame. A colliding car drifts with its velocity under friction; any
     * other car steers and follows the pedal rule, moving up by its new speed.
     * Then a hitbox past either road edge gets a wall impulse towards the
     * centre, and x is clamped to the road. Only the wall impulse draws a
     * random number (its spin), read at `cursor`; `next` is the cursor after it.
     */
    method Update(roadLeft: real, roadWidth: real, wheelAngle: real, wheelActive: bool,
                  rand: nat -> real, cursor: nat) returns (next: nat)
      requires Valid()
      modifies this
      ensures Valid()
      ensures gas == old(gas) && brake == old(brake) && size == old(size)
      ensures !old(isColliding) ==>
        && steeringSpeed == NextSteeringSpeed(old(steering), old(steeringSpeed), wheelAngle)
        && steering == NextSteering(old(steering), steeringSpeed, wheelAngle, wheelActive)
        && speed == NextSpeed(old(speed), gas, brake)
        && y == old(y) - speed
        && rotation == old(rotation)
      ensures old(isColliding) ==>
        && steeringSpeed == old(steeringSpeed) && steering == old(steering) && speed == old(speed)
        && y == old(y) + old(velocityY)
        && rotation == old(rotation) + old(angularVelocity)
      ensures var moved := if old(isColliding) then old(x) + old(velocityX) else old(x) + Sideways(speed, steering);
              var drift := if old(isColliding) then Settle(old(Velocity())) else old(Velocity());
              && x == Clamp(roadLeft + CAR_WIDTH / 2.0, roadLeft + roadWidth - CAR_WIDTH / 2.0, moved)
              && if HitsWall(moved, size, roadLeft, roadWidth) then
                   Velocity() == drift.Impulse(WallImpactX(moved, roadLeft, roadWidth), 0.0, WALL_FORCE, rand(cursor))
                   && isColliding && next == cursor + 1
                 else
                   Velocity() == drift && isColliding == old(isColliding) && next == cursor
      ensures roadWidth >= CAR_WIDTH ==> roadLeft + CAR_WIDTH / 2.0 <= x <= roadLeft + roadWidth - CAR_WIDTH / 2.0
      ensures old(isColliding) ==> isColliding
    {
      if isColliding {
        Drift();
      } else {
        Drive(wheelAngle, wheelActive);
      }
      next := cursor;
      if HitsWall(x, size, roadLeft, roadWidth) {
        ApplyCollision(WallImpactX(x, roadLeft, roadWidth), 0.0, WALL_FORCE, rand(cursor));
        next := cursor + 1;
      }
      x := Clamp(roadLeft + CAR_WIDTH / 2.0, roadLeft + roadWidth - CAR_WIDTH / 2.0, x);
    }
  }
}

=== FILE: prototype_config.dfy ===
/**
 * The constants and small rules that the two three-lane prototypes,
 * swapline.js (free steering) and dist/swapline.js (lane snapping), share
 * word for word: the road geometry, the car and obstacle sizes, the pedal
 * rates, the lane an obstacle spawns in and the score a frame earns.
 */
module PrototypeConfig {
  import opened Collision

  const ROAD_WIDTH: real := 240.0
  const LANE_COUNT: int := 3
  /** `ROAD_WIDTH / LANE_COUNT`. */
  const LANE_WIDTH: real := 80.0
  const CAR_WIDTH: real := 36.0
  const CAR_HEIGHT: real := 60.0
  const OBSTACLE_WIDTH: real := 36.0
  const OBSTACLE_HEIGHT: real := 60.0
  const MAX_SPEED: real := 8.0
  const ACCEL: real := 0.2
  const BRAKE: real := 0.3
  const FRICTION: real := 0.05

  /** `(canvas.width - ROAD_WIDTH) / 2`: the road is centred on the canvas. */
  function RoadLeft(canvasWidth: real): (left: real)
    ensures left + ROAD_WIDTH / 2.0 == canvasWidth / 2.0
  {
    (canvasWidth - ROAD_WIDTH) / 2.0
  }

  /** `Math.floor(Math.random() * LANE_COUNT)`: the lane of a new obstacle. */
  function SpawnLane(draw: real): (lane: int)
    requires 0.0 <= draw < 1.0
    ensures 0 <= lane < LANE_COUNT
    ensures lane as real <= draw * 3.0 < (lane + 1) as real
  {
    (draw * 3.0).Floor
  }

  /**
   * `ROAD_LEFT + lane * LANE_WIDTH + (LANE_WIDTH - width) / 2`: the left edge
   * of something `width` wide centred in a lane. Anything no wider than a
   * lane then lies entirely inside it, with equal margins on both sides.
   */
  function SlotX(roadLeft: real, lane: int, width: real): (x: real)
    ensures x - (roadLeft + lane as real * LANE_WIDTH) == roadLeft + (lane + 1) as real * LANE_WIDTH - (x + width)
    ensures 0.0 <= width <= LANE_WIDTH ==>
              roadLeft + lane as real * LANE_WIDTH <= x && x + width <= roadLeft + (lane + 1) as real * LANE_WIDTH
    ensures 0 <= lane < LANE_COUNT && 0.0 <= width <= LANE_WIDTH ==>
              roadLeft <= x && x + width <= roadLeft + ROAD_WIDTH
  {
    roadLeft + lane as real * LANE_WIDTH + (LANE_WIDTH - width) / 2.0
  }

  /**
   * The pedal rule of both prototypes, with the speed floor as a parameter
   * (1.5 in swapline.js, 0 in dist/swapline.js): gas wins over brake, gas
   * accelerates up to MAX_SPEED, brake and friction slow down to the floor.
   */
  function SpeedStep(speed: real, gas: bool, brake: bool, floor: real): (s: real)
    ensures floor <= speed <= MAX_SPEED ==> floor <= s <= MAX_SPEED
    ensures gas && speed <= MAX_SPEED ==> speed <= s && s <= speed + ACCEL
    ensures gas && speed + ACCEL <= MAX_SPEED ==> s == speed + ACCEL
    ensures !gas && speed >= floor ==> speed - BRAKE <= s <= speed
    ensures !gas && brake && speed - BRAKE >= floor ==> s == speed - BRAKE
    ensures !gas && !brake && speed - FRICTION >= floor ==> s == speed - FRICTION
  {
    if gas then Min(speed + ACCEL, MAX_SPEED)
    else if brake then Max(speed - BRAKE, floor)
    else Max(speed - FRICTION, floor)
  }

  /** Holding gas makes the brake irrelevant. */
  lemma GasOverridesBrake(speed: real, floor: real)
    ensures SpeedStep(speed, true, true, floor) == SpeedStep(speed, true, false, floor)
  {
  }

  /** The speed after a run of frames with the given (gas, brake) pedal states and speed floor. */
  function Drive(speed: real, pedals: seq<(bool, bool)>, floor: real): real
    decreases |pedals|
  {
    if pedals == [] then speed
    else Drive(SpeedStep(speed, pedals[0].0, pedals[0].1, floor), pedals[1..], floor)
  }

  /** Driving one more frame is one more speed step. */
  lemma {:induction false} DriveAppend(speed: real, pedals: seq<(bool, bool)>, last: (bool, bool), floor: real)
    ensures Drive(speed, pedals + [last], floor) == SpeedStep(Drive(speed, pedals, floor), last.0, last.1, floor)
    decreases |pedals|
  {
    if pedals == [] {
      assert pedals + [last] == [last];
    } else {
      assert (pedals + [last])[1..] == pedals[1..] + [last];
      DriveAppend(SpeedStep(speed, pedals[0].0, pedals[0].1, floor), pedals[1..], last, floor);
    }
  }

  /** `Math.floor(car.speed)`: what one frame adds to the score. */
  function ScoreGain(speed: real): (gain: int)
    ensures gain as real <= speed < (gain + 1) as real
    ensures speed >= 0.0 ==> gain >= 0
    ensures speed >= 1.0 ==> gain >= 1
  {
    speed.Floor
  }
}

=== FILE: react_road.dfy ===
/**
 * The seven-lane React game (src/components/Road.tsx): the player's car
 * jumps between lanes, traffic scrolls down the lanes as immutable records
 * (the `EnemyCar` shape of src/types.ts), and the run ends when a car
 * reaches the player in the player's lane.
 *
 * The component's state is one `RoadState` record; each handler and each
 * tick of the 16 ms game loop is a function from the state to the next one,
 * as the functional `setState` updaters compute it. A tick is one run of the
 * interval callback followed by a render, so `checkCollisions` sees the cars
 * and lane of that render. `Math.random()` is a stream with a cursor,
 * `Date.now()` the parameter `now`, `window.innerWidth`/`innerHeight`
 * parameters, and the uuid of a new car a number the caller supplies.
 */
module ReactRoad {
  import opened Wrappers
  import opened Sequences
  import opened Collision
  import SwapLane

  const LANE_COUNT: int := 7
  const LANE_WIDTH: real := 100.0
  /** The chance per frame that a drunk car swerves into a neighbouring lane. */
  const DRUNK_SWITCH_CHANCE: real := 0.02
  /** The chance per frame that a sober car starts signalling a lane change. */
  const SWITCH_CHANCE: real := 0.005
  /** Frames a sober car signals before it is in its new lane. */
  const SWITCH_FRAMES: int := 90
  const DRUNK_CHANCE: real := 0.2
  const BUS_CHANCE: real := 0.3
  const SPAWN_TOP: real := -100.0
  const PLAYER_CAR_HEIGHT: real := 60.0
  const COLLISION_HEIGHT: real := 40.0
  const COLLISION_WIDTH: real := 30.0
  /** A swipe must move the finger further than this to change lanes. */
  const SWIPE_THRESHOLD: real := 50.0
  const START_LANE: int := 3

  /** An `EnemyCar` record; `switchingTo` is the lane a sober car is signalling towards. */
  datatype Car = Car(
    id: nat,
    lane: int,
    top: real,
    switchingTo: Option<int>,
    switchTimer: int,
    isCrashed: bool,
    isDrunk: bool,
    isBus: bool)

  /** The component's state: the player's lane, the swipe in progress, the traffic, and the game state. */
  datatype RoadState = RoadState(
    currentLane: int,
    touchStart: Option<real>,
    enemyCars: seq<Car>,
    isGameOver: bool,
    /** Miles driven, in tenths of a mile. */
    miles: nat,
    lastMileUpdate: int)

  datatype Stepped = Stepped(car: Car, next: nat)
  datatype Fleet = Fleet(cars: seq<Car>, next: nat)

  predicate InRange(lane: int) {
    0 <= lane < LANE_COUNT
  }

  /** Every car of the model keeps these: a lane on the road, and a signalled switch only to a neighbouring lane, by a sober car, with 1 to 90 frames left. */
  predicate WellFormed(car: Car) {
    && InRange(car.lane)
    && (car.switchingTo.None? ==> car.switchTimer == 0)
    && (car.switchingTo.Some? ==>
          && InRange(car.switchingTo.value)
          && (car.switchingTo.value == car.lane - 1 || car.switchingTo.value == car.lane + 1)
          && 1 <= car.switchTimer <= SWITCH_FRAMES
          && !car.isDrunk)
  }

  /** `[car.lane - 1, car.lane + 1].filter(lane => lane >= 0 && lane < 7)`. */
  function Neighbours(lane: int): (n: seq<int>)
    ensures forall l :: l in n <==> InRange(l) && (l == lane - 1 || l == lane + 1)
    ensures InRange(lane) ==> |n| > 0
    ensures |n| <= 2
  {
    var n := Filter([lane - 1, lane + 1], (l: int) => InRange(l));
    assert InRange(lane) ==> (lane - 1 in n || lane + 1 in n);
    n
  }

  /** `possibleLanes[Math.floor(Math.random() * possibleLanes.length)]`. */
  function Pick(lanes: seq<int>, draw: real): (l: int)
    requires |lanes| > 0 && 0.0 <= draw < 1.0
    ensures l in lanes
  {
    var k := (draw * |lanes| as real).Floor;
    assert 0 <= k < |lanes| by {
      assert 0.0 <= draw * |lanes| as real < |lanes| as real;
    }
    lanes[k]
  }

  /**
   * What one frame may do to a car, whatever the random draws: it moves down
   * 2 (4 once crashed); a drunk car may jump to a neighbouring lane at once;
   * a signalling sober car counts down and takes its new lane when the count
   * runs out; any other sober car that is not crashed may start signalling
   * towards a neighbouring lane for 90 frames. Nothing else changes.
   */
  predicate Moves(before: Car, after: Car) {
    && after.id == before.id && after.isCrashed == before.isCrashed
    && after.isDrunk == before.isDrunk && after.isBus == before.isBus
    && after.top == before.top + (if before.isCrashed then 4.0 else 2.0)
    && if before.isDrunk then
         && after.switchingTo == before.switchingTo && after.switchTimer == before.switchTimer
         && (|| after.lane == before.lane
             || (&& before.switchingTo.None? && !before.isCrashed && InRange(after.lane)
                 && (after.lane == before.lane - 1 || after.lane == before.lane + 1)))
       else if before.switchingTo.Some? then
         if before.switchTimer - 1 <= 0 then
           after.lane == before.switchingTo.value && after.switchingTo.None? && after.switchTimer == 0
         else
           after.lane == before.lane && after.switchingTo == before.switchingTo && after.switchTimer == before.switchTimer - 1
       else
         && after.lane == before.lane
         && (|| (after.switchingTo.None? && after.switchTimer == before.switchTimer)
             || (&& !before.isCrashed && after.switchingTo.Some? && InRange(after.switchingTo.value)
                 && (after.switchingTo.value == before.lane - 1 || after.switchingTo.value == before.lane + 1)
                 && after.switchTimer == SWITCH_FRAMES))
  }

  /** Every frame keeps a car well formed. */
  lemma MovesKeepsWellFormed(before: Car, after: Car)
    requires WellFormed(before) && Moves(before, after)
    ensures WellFormed(after)
  {
  }

  /**
   * The `map` step of `updateEnemyCars` for one car, reading its random draws
   * at `cursor`: the chance is drawn only for a car that is not switching and
   * not crashed, and the neighbour only when the chance came up.
   */
  function StepCar(car: Car, rand: nat -> real, cursor: nat): (r: Stepped)
    requires RandomStream(rand)
    ensures Moves(car, r.car)
    ensures cursor <= r.next <= cursor + 2
    ensures r.next == cursor <==> car.switchingTo.Some? || car.isCrashed
  {
    var newTop := car.top + (if car.isCrashed then 4.0 else 2.0);
    if car.isDrunk then
      if car.switchingTo.None? && !car.isCrashed then
        if rand(cursor) < DRUNK_SWITCH_CHANCE then
          var lanes := Neighbours(car.lane);
          if |lanes| > 0 then Stepped(car.(top := newTop, lane := Pick(lanes, rand(cursor + 1))), cursor + 2)
          else Stepped(car.(top := newTop), cursor + 1)
        else Stepped(car.(top := newTop), cursor + 1)
      else Stepped(car.(top := newTop), cursor)
    else if car.switchingTo.Some? then
      var newTimer := car.switchTimer - 1;
      if newTimer <= 0 then
        Stepped(car.(top := newTop, lane := car.switchingTo.value, switchingTo := None, switchTimer := 0), cursor)
      else
        Stepped(car.(top := newTop, switchTimer := newTimer), cursor)
    else if !car.isCrashed then
      if rand(cursor) < SWITCH_CHANCE then
        var lanes := Neighbours(car.lane);
        if |lanes| > 0 then
          Stepped(car.(top := newTop, switchingTo := Some(Pick(lanes, rand(cursor + 1))), switchTimer := SWITCH_FRAMES), cursor + 2)
        else Stepped(car.(top := newTop), cursor + 1)
      else Stepped(car.(top := newTop), cursor + 1)
    else Stepped(car.(top := newTop), cursor)
  }

  /** The whole `map`: each car in list order, each reading the draws after those of the cars before it. */
  function StepAll(cars: seq<Car>, rand: nat -> real, cursor: nat): (r: Fleet)
    requires RandomStream(rand)
    ensures |r.cars| == |cars| && r.next >= cursor
    decreases |cars|
  {
    if cars == [] then Fleet([], cursor)
    else
      var first := StepCar(cars[0], rand, cursor);
      var rest := StepAll(cars[1..], rand, first.next);
      Fleet([first.car] + rest.cars, rest.next)
  }

  /** Each car of the stepped list is one step of the car at the same place in the old list. */
  lemma {:induction false} StepAllMoves(cars: seq<Car>, rand: nat -> real, cursor: nat)
    requires RandomStream(rand)
    ensures var r := StepAll(cars, rand, cursor);
            forall i :: 0 <= i < |cars| ==> Moves(cars[i], r.cars[i])
    decreases |cars|
  {
    if cars != [] {
      var first := StepCar(cars[0], rand, cursor);
      var rest := StepAll(cars[1..], rand, first.next);
      StepAllMoves(cars[1..], rand, first.next);
      var r := StepAll(cars, rand, cursor);
      assert r.cars == [first.car] + rest.cars;
      forall i | 1 <= i < |cars|
        ensures Moves(cars[i], r.cars[i])
      {
        assert cars[i] == cars[1..][i - 1] && r.cars[i] == rest.cars[i - 1];
      }
    }
  }

  /** The `filter` step: a car stays while its top is above 100 below the window's bottom edge. */
  function OnScreen(innerHeight: real): Car -> bool {
    (c: Car) => c.top < innerHeight + 100.0
  }

  /**
   * `updateEnemyCars`: every car takes one step, then exactly the cars still
   * on screen remain, in their order. Each remaining car is one step of some
   * car of the old list.
   */
  function UpdateEnemyCars(cars: seq<Car>, rand: nat -> real, cursor: nat, innerHeight: real): (r: Fleet)
    requires RandomStream(rand)
    ensures r.next >= cursor && |r.cars| <= |cars|
    ensures forall c :: c in r.cars ==> c.top < innerHeight + 100.0 && exists i :: 0 <= i < |cars| && Moves(cars[i], c)
    ensures forall c :: c in StepAll(cars, rand, cursor).cars ==> (c in r.cars <==> c.top < innerHeight + 100.0)
  {
    var stepped := StepAll(cars, rand, cursor);
    StepAllMoves(cars, rand, cursor);
    var kept := Filter(stepped.cars, OnScreen(innerHeight));
    assert forall c :: c in kept ==> exists i :: 0 <= i < |cars| && c == stepped.cars[i];
    Fleet(kept, stepped.next)
  }

  /** Stepping a list split in two steps the front first, and the back with the draws the front left over. */
  lemma {:induction false} StepAllAppend(front: seq<Car>, back: seq<Car>, rand: nat -> real, cursor: nat)
    requires RandomStream(rand)
    ensures var f := StepAll(front, rand, cursor);
            var b := StepAll(back, rand, f.next);
            StepAll(front + back, rand, cursor) == Fleet(f.cars + b.cars, b.next)
    decreases |front|
  {
    if front == [] {
      assert front + back == back;
    } else {
      var whole := front + back;
      assert whole[0] == front[0] && whole[1..] == front[1..] + back;
      var first := StepCar(front[0], rand, cursor);
      var rest := StepAll(front[1..], rand, first.next);
      var b := StepAll(back, rand, rest.next);
      StepAllAppend(front[1..], back, rand, first.next);
      calc {
        StepAll(whole, rand, cursor);
        Fleet([first.car] + StepAll(front[1..] + back, rand, first.next).cars, b.next);
        Fleet([first.car] + (rest.cars + b.cars), b.next);
        { assert [first.car] + (rest.cars + b.cars) == ([first.car] + rest.cars) + b.cars; }
        Fleet(StepAll(front, rand, cursor).cars + b.cars, b.next);
      }
    }
  }

  /**
   * `updateEnemyCars` keeps the list order: on a list split in two, the
   * surviving cars of the front come first, then those of the back.
   */
  lemma UpdateKeepsOrder(front: seq<Car>, back: seq<Car>, rand: nat -> real, cursor: nat, innerHeight: real)
    requires RandomStream(rand)
    ensures var f := UpdateEnemyCars(front, rand, cursor, innerHeight);
            UpdateEnemyCars(front + back, rand, cursor, innerHeight).cars
              == f.cars + UpdateEnemyCars(back, rand, f.next, innerHeight).cars
  {
    var f := StepAll(front, rand, cursor);
    var b := StepAll(back, rand, f.next);
    StepAllAppend(front, back, rand, cursor);
    FilterAppend(f.cars, b.cars, OnScreen(innerHeight));
  }

  /** A list of well-formed cars stays well formed through `updateEnemyCars`. */
  lemma UpdateKeepsWellFormed(cars: seq<Car>, rand: nat -> real, cursor: nat, innerHeight: real)
    requires RandomStream(rand)
    requires forall c :: c in cars ==> WellFormed(c)
    ensures forall c :: c in UpdateEnemyCars(cars, rand, cursor, innerHeight).cars ==> WellFormed(c)
  {
    var r := UpdateEnemyCars(cars, rand, cursor, innerHeight);
    forall c | c in r.cars
      ensures WellFormed(c)
    {
      var i :| 0 <= i < |cars| && Moves(cars[i], c);
      MovesKeepsWellFormed(cars[i], c);
    }
  }

  /** A signalling sober car reaches its new lane after exactly as many frames as its timer shows. */
  lemma {:induction false} SwitchCompletes(car: Car, rand: nat -> real, cursor: nat, frames: nat)
    requires RandomStream(rand) && WellFormed(car) && car.switchingTo.Some?
    requires frames == car.switchTimer as nat
    ensures Run(car, rand, cursor, frames).lane == car.switchingTo.value
    ensures Run(car, rand, cursor, frames).switchingTo.None?
    ensures frames > 1 ==> Run(car, rand, cursor, frames - 1).lane == car.lane
    decreases frames
  {
    var next := StepCar(car, rand, cursor);
    if frames > 1 {
      assert WellFormed(next.car) && next.car.switchTimer == frames - 1;
      SwitchCompletes(next.car, rand, next.next, frames - 1);
    }
  }

  /** A car left to itself for `frames` frames, reading its draws from `cursor` on. */
  function Run(car: Car, rand: nat -> real, cursor: nat, frames: nat): Car
    requires RandomStream(rand)
    decreases frames
  {
    if frames == 0 then car
    else
      var s := StepCar(car, rand, cursor);
      Run(s.car, rand, s.next, frames - 1)
  }

  /** The player's top edge as `checkCollisions` places it: 150 above the bottom plus half a car. */
  function PlayerTop(innerHeight: real): real {
    innerHeight - 150.0 - PLAYER_CAR_HEIGHT / 2.0
  }

  /** `(window.innerWidth - laneWidth * laneCount) / 2`. */
  function RoadStartX(innerWidth: real): real {
    (innerWidth - LANE_WIDTH * LANE_COUNT as real) / 2.0
  }

  /** The test of `checkCollisions` for one car, as written: same lane, close in height, and overlapping collision strips. */
  predicate HitsAsWritten(car: Car, lane: int, innerWidth: real, innerHeight: real) {
    var roadStartX := RoadStartX(innerWidth);
    var playerLeft := roadStartX + lane as real * LANE_WIDTH + (LANE_WIDTH - COLLISION_WIDTH) / 2.0;
    var playerRight := roadStartX + lane as real * LANE_WIDTH + (LANE_WIDTH + COLLISION_WIDTH) / 2.0;
    var enemyLeft := roadStartX + car.lane as real * LANE_WIDTH + (LANE_WIDTH - COLLISION_WIDTH) / 2.0;
    var enemyRight := roadStartX + car.lane as real * LANE_WIDTH + (LANE_WIDTH + COLLISION_WIDTH) / 2.0;
    && car.lane == lane
    && Abs(car.top - PlayerTop(innerHeight)) < COLLISION_HEIGHT
    && playerRight > enemyLeft
    && playerLeft < enemyRight
  }

  /** The same test reduced: same lane and less than 40 apart vertically; the window width does not matter. */
  predicate Hits(car: Car, lane: int, innerHeight: real) {
    car.lane == lane && Abs(car.top - PlayerTop(innerHeight)) < COLLISION_HEIGHT
  }

  /** Cars in the same lane always overlap horizontally, so the strip comparisons add nothing. */
  lemma HitsReduces(car: Car, lane: int, innerWidth: real, innerHeight: real)
    ensures HitsAsWritten(car, lane, innerWidth, innerHeight) <==> Hits(car, lane, innerHeight)
  {
  }

  /** `enemyCars.some(...)` with the test as written. */
  function AnyHit(cars: seq<Car>, lane: int, innerWidth: real, innerHeight: real): (b: bool)
    ensures b <==> exists i :: 0 <= i < |cars| && Hits(cars[i], lane, innerHeight)
    decreases |cars|
  {
    if cars == [] then false
    else if HitsAsWritten(cars[0], lane, innerWidth, innerHeight) then
      HitsReduces(cars[0], lane, innerWidth, innerHeight);
      true
    else
      HitsReduces(cars[0], lane, innerWidth, innerHeight);
      var rest := AnyHit(cars[1..], lane, innerWidth, innerHeight);
      assert rest <==> exists i :: 1 <= i < |cars| && Hits(cars[i], lane, innerHeight) by {
        forall i | 1 <= i < |cars|
          ensures cars[i] == cars[1..][i - 1]
        {
        }
      }
      rest
  }

  /**
   * `checkCollisions`: once the game is over nothing changes; otherwise the
   * game is over exactly when some car hits the player, and only that flag
   * can change.
   */
  function CheckCollisions(s: RoadState, innerWidth: real, innerHeight: real): (t: RoadState)
    ensures s.isGameOver ==> t == s
    ensures t.isGameOver <==> s.isGameOver || exists i :: 0 <= i < |s.enemyCars| && Hits(s.enemyCars[i], s.currentLane, innerHeight)
    ensures t.(isGameOver := s.isGameOver) == s
  {
    if s.isGameOver then s
    else if AnyHit(s.enemyCars, s.currentLane, innerWidth, innerHeight) then s.(isGameOver := true)
    else s
  }

  /**
   * `handleKeyDown`: ArrowLeft moves one lane left unless in lane 0,
   * ArrowRight one lane right unless in the last lane; nothing happens once
   * the game is over. Only the lane can change.
   */
  function HandleKeyDown(s: RoadState, key: SwapLane.Key): (t: RoadState)
    ensures t.(currentLane := s.currentLane) == s
    ensures InRange(s.currentLane) ==> InRange(t.currentLane)
    ensures s.isGameOver ==> t == s
    ensures !s.isGameOver && key == SwapLane.ArrowLeft && s.currentLane > 0 ==> t.currentLane == s.currentLane - 1
    ensures !s.isGameOver && key == SwapLane.ArrowRight && s.currentLane < LANE_COUNT - 1 ==> t.currentLane == s.currentLane + 1
    ensures key != SwapLane.ArrowLeft && key != SwapLane.ArrowRight ==> t == s
  {
    if s.isGameOver then s
    else if key == SwapLane.ArrowLeft && s.currentLane > 0 then s.(currentLane := s.currentLane - 1)
    else if key == SwapLane.ArrowRight && s.currentLane < LANE_COUNT - 1 then s.(currentLane := s.currentLane + 1)
    else s
  }

  /** `handleTouchStart`: remember where the finger went down, unless the game is over. */
  function HandleTouchStart(s: RoadState, clientX: real): (t: RoadState)
    ensures s.isGameOver ==> t == s
    ensures !s.isGameOver ==> t == s.(touchStart := Some(clientX))
  {
    if s.isGameOver then s else s.(touchStart := Some(clientX))
  }

  /**
   * `handleTouchMove`: a finger that has moved more than 50 from where it
   * went down changes lane once, against the direction of the movement
   * (moving left, a positive difference, moves the car right), and the
   * swipe ends. The guard `!touchStart` also treats a swipe that began at
   * x = 0 as no swipe at all.
   */
  function HandleTouchMove(s: RoadState, clientX: real): (t: RoadState)
    ensures t.(currentLane := s.currentLane, touchStart := s.touchStart) == s
    ensures InRange(s.currentLane) ==> InRange(t.currentLane)
    ensures s.isGameOver || s.touchStart.None? ==> t == s
    ensures t.currentLane != s.currentLane ==> s.touchStart.Some? && Abs(s.touchStart.value - clientX) > SWIPE_THRESHOLD
    ensures t.touchStart != s.touchStart ==> t.touchStart.None?
  {
    if s.touchStart.None? || s.touchStart.value == 0.0 || s.isGameOver then s
    else
      var diff := s.touchStart.value - clientX;
      if Abs(diff) > SWIPE_THRESHOLD then
        var lane :=
          if diff > 0.0 && s.currentLane < LANE_COUNT - 1 then s.currentLane + 1
          else if diff < 0.0 && s.currentLane > 0 then s.currentLane - 1
          else s.currentLane;
        s.(currentLane := lane, touchStart := None)
      else s
  }

  /** A long enough swipe to the left moves the car one lane right, and one to the right one lane left. */
  lemma SwipeDirection(s: RoadState, clientX: real)
    requires !s.isGameOver && s.touchStart.Some? && s.touchStart.value != 0.0
    ensures var t := HandleTouchMove(s, clientX);
            && (s.touchStart.value - clientX > SWIPE_THRESHOLD && s.currentLane < LANE_COUNT - 1 ==> t.currentLane == s.currentLane + 1)
            && (clientX - s.touchStart.value > SWIPE_THRESHOLD && s.currentLane > 0 ==> t.currentLane == s.currentLane - 1)
            && (Abs(s.touchStart.value - clientX) > SWIPE_THRESHOLD ==> t.touchStart.None?)
  {
  }

  /** A swipe that began at the window's left edge never changes lane. */
  lemma SwipeFromLeftEdgeIgnored(s: RoadState, clientX: real)
    requires s.touchStart == Some(0.0)
    ensures HandleTouchMove(s, clientX) == s
  {
  }

  /** `resetGame`: no traffic, the game on, no miles, the middle lane, and the mile clock restarted. */
  function ResetGame(s: RoadState, now: int): (t: RoadState)
    ensures t.enemyCars == [] && !t.isGameOver && t.miles == 0 && t.currentLane == START_LANE && t.lastMileUpdate == now
    ensures t.touchStart == s.touchStart
  {
    s.(enemyCars := [], isGameOver := false, miles := 0, currentLane := START_LANE, lastMileUpdate := now)
  }

  /** The car record `spawnEnemyCar` builds from its three draws. */
  function NewCar(id: nat, laneDraw: real, drunkDraw: real, busDraw: real): (car: Car)
    requires 0.0 <= laneDraw < 1.0
    ensures WellFormed(car)
    ensures car.top == SPAWN_TOP && car.switchingTo.None? && !car.isCrashed
    ensures car.isDrunk <==> drunkDraw < DRUNK_CHANCE
    ensures car.isBus <==> busDraw < BUS_CHANCE
  {
    Car(id, (laneDraw * 7.0).Floor, SPAWN_TOP, None, 0, false, drunkDraw < DRUNK_CHANCE, busDraw < BUS_CHANCE)
  }

  /** `spawnEnemyCar`, every two seconds, game over or not: one new car at the end of the list. */
  function SpawnEnemyCar(s: RoadState, id: nat, laneDraw: real, drunkDraw: real, busDraw: real): (t: RoadState)
    requires 0.0 <= laneDraw < 1.0
    ensures t == s.(enemyCars := s.enemyCars + [NewCar(id, laneDraw, drunkDraw, busDraw)])
  {
    s.(enemyCars := s.enemyCars + [NewCar(id, laneDraw, drunkDraw, busDraw)])
  }

  /**
   * One tick of the 16 ms game loop: nothing once the game is over;
   * otherwise the traffic steps, the collision check runs on the cars and
   * lane the player saw, and a tenth of a mile is added when 100 ms have
   * passed since the last one.
   */
  function Tick(s: RoadState, rand: nat -> real, cursor: nat, innerWidth: real, innerHeight: real, now: int): (r: (RoadState, nat))
    requires RandomStream(rand)
    ensures s.isGameOver ==> r == (s, cursor)
    ensures !s.isGameOver ==>
              && r.0.enemyCars == UpdateEnemyCars(s.enemyCars, rand, cursor, innerHeight).cars
              && (r.0.isGameOver <==> exists i :: 0 <= i < |s.enemyCars| && Hits(s.enemyCars[i], s.currentLane, innerHeight))
              && r.0.miles == s.miles + (if now - s.lastMileUpdate >= 100 then 1 else 0)
              && r.0.lastMileUpdate == (if now - s.lastMileUpdate >= 100 then now else s.lastMileUpdate)
              && r.0.currentLane == s.currentLane && r.0.touchStart == s.touchStart
              && r.1 >= cursor
  {
    if s.isGameOver then (s, cursor)
    else
      var traffic := UpdateEnemyCars(s.enemyCars, rand, cursor, innerHeight);
      var checked := CheckCollisions(s, innerWidth, innerHeight).(enemyCars := traffic.cars);
      var t := if now - s.lastMileUpdate >= 100 then checked.(miles := checked.miles + 1, lastMileUpdate := now) else checked;
      (t, traffic.next)
  }

  /** No sequence of key presses and swipes takes the player off the road. */
  lemma {:induction false} HandlersKeepLane(s: RoadState, events: seq<(bool, SwapLane.Key, real)>)
    requires InRange(s.currentLane)
    ensures InRange(Handle(s, events).currentLane)
    decreases |events|
  {
    if events != [] {
      var e := events[0];
      var t := if e.0 then HandleKeyDown(s, e.1) else HandleTouchMove(s, e.2);
      HandlersKeepLane(t, events[1..]);
    }
  }

  /** The state after a run of input events: a key press when the flag is set, a touch move to the given x otherwise. */
  function Handle(s: RoadState, events: seq<(bool, SwapLane.Key, real)>): RoadState
    decreases |events|
  {
    if events == [] then s
    else
      var e := events[0];
      Handle(if e.0 then HandleKeyDown(s, e.1) else HandleTouchMove(s, e.2), events[1..])
  }
}

=== FILE: road_window.dfy ===
/**
 * The procedurally generated road: a window of segment y-coordinates kept
 * around a scrolling camera. New segments are pushed at the end of the list,
 * each SEGMENT_LENGTH further ahead (smaller y), until the window reaches one
 * canvas height ahead of the camera; segments more than one canvas height
 * behind the camera are shifted off the front. game.js and swapline.js share
 * this routine word for word.
 */
module RoadWindow {

  const SEGMENT_LENGTH: int := 80

  /** `Math.floor(cameraY / SEGMENT_LENGTH) * SEGMENT_LENGTH`: the first segment of an empty window. */
  function StartY(cameraY: real): (y: int)
    ensures OnGrid(y)
    ensures y as real <= cameraY < (y + SEGMENT_LENGTH) as real
  {
    (cameraY / 80.0).Floor * SEGMENT_LENGTH
  }

  /** A y-coordinate on the grid of segment starts. */
  predicate OnGrid(y: int) {
    y % SEGMENT_LENGTH == 0
  }

  /** One segment further ahead is still on the grid. */
  lemma OnGridStep(y: int)
    requires OnGrid(y)
    ensures OnGrid(y - SEGMENT_LENGTH)
  {
  }

  /** Every segment starts at a multiple of SEGMENT_LENGTH. */
  predicate Aligned(ys: seq<int>) {
    forall i :: 0 <= i < |ys| ==> OnGrid(ys[i])
  }

  /**
   * Each segment lies exactly SEGMENT_LENGTH ahead of (above) its predecessor,
   * stated from the first one: segment i is i segment lengths ahead of it.
   */
  predicate Spaced(ys: seq<int>) {
    forall i :: 0 <= i < |ys| ==> ys[i] == ys[0] - i * SEGMENT_LENGTH
  }

  /** The condition of the first loop: the window does not yet reach one canvas height ahead. */
  predicate NeedsSegment(ys: seq<int>, cameraY: real, canvasHeight: real) {
    ys == [] || ys[|ys| - 1] as real > cameraY - canvasHeight
  }

  /** The y of the segment the first loop pushes next. */
  function NextSegment(ys: seq<int>, cameraY: real): (y: int)
    ensures ys != [] ==> y == ys[|ys| - 1] - SEGMENT_LENGTH
  {
    if ys == [] then StartY(cameraY) else ys[|ys| - 1] - SEGMENT_LENGTH
  }

  /** The list after the first loop: segments pushed while NeedsSegment holds. */
  function Grow(ys: seq<int>, cameraY: real, canvasHeight: real): (r: seq<int>)
    ensures ys <= r
    decreases ys == [], if ys == [] then 0 else ys[|ys| - 1] - (cameraY - canvasHeight).Floor
  {
    if NeedsSegment(ys, cameraY, canvasHeight) then
      Grow(ys + [NextSegment(ys, cameraY)], cameraY, canvasHeight)
    else
      ys
  }

  /** The list after the second loop: leading segments further back than `limit` are dropped. */
  function Trim(ys: seq<int>, limit: real): (r: seq<int>)
    ensures |r| <= |ys| && r == ys[|ys| - |r|..]
    ensures r != [] ==> r[0] as real <= limit
    ensures forall i :: 0 <= i < |ys| - |r| ==> ys[i] as real > limit
  {
    if ys != [] && ys[0] as real > limit then Trim(ys[1..], limit) else ys
  }

  /** After the first loop the window is non-empty and reaches one canvas height ahead of the camera. */
  lemma {:induction false} GrowCovers(ys: seq<int>, cameraY: real, canvasHeight: real)
    ensures var r := Grow(ys, cameraY, canvasHeight);
            r != [] && r[|r| - 1] as real <= cameraY - canvasHeight
    decreases ys == [], if ys == [] then 0 else ys[|ys| - 1] - (cameraY - canvasHeight).Floor
  {
    if NeedsSegment(ys, cameraY, canvasHeight) {
      GrowCovers(ys + [NextSegment(ys, cameraY)], cameraY, canvasHeight);
    }
  }

  /** Every pushed segment is SEGMENT_LENGTH ahead of its predecessor and stays aligned. */
  lemma {:induction false} GrowKeepsShape(ys: seq<int>, cameraY: real, canvasHeight: real)
    requires Spaced(ys) && Aligned(ys)
    ensures Spaced(Grow(ys, cameraY, canvasHeight)) && Aligned(Grow(ys, cameraY, canvasHeight))
    decreases ys == [], if ys == [] then 0 else ys[|ys| - 1] - (cameraY - canvasHeight).Floor
  {
    if NeedsSegment(ys, cameraY, canvasHeight) {
      var next := ys + [NextSegment(ys, cameraY)];
      assert Spaced(next);
      assert Aligned(next);
      GrowKeepsShape(next, cameraY, canvasHeight);
    }
  }

  /**
   * The first loop stops at the first segment that reaches one canvas height
   * ahead: every pushed segment but the last is still short of it, and so is
   * the segment that was last before.
   */
  lemma {:induction false} GrowStopsAtFirstCover(ys: seq<int>, cameraY: real, canvasHeight: real)
    requires NeedsSegment(ys, cameraY, canvasHeight)
    ensures var r := Grow(ys, cameraY, canvasHeight);
            |r| > |ys| && forall k :: |ys| <= k < |r| - 1 ==> r[k] as real > cameraY - canvasHeight
    decreases ys == [], if ys == [] then 0 else ys[|ys| - 1] - (cameraY - canvasHeight).Floor
  {
    var next := ys + [NextSegment(ys, cameraY)];
    if NeedsSegment(next, cameraY, canvasHeight) {
      GrowStopsAtFirstCover(next, cameraY, canvasHeight);
    }
  }

  /** All segments but the last lie short of one canvas height ahead: the window holds no surplus. */
  predicate Tight(ys: seq<int>, cameraY: real, canvasHeight: real) {
    forall k :: 0 <= k < |ys| - 1 ==> ys[k] as real > cameraY - canvasHeight
  }

  /** Dropping leading segments keeps the spacing and the alignment. */
  lemma TrimKeepsShape(ys: seq<int>, limit: real)
    requires Spaced(ys) && Aligned(ys)
    ensures Spaced(Trim(ys, limit)) && Aligned(Trim(ys, limit))
  {
    var w := Trim(ys, limit);
    var d := |ys| - |w|;
    forall i | 0 <= i < |w|
      ensures w[i] == w[0] - i * SEGMENT_LENGTH
    {
      assert w[i] == ys[d + i] && w[0] == ys[d];
    }
    forall i | 0 <= i < |w|
      ensures OnGrid(w[i])
    {
      assert w[i] == ys[d + i];
    }
  }

  /** Eviction stops at a segment no further back than the limit, so it never reaches the last one. */
  lemma TrimKeepsLast(ys: seq<int>, limit: real)
    requires ys != [] && ys[|ys| - 1] as real <= limit
    ensures var w := Trim(ys, limit);
            w != [] && w[|w| - 1] == ys[|ys| - 1]
  {
  }

  /** One call of `generateRoadIfNeeded`: the first loop, then the second. */
  function Generate(ys: seq<int>, cameraY: real, canvasHeight: real): seq<int> {
    Trim(Grow(ys, cameraY, canvasHeight), cameraY + canvasHeight)
  }

  /**
   * The result of one call reaches one canvas height ahead of the camera
   * through the last segment the first loop produced (eviction never reaches
   * it), and starts no further back than one canvas height behind.
   */
  lemma GenerateCovers(ys: seq<int>, cameraY: real, canvasHeight: real)
    requires canvasHeight >= 0.0
    ensures var g := Grow(ys, cameraY, canvasHeight);
            var w := Generate(ys, cameraY, canvasHeight);
            && w != [] && w[|w| - 1] == g[|g| - 1]
            && w[|w| - 1] as real <= cameraY - canvasHeight
            && w[0] as real <= cameraY + canvasHeight
  {
    var g := Grow(ys, cameraY, canvasHeight);
    GrowCovers(ys, cameraY, canvasHeight);
    TrimKeepsLast(g, cameraY + canvasHeight);
  }

  /** The result of one call keeps the spacing and the alignment of the window. */
  lemma GenerateKeepsShape(ys: seq<int>, cameraY: real, canvasHeight: real)
    requires Spaced(ys) && Aligned(ys)
    ensures Spaced(Generate(ys, cameraY, canvasHeight)) && Aligned(Generate(ys, cameraY, canvasHeight))
  {
    GrowKeepsShape(ys, cameraY, canvasHeight);
    TrimKeepsShape(Grow(ys, cameraY, canvasHeight), cameraY + canvasHeight);
  }

  /**
   * While the camera moves forward (its y does not grow), a window with no
   * surplus keeps having none after the next call.
   */
  lemma GenerateKeepsTight(ys: seq<int>, oldCameraY: real, cameraY: real, canvasHeight: real)
    requires canvasHeight >= 0.0 && cameraY <= oldCameraY
    requires Tight(ys, oldCameraY, canvasHeight)
    ensures Tight(Generate(ys, cameraY, canvasHeight), cameraY, canvasHeight)
  {
    var g := Grow(ys, cameraY, canvasHeight);
    GrowCovers(ys, cameraY, canvasHeight);
    if NeedsSegment(ys, cameraY, canvasHeight) {
      GrowStopsAtFirstCover(ys, cameraY, canvasHeight);
      assert Tight(g, cameraY, canvasHeight);
    } else {
      assert g == ys;
    }
    var w := Trim(g, cameraY + canvasHeight);
    forall k | 0 <= k < |w| - 1
      ensures w[k] as real > cameraY - canvasHeight
    {
      assert w[k] == g[|g| - |w| + k];
    }
  }

  /**
   * A window with no surplus holds fewer than 2 * canvasHeight / SEGMENT_LENGTH + 2
   * segments, whatever has been played before: the list does not grow
   * without bound.
   */
  lemma WindowBounded(w: seq<int>, cameraY: real, canvasHeight: real)
    requires canvasHeight >= 0.0
    requires Spaced(w) && Tight(w, cameraY, canvasHeight)
    requires w != [] && w[0] as real <= cameraY + canvasHeight
    ensures (|w| - 2) as real * 80.0 < 2.0 * canvasHeight
  {
    if |w| >= 2 {
      assert w[|w| - 2] as real > cameraY - canvasHeight;
      assert w[|w| - 2] as real == w[0] as real - (|w| - 2) as real * 80.0;
    }
  }

  /** The window as the global `roadSegments` array that every frame updates in place. */
  class RoadSegments {
    var ys: seq<int>

    ghost predicate Valid()
      reads this
    {
      Spaced(ys) && Aligned(ys)
    }

    constructor ()
      ensures Valid() && ys == []
    {
      ys := [];
    }

    /** `roadSegments = []` on a restart. */
    method Clear()
      modifies this
      ensures Valid() && ys == []
    {
      ys := [];
    }

    /** `generateRoadIfNeeded`: extend ahead of the camera, then evict from the back. */
    method GenerateIfNeeded(cameraY: real, canvasHeight: nat)
      requires Valid()
      modifies this
      ensures Valid()
      ensures ys == Generate(old(ys), cameraY, canvasHeight as real)
      ensures ys != [] && ys[|ys| - 1] as real <= cameraY - canvasHeight as real
      ensures ys[0] as real <= cameraY + canvasHeight as real
    {
      var h := canvasHeight as real;
      GenerateCovers(ys, cameraY, h);
      Extend(cameraY, h);
      Evict(cameraY + h);
    }

    /** The first loop: push segments ahead until one lies a canvas height ahead of the camera. */
    method Extend(cameraY: real, canvasHeight: real)
      requires Valid()
      modifies this
      ensures Valid()
      ensures ys == Grow(old(ys), cameraY, canvasHeight)
    {
      GrowKeepsShape(ys, cameraY, canvasHeight);
      ghost var target := Grow(ys, cameraY, canvasHeight);
      while ys == [] || ys[|ys| - 1] as real > cameraY - canvasHeight
        invariant Grow(ys, cameraY, canvasHeight) == target
        decreases ys == [], if ys == [] then 0 else ys[|ys| - 1] - (cameraY - canvasHeight).Floor
      {
        var y := if ys == [] then StartY(cameraY) else ys[|ys| - 1] - SEGMENT_LENGTH;
        ys := ys + [y];
      }
      assert !NeedsSegment(ys, cameraY, canvasHeight);
    }

    /** The second loop: shift segments off the front while they lie further back than `limit`. */
    method Evict(limit: real)
      requires Valid()
      modifies this
      ensures Valid()
      ensures ys == Trim(old(ys), limit)
    {
      TrimKeepsShape(ys, limit);
      ghost var target := Trim(ys, limit);
      while ys != [] && ys[0] as real > limit
        invariant Trim(ys, limit) == target
      {
        ys := ys[1..];
      }
    }
  }
}

=== FILE: sequences.dfy ===
/** `Array.prototype.filter` on immutable sequences, shared by the prototypes that drop objects left behind. */
module Sequences {

  /** The elements of `s` that satisfy `keep`, in their original order. */
  function Filter<T(!new)>(s: seq<T>, keep: T -> bool): (r: seq<T>)
    ensures |r| <= |s|
    ensures forall x :: x in r <==> x in s && keep(x)
    ensures forall i :: 0 <= i < |r| ==> keep(r[i])
  {
    if s == [] then []
    else (if keep(s[0]) then [s[0]] else []) + Filter(s[1..], keep)
  }

  /**
   * Filtering distributes over concatenation: the survivors of a list are
   * the survivors of its first part followed by those of the rest, so the
   * filter never reorders what it keeps.
   */
  lemma {:induction false} FilterAppend<T(!new)>(a: seq<T>, b: seq<T>, keep: T -> bool)
    ensures Filter(a + b, keep) == Filter(a, keep) + Filter(b, keep)
  {
    if a == [] {
      assert a + b == b;
    } else {
      assert (a + b)[0] == a[0];
      assert (a + b)[1..] == a[1..] + b;
      FilterAppend(a[1..], b, keep);
    }
  }

  /** The filter keeps a list whole exactly when every element satisfies `keep`. */
  lemma {:induction false} FilterKeepsAll<T(!new)>(s: seq<T>, keep: T -> bool)
    ensures Filter(s, keep) == s <==> forall i :: 0 <= i < |s| ==> keep(s[i])
  {
    if s != [] {
      FilterKeepsAll(s[1..], keep);
      if !keep(s[0]) {
        assert |Filter(s, keep)| < |s|;
      }
    }
  }
}

=== FILE: wrappers.dfy ===
/**
 * Small shared vocabulary: optional values for JavaScript's `null` and
 * `undefined`, the two sideways directions, and streams of `Math.random()`
 * values.
 */
module Wrappers {

  datatype Option<+T> = None | Some(value: T)

  /** Left or right, the two directions a car can change lane or swerve. */
  datatype Direction = Left | Right {

    function Opposite(): (d: Direction)
      ensures d != this
    {
      if this == Left then Right else Left
    }
  }

  /**
   * A stream of `Math.random()` values, each in [0, 1). A model that draws
   * several values in one step reads them at a cursor it advances once per
   * draw, in the order the source draws them.
   */
  ghost predicate RandomStream(rand: nat -> real) {
    forall n :: 0.0 <= rand(n) < 1.0
  }
}
